=== FILE: README.md ===
# CrossForge grid engine in Dafny

CrossForge is a crossword construction tool. An author edits a grid: they paint black squares (optionally with symmetry), mark clue starts, type letters, and mark an autofill zone. A Python solver then fills the remaining cells from a word bank. This project models the core of that tool as pure functions over an immutable `seq<seq<Cell>>` grid, and proves what the code promises about them.

The model has five parts.

- **Derived views** (`gridfuns.dfy`, module `GridFuns`):
  - the highlighted word around the cursor (`getWordCoordinates`);
  - clue auto-marking (`autoMarkClues`);
  - row-major clue numbering (`numberGridAndGetClues`);
  - reading a word out of the grid (`getWordFromGrid`).

  `grid.dfy` holds the cell and grid types. It also holds direction-generic lanes: a lane is a row for across and a column for down. These let one lemma about runs of white cells serve both directions.
- **Interchange codec** (`codec.dfy`, module `Codec`):
  - `transformGridForPython` discovers the across lines and then the down lines, sends `_` for empty cells, and records every crossing on both lines;
  - `applyLinesToGrid` writes solved words back into the grid.
- **Editor mutation rules**:
  - `keys.dfy` holds the keydown state machine shared by the creator and the player. It covers the creator's mode gate and digraph composition (LJ, NJ and DŽ become Ǉ, Ǌ and Ǆ).
  - `editor.dfy` holds symmetric black painting, clue-flag and zone toggles, the mouse handlers, clamped resizing and clearing letters.
  - `requests.dfy` holds the autofill precondition and the grid that is sent, the blacklist word array, and "add the selected word to the blacklist". `text.dfy` models JavaScript's `split`, `join` and `trim`, which the blacklist uses.
- **Solver bookkeeping** (`solver.dfy`, module `Solver`):
  - the word-bank filter;
  - the `cwline` stacks with `setNeighbour`, `constrain` and `lockIn`;
  - the pop/undo discipline of `tryAll`, its choice of the most constrained line, and its skip rule.
- **The solver's start-up** (`pipeline.dfy`, module `Pipeline`): it builds one cwline per line received from the editor, registers the crossings, and applies the grid's letters. This part joins the codec to the solver: for any grid, the search starts from a well-formed crossword whose links are reciprocal, and in which no two links of a line lead to the same line.

Some behaviours of the code are easy to misread; the model follows the code:

- Painting a cell black leaves its letter, because the clearing line is commented out. Letters can also be typed into black cells.
- Resizing fills new cells with a white, empty cell.
- A typed J composes with whatever letter is under the cursor. After an L is typed, the cursor stays on that L only at the end of a lane, so only there does L then J compose Ǉ in the L's cell (`Keys.LThenJAtLaneEnd`). Inside a lane the cursor moves on, and J composes with the next cell's own letter. On two empty cells the result is "L" and "J" side by side (`Keys.LThenJOnEmptyCells`). When the next cell already holds L, the typed L stays, the next cell becomes Ǉ, and the cursor moves past it (`Keys.LThenJOnNextL`).
- With two symmetry toggles on, the painted cells are the single images of the clicked cell, not their compositions. A grid symmetric under both transforms can therefore lose both symmetries (`Editor.TwoTogglesBreakSymmetry`).
- The editor sends `_` for an empty cell, but the solver skips only `.`. This is harmless: constraining by `_` fails and changes nothing (`Solver.PlaceholderActsAsDot`).

## Model

| member | source | states |
|---|---|---|
| Basics.Clamp | app/creator/creatorApp.tsx:390-391 | The result lies in [lo, hi]. It is x when x is in range, lo below the range, and hi above it. |
| Grid.RunEnd | app/creator/gridfuns.tsx:49-53 | The forward walk stops at the first black offset at or after k, or at the lane end. Every offset passed is white. |
| Grid.RunStart | app/creator/gridfuns.tsx:41-47 | The backward walk, plus one, gives the first offset of the white run ending at k. It is preceded by a black cell or the edge. |
| Grid.RunAroundIsMaximal | app/creator/gridfuns.tsx:41-53 | The two walks around a white cell delimit exactly the maximal white run that contains it. |
| Grid.MaximalRunUnique | app/creator/gridfuns.tsx:41-53 | Two maximal runs that share a cell are the same run. |
| Grid.RunFromStartIsMaximal | app/creator/gridfuns.tsx:79-80 | A run start and its forward walk form a non-empty maximal run. |
| GridFuns.WordCoordinates | app/creator/gridfuns.tsx:27-56 | Only in-bounds white cells on the cursor's lane are returned, and they form one maximal run. The start cell is included iff it is white. A black start cell yields the run that begins just after it. |
| GridFuns.HighlightedRun | app/creator/gridfuns.tsx:41-53 | The cells of a maximal run through (or just after) p are white, on p's lane, and contain p iff p is white. |
| GridFuns.MarkedStarts | app/creator/gridfuns.tsx:72-86 | The inner scan marks exactly the run starts at or after c whose run is at least minLength long. |
| GridFuns.AutoMarkClues | app/creator/gridfuns.tsx:58-108 | Only the two flags change. A flag is set exactly on the first cell of a maximal white run of at least minLength cells, so no black cell is flagged. |
| GridFuns.SameBlacksSameEntries | app/creator/gridfuns.tsx:66-105 | Which cells start an entry depends only on the black layout. |
| GridFuns.AutoMarkIdempotent | app/creator/gridfuns.tsx:58-108 | Marking twice is the same as marking once. |
| GridFuns.RankStrictlyIncreasing | app/creator/gridfuns.tsx:123-139 | Clue numbers grow strictly in reading order. A numbered cell gets a smaller number than every later cell. |
| GridFuns.RankNext | app/creator/gridfuns.tsx:132-139 | The counter moves past a cell by one iff the cell is numbered. A cell with both flags still takes one number. |
| GridFuns.ClueListed | app/creator/gridfuns.tsx:132-138 | Listing a flagged numbered cell under the next number keeps the list increasing, valid, and complete up to the next cell. |
| GridFuns.ClueSkipped | app/creator/gridfuns.tsx:127-139 | Passing a cell not listed for this direction keeps the list complete up to the next cell, with the counter in step. |
| GridFuns.NumberRow | app/creator/gridfuns.tsx:124-140 | One row of the scan numbers each of its cells, and leaves both lists valid, increasing, and complete up to the next row. |
| GridFuns.NumberGridAndGetClues | app/creator/gridfuns.tsx:110-144 | Each white flagged cell gets 1 + (the number of numbered cells before it in reading order). Every other cell, including a flagged black cell, gets none. Both lists are strictly increasing and list exactly the cells that carry their flag. |
| GridFuns.ReadLetters | app/creator/gridfuns.tsx:153-163 | Blanks add nothing, so the word is never longer than the stretch. It is exactly as long iff every cell has a letter, and then it spells those letters in order. |
| GridFuns.ReadLettersSplit | app/creator/gridfuns.tsx:153-163 | The letters of a stretch are the letters of its first part followed by those of the rest, for every split point. |
| GridFuns.ReadLettersOne | app/creator/gridfuns.tsx:155-159 | A one-cell stretch reads as that cell's letter, or as nothing when the cell is blank. |
| GridFuns.ReadLettersCell | app/creator/gridfuns.tsx:153-163 | Each cell contributes its own letter in its place, between the letters before and after it. A blank cell contributes nothing. |
| GridFuns.SpellFacts | app/creator/gridfuns.tsx:155-163 | Joining cell letters, blanks as empty strings: the result is never longer than the cells, exactly as long iff no cell is blank, and then it spells the cells one character each. |
| GridFuns.SpellAppend | app/creator/gridfuns.tsx:153-163 | Joining the letters of two runs of cells one after the other gives the joined letters of each, concatenated. |
| GridFuns.SpellBlanks | app/creator/gridfuns.tsx:155-163 | Cells that are all blank join to the empty string. |
| GridFuns.ReadBlankStretch | app/creator/gridfuns.tsx:153-163 | A stretch of empty cells reads as the empty word. |
| GridFuns.WordFromGrid | app/creator/gridfuns.tsx:147-164 | The letters from (row, col) up to the first black cell or edge, and the empty word when (row, col) is past the edge. The word is never longer than that stretch, exactly as long iff no cell in it is empty, and then spells its cells in order. |
| Codec.Runs | app/creator/gridfuns.tsx:180-185 | The lane scan lists (start, end) pairs of maximal white runs in increasing order of start. |
| Codec.RunsComplete | app/creator/gridfuns.tsx:180-185 | The lane scan misses no run start. |
| Codec.Flagged | app/creator/gridfuns.tsx:187 | Kept runs are scanned runs whose first cell carries the direction's flag. |
| Codec.FlaggedSorted | app/creator/gridfuns.tsx:181-206 | Filtering keeps the scan order. |
| Codec.FlaggedComplete | app/creator/gridfuns.tsx:187-206 | Filtering drops only unflagged runs. |
| Codec.LaneSpans | app/creator/gridfuns.tsx:179-207 | A lane's lines lie on that lane and in that direction, ordered by start. |
| Codec.LaneSpanValid | app/creator/gridfuns.tsx:181-187 | Every line listed for a lane is a maximal run with a flagged first cell. |
| Codec.LaneSpansComplete | app/creator/gridfuns.tsx:181-187 | Every flagged run start of a lane yields a line. |
| Codec.DirSpans | app/creator/gridfuns.tsx:179-208 | The lines of one direction lie in lanes from `lane` on. |
| Codec.DirSpansStep | app/creator/gridfuns.tsx:179-181 | The scan of lanes from `lane` on is that lane's lines followed by the later lanes' lines. |
| Codec.DirSpansSorted | app/creator/gridfuns.tsx:179-208 | One direction's lines are ordered by lane, then by start. |
| Codec.ConcatSorted | app/creator/gridfuns.tsx:179-208 | One lane's ordered lines followed by later lanes' ordered lines stay ordered. |
| Codec.DirSpansComplete | app/creator/gridfuns.tsx:179-208 | Every lane's lines appear in the direction's scan. |
| Codec.DirSpanValid | app/creator/gridfuns.tsx:179-208 | Every line of a direction's scan is a flagged maximal run. |
| Codec.ScansValid | app/creator/gridfuns.tsx:179-240 | Both scans list only flagged maximal runs. |
| Codec.AllSpans | app/creator/gridfuns.tsx:176-240 | Every discovered line is a flagged maximal run. |
| Codec.AllSpansFacts | app/creator/gridfuns.tsx:176-240 | Discovered lines are valid, and no two share direction, lane and start. |
| Codec.FindSpan | app/creator/gridfuns.tsx:200-202 | The cellData lookup finds a line of direction d through p, and no earlier one. It finds none iff no such line exists. |
| Codec.ValidSpansThroughCell | app/creator/gridfuns.tsx:200-202 | Two valid lines of one direction through the same cell are the same line. |
| Codec.FindSpanUnique | app/creator/gridfuns.tsx:245-248 | The lookup returns the one line of that direction through the cell. |
| Codec.NeighboursFrom | app/creator/gridfuns.tsx:243-262 | A line's records are exactly the crossings at its offsets, listed in increasing own offset, which is the row-major sweep's order. |
| Codec.SpanWord | app/creator/gridfuns.tsx:188-191 | The word has the run's length, with each cell's letter or `_` for an empty cell. |
| Codec.MakeLine | app/creator/gridfuns.tsx:188-199 | The line record of run k is numbered k and has the run's direction and first cell. Its length is the run's, and its word has one letter or `_` per cell of the run, in order. |
| Codec.TransformGridForPython | app/creator/gridfuns.tsx:166-266 | One line per discovered run, in discovery order. Line k has index k, lies on run k from its first cell, is as long as the run (never empty) and carries one letter or placeholder per cell. Every flagged run start of the grid is among the runs. Crossing records join perpendicular lines and are mirrored with the offsets swapped. |
| Codec.LinesShape | app/creator/gridfuns.tsx:187-206 | Every line built from a list of valid runs lies on its run, numbered by position, with one character per cell. |
| Codec.LineOnRun | app/creator/gridfuns.tsx:187-206 | One built line has its run's direction, first cell and positive length, and spells the run's cells. |
| Codec.AllRunsFound | app/creator/gridfuns.tsx:178-187 | Discovery lists every flagged run start in both directions, each with its run's end. |
| Codec.LinesComplete | app/creator/gridfuns.tsx:175-206 | When the run list holds every flagged run, some line starts at each such run's first cell with the run's length. |
| Codec.EveryRunSent | app/creator/gridfuns.tsx:166-206 | Every flagged run start of the grid begins an emitted line of that run's length and direction. |
| Codec.LinesReciprocal | app/creator/gridfuns.tsx:243-262 | The crossing records of lines built from valid, distinct runs join perpendicular lines and are recorded by the other line with the offsets swapped. |
| Codec.AllSpansOK | app/creator/gridfuns.tsx:176-240 | Discovered lines are valid and pairwise distinct. |
| Codec.LineGeometry | app/creator/gridfuns.tsx:187-206 | Line k has index k, starts at its run's first cell, has a positive length equal to the run's, and carries one letter or placeholder per cell. |
| Codec.DiscoveryOrder | app/creator/gridfuns.tsx:176-240 | All across lines come before all down lines. Across lines are row-major and down lines column-major. |
| Codec.ConcatOrder | app/creator/gridfuns.tsx:176-240 | Concatenating the ordered across lines and the ordered down lines gives that discovery order. |
| Codec.DiscoveryComplete | app/creator/gridfuns.tsx:181-187 | Every maximal run whose first cell is flagged becomes a line. Flags on other cells are ignored. |
| Codec.SpanReciprocal | app/creator/gridfuns.tsx:243-262 | On discovered lines, every record leads to a perpendicular line, with offsets inside both lines. The mirrored record is there. |
| Codec.CrossingsReciprocal | app/creator/gridfuns.tsx:243-262 | If line k records offset own = offset other of line j, then line j records the same crossing with the offsets swapped. The two lines run in different directions. |
| Codec.CrossingFromCover | app/creator/gridfuns.tsx:243-262 | A perpendicular line through a cell of a line yields a record for that cell. |
| Codec.CoverFromCrossing | app/creator/gridfuns.tsx:245-254 | Every record names a perpendicular line through the recorded cell. |
| Codec.CrossingPerCell | app/creator/gridfuns.tsx:243-262 | A line's records have strictly increasing own offsets. Offset i has a record iff a perpendicular line passes through that cell. |
| Codec.SameLineSameCell | app/creator/gridfuns.tsx:246-261 | Two records of one line that lead to the same line record the same cell. |
| Codec.CrossOnceSpans | app/creator/gridfuns.tsx:243-262 | A line's records lead to pairwise different lines, none of them itself. |
| Codec.CrossOnce | app/creator/gridfuns.tsx:243-262 | The same holds for the lines sent: two lines cross at most once. |
| Codec.CellOnOneLine | app/creator/gridfuns.tsx:200-202 | A cell lies on at most one discovered line per direction. |
| Codec.CellMembership | app/creator/gridfuns.tsx:181-190 | A white cell lies on a line of direction d iff the first cell of its run carries d's flag. |
| Codec.CoverHasFlag | app/creator/gridfuns.tsx:187 | A valid line through a white cell starts at that cell's run start, which is flagged. |
| Codec.FlagGivesCover | app/creator/gridfuns.tsx:187-202 | A flagged run start puts a discovered line through every cell of its run. |
| Codec.TargetOnLine | app/creator/gridfuns.tsx:272-273 | start + i along the direction is the cell at offset i of the line, and the reverse. |
| Codec.ApplyWord | app/creator/gridfuns.tsx:271-281 | For one line, each white target cell from offset i on gets word[offset]. Black cells and all other cells are unchanged. |
| Codec.LastWrite | app/creator/gridfuns.tsx:269-282 | The letter the last line through p writes there, if any line passes through it. |
| Codec.ApplyLinesToGrid | app/creator/gridfuns.tsx:268-283 | Every white cell ends with the letter of the last line through it. Black cells and cells on no line keep everything. |
| Codec.ApplyLinesStep | app/creator/gridfuns.tsx:269-282 | Writing the last line over the earlier lines' result gives the written grid for all lines. |
| Codec.ApplyLinesFrame | app/creator/gridfuns.tsx:275-278 | Black cells and cells on no line are left unchanged. |
| Codec.LineCells | app/creator/gridfuns.tsx:272-273 | A line laid along a valid run targets in-bounds cells, passes through p iff the run covers p, and carries p's letter there. |
| Codec.EmittedLineAt | app/creator/gridfuns.tsx:188-201 | Each line sent for a grid lies inside it, passes exactly through its run's cells, and carries each cell's letter or `_`. |
| Codec.LastWriteSent | app/creator/gridfuns.tsx:269-280 | Whatever the sent lines write at p is p's own letter or placeholder, and p is on a line. |
| Codec.RoundTripCell | app/creator/gridfuns.tsx:269-280 | The sent lines write at p iff p is on a line, and then they write p's own letter or `_`. |
| Codec.RoundTrip | app/creator/gridfuns.tsx:268-283 | Writing back the lines sent for a grid changes only the white cells on lines, and each gets its own letter, or `_` if it was empty. |
| Codec.FilledGridRoundTrip | app/creator/gridfuns.tsx:268-283 | A grid whose white cells all hold letters comes back unchanged after its lines are sent and written back. |
| Keys.Upper | app/creator/creatorApp.tsx:353-354 | Upper-casing maps a-z to A-Z (32 code points down) and keeps A-Z. It maps each Croatian small letter to its capital, one code point down, and keeps the capitals. Every other character is kept. |
| Keys.Digraph | app/creator/creatorApp.tsx:7-11 | Exactly three upper-case pairs compose: LJ into Ǉ, NJ into Ǌ and DŽ into Ǆ. Each composed letter comes from exactly one pair, and no other pair composes. |
| Keys.UpperIdempotent | app/creator/creatorApp.tsx:353-354 | Upper-casing twice is the same as once. A Croatian letter always becomes one of Č Ć Ž Š Đ. |
| Keys.SetLetter | app/creator/creatorApp.tsx:370-374 | Writing a letter into a cell changes only that cell's letter. Every other field of that cell and every other cell are kept, and so is the shape of the grid. |
| Keys.StepsAlongLane | app/creator/creatorApp.tsx:333-343 | A forward or backward step stays on the cursor's lane and moves its offset by one, clamped to the lane. |
| Keys.KeyDown | app/creator/creatorApp.tsx:316-381 | The cursor stays in bounds and the shape is kept. Only Shift changes the direction. Outside edit mode the creator changes nothing. |
| Keys.KeyDownLocal | app/player/playerApp.tsx:51-94 | A key changes at most the letter of the cursor's cell, and moves the cursor by at most one cell along a row or column. |
| Keys.ArrowKeysClamp | app/creator/creatorApp.tsx:329-332 | Arrows move one cell, clamped to [0,h-1]×[0,w-1], and keep the grid and direction. This holds in both editors. |
| Keys.ShiftFlips | app/creator/creatorApp.tsx:324-327 | Shift flips the direction without moving. Pressing it twice restores the session. |
| Keys.SpaceAdvances | app/creator/creatorApp.tsx:333-335 | Space advances one cell along the direction, never past the lane end, and leaves the grid alone. |
| Keys.ClearingKeys | app/creator/creatorApp.tsx:336-351 | Backspace clears the cell, then steps back unless at the lane start. Delete clears without moving. |
| Keys.LetterEntry | app/creator/creatorApp.tsx:352-377 | A letter key writes the upper-cased key, or the composed digraph when the creator's cell already holds its first half, then advances once. Other characters do nothing. |
| Keys.PlayerNeverComposes | app/player/playerApp.tsx:84-89 | The player writes only ASCII letters, upper-cased, with no digraph composition. |
| Keys.LThenJOnEmptyCells | app/creator/creatorApp.tsx:352-377 | Typing l then j across two empty cells writes L and J side by side. |
| Keys.LThenJAtLaneEnd | app/creator/creatorApp.tsx:353-368 | At the last cell of a lane, L then J composes Ǉ and the cursor stays put. |
| Keys.LThenJOnNextL | app/creator/creatorApp.tsx:352-377 | Inside a lane, when the next cell already holds L, typing L then J keeps the typed L, turns the next cell into Ǉ, and moves the cursor past it. |
| Keys.ComposeIgnoresCase | app/creator/creatorApp.tsx:7-11 | LJ, NJ and DŽ compose in any case mix. L followed by any other ASCII letter does not. |
| Editor.SymmetricCells | app/creator/creatorApp.tsx:227-247 | The result is exactly the in-bounds images under the enabled transforms: rotational, mirror, and diagonal (the last only on a square grid). |
| Editor.ImageInvolution | app/creator/creatorApp.tsx:236-244 | Each transform is its own inverse and maps grid cells into the grid when enabled. |
| Editor.PaintBlack | app/creator/creatorApp.tsx:249-268 | The clicked cell and its companions get the new isBlack value. Their letters and every other cell are untouched. |
| Editor.PaintKeepsSymmetry | app/creator/creatorApp.tsx:249-268 | With one toggle on, painting keeps a grid symmetric under that transform symmetric. |
| Editor.CornerPaint | app/creator/creatorApp.tsx:236-264 | With rotation and mirror on, painting a white 3×3 grid's corner blackens it and its two single images, but not the fourth corner. |
| Editor.TwoTogglesBreakSymmetry | app/creator/creatorApp.tsx:236-264 | With two toggles on, painting can break both symmetries of a grid that had them. |
| Editor.ToggleClue | app/creator/creatorApp.tsx:196-221 | Only the selected cell's flag of that direction changes, and only if the cell is white. |
| Editor.ToggleClueTwice | app/creator/creatorApp.tsx:196-221 | Toggling twice restores the grid. |
| Editor.ZoneClick | app/creator/creatorApp.tsx:644-650 | Button 0 sets the zone mark and button 2 clears it, on that cell only. Any other button changes nothing. |
| Editor.ClickSelect | app/player/playerApp.tsx:160-164 | Clicking the selected cell flips the direction. Clicking another cell selects it and keeps the direction. |
| Editor.ClickTwice | app/creator/creatorApp.tsx:659-664 | Two clicks on one cell leave the cursor there. The direction is unchanged if the cell was already selected, and flipped once otherwise. |
| Editor.MouseDown | app/creator/creatorApp.tsx:634-667 | The button is recorded. In paint mode the cell and its companions turn black, or white for the right button. In zone mode the zone click applies with that button. In edit mode a right click empties the cell's letter and keeps the cursor. Any other click in edit mode toggles the direction or selects the cell, as a click does. |
| Editor.MouseEnter | app/creator/creatorApp.tsx:668-686 | Dragging never moves the cursor. In paint mode with a button held, the entered cell and its companions are painted as a press with that button would paint them. In zone mode the held button's zone update applies. In edit mode a held right button empties the entered cell's letter, and otherwise nothing changes. Without a held button, outside zone mode, nothing changes. |
| Editor.MouseUp | app/creator/creatorApp.tsx:606-607 | Releasing or leaving forgets the held button and nothing else. |
| Editor.DragPaintsLikePress | app/creator/creatorApp.tsx:640-672 | A press and a drag in paint mode give both cells, and all their companions, the same colour: black unless the right button is held. Every letter and every other cell is kept. |
| Editor.RightDragClears | app/creator/creatorApp.tsx:651-685 | A right press and a drag in edit mode empty the letters of both cells. Every other field and every other cell is kept, and the cursor stays. |
| Editor.Resize | app/creator/creatorApp.tsx:390-397 | Both sides are clamped to [1,50]. Overlap cells are kept and new cells are fresh white empty cells. |
| Editor.ApplyDimensions | app/creator/creatorApp.tsx:387-402 | Resizes and puts the cursor at (0,0), which lies inside the new grid. |
| Editor.ResizeBack | app/creator/creatorApp.tsx:393-397 | Resizing and then resizing back restores cells inside both rectangles. All other cells are fresh. |
| Editor.GrowThenShrink | app/creator/creatorApp.tsx:393-397 | Growing and then shrinking to the old size restores the grid. |
| Editor.ClearGridLetters | app/creator/creatorApp.tsx:48-57 | Every letter is emptied, black cells included. Nothing else changes. |
| Editor.ClearIdempotent | app/creator/creatorApp.tsx:48-57 | Clearing again changes nothing. |
| Editor.ClearedGridReadsEmpty | app/creator/gridfuns.tsx:153-163 | After clearing, every word read out of the grid is empty. |
| Requests.Blanked | app/creator/creatorApp.tsx:133-141 | A black cell is sent as is. A white cell loses its letter iff it is in the zone, or no zone exists. |
| Requests.BlankedGrid | app/creator/creatorApp.tsx:133-142 | Every cell is blanked and the shape is kept. |
| Requests.AutofillRequest | app/creator/creatorApp.tsx:125-142 | The request fails with "Please mark clues!" iff no cell carries a flag. Otherwise the grid is sent with the letters to be refilled emptied. |
| Requests.BlankedKeepsZone | app/creator/creatorApp.tsx:133-142 | Blanking keeps whether a zone exists. |
| Requests.BlankedKeepsClues | app/creator/creatorApp.tsx:133-142 | Blanking keeps whether a clue flag exists. |
| Requests.AutofillRequestIdempotent | app/creator/creatorApp.tsx:125-142 | Sending an already-sent grid sends it unchanged. |
| Requests.Pieces | app/creator/creatorApp.tsx:306 | One trimmed, space-free piece per space-separated piece of the blacklist. |
| Requests.PiecesOfJoin | app/creator/creatorApp.tsx:306-309 | Trimmed space-free pieces survive a join and a re-split. |
| Requests.Words | app/creator/creatorApp.tsx:109-112 | The words are exactly the non-empty pieces. No word is added, and there are never more words than pieces. |
| Requests.PiecesOfEmpty | app/creator/creatorApp.tsx:109-112 | The empty blacklist is one empty piece. |
| Requests.WordsOfBoth | app/creator/creatorApp.tsx:109-119 | The words of two lists are the non-empty pieces of either, all trimmed and space-free. |
| Requests.BlacklistArray | app/creator/creatorApp.tsx:109-123 | The array holds exactly the non-empty words of the visible and hidden blacklists. |
| Requests.SelectedRun | app/creator/creatorApp.tsx:270-271 | The highlighted run lies on the cursor's lane. |
| Requests.SelectedRunHighlighted | app/creator/creatorApp.tsx:271 | The run is exactly getWordCoordinates' cell set. |
| Requests.ClearStretch | app/creator/creatorApp.tsx:287-293 | The run's letters are emptied and every other cell is kept. |
| Requests.SelectedWord | app/creator/creatorApp.tsx:270-285 | There is no word iff a highlighted cell is empty. Otherwise the word spells the highlighted letters in order. |
| Requests.CompleteWordAtSelected | app/creator/creatorApp.tsx:270-296 | An incomplete selection returns nothing and changes nothing. Otherwise it returns the word and empties its cells. |
| Requests.AddToBlacklist | app/creator/creatorApp.tsx:298-314 | An incomplete or empty selection changes nothing. A listed word leaves the blacklist as it was, but its letters are still cleared. A new word is appended. |
| Requests.AppendedPieces | app/creator/creatorApp.tsx:306-310 | Appending a space-free word and joining gives back the old pieces plus the word. |
| Requests.AddedIsListed | app/creator/creatorApp.tsx:298-314 | After an add, the blacklist's pieces are exactly the old pieces followed by the word. |
| Requests.AddAgainRefused | app/creator/creatorApp.tsx:306-313 | Adding the same word a second time reports it as already listed and leaves the blacklist unchanged. |
| Text.Split | app/creator/creatorApp.tsx:306 | Splitting gives at least one piece (the empty string gives one empty piece), and no piece contains the separator. |
| Text.SplitJoin | app/creator/creatorApp.tsx:306-309 | Joining separator-free pieces and splitting gives them back. |
| Text.JoinSplit | app/creator/creatorApp.tsx:306-309 | Splitting and joining gives the string back. |
| Text.Trim | app/creator/creatorApp.tsx:306 | The result is a piece of the input with no white space at either end, and everything removed is white space. |
| Text.TrimIdempotent | app/creator/creatorApp.tsx:306 | Trimming twice is trimming once. |
| Solver.LoadWordBank | scripts/autofill.py:24-36 | A word is in bucket n iff it has length n, quality above minQuality, and is not blacklisted. The load fails, naming the first accepted word, iff an accepted word has 60 or more characters. |
| Solver.NewLine | scripts/autofill.py:63-72 | A new line's current candidates are its bucket. It has no links, is not locked, and has in-step stacks. |
| Solver.SetNeighbour | scripts/autofill.py:74-76 | Adds the link on a and its mirror on b, and changes nothing else. |
| Solver.SetNeighbourReciprocal | scripts/autofill.py:74-76 | Registering a crossing keeps links reciprocal. |
| Solver.SetNeighbourBothWays | scripts/autofill.py:119-123 | Registering a crossing from the other line as well changes nothing. |
| Solver.RegisterAll | scripts/autofill.py:118-123 | Every record's link is present afterwards. Links only grow and nothing else changes. |
| Solver.RegisterAllReciprocal | scripts/autofill.py:118-123 | Starting from reciprocal links, the loop keeps them reciprocal. |
| Solver.Filtered | scripts/autofill.py:79-82 | The subset of candidates with the letter at the index. |
| Solver.SubsetSize | scripts/autofill.py:87 | For a subset, being smaller means being a proper subset. |
| Solver.PopNodes | scripts/autofill.py:186-188 | Pops one constraint from each line in toRemove and leaves the rest. |
| Solver.Constrain | scripts/autofill.py:78-93 | A conflict happens iff no candidate fits, and then the letter is returned and nothing changes. Otherwise one push lands on line k and k is added to toRemove. |
| Solver.ConstrainTop | scripts/autofill.py:84-92 | The pushed set is the filtered subset. The constrainer is pushed iff the set strictly shrank; otherwise the previous one is repeated. |
| Solver.ConstrainLinked | scripts/autofill.py:78-93 | A constrain keeps stacks in step, links and lengths, and locked flags. |
| Solver.ConstrainFits | scripts/autofill.py:78-93 | A constrain keeps every candidate at its line's length. |
| Solver.LockLinks | scripts/autofill.py:96-100 | Constraining the links keeps the shape. A conflict reports a letter of the word at its own offset. |
| Solver.LockLinksStep | scripts/autofill.py:96-100 | One link is one constrain, then either stop on conflict or continue. |
| Solver.LockLinksFits | scripts/autofill.py:95-100 | Constraining the links keeps candidates at their lengths. |
| Solver.PushLocked | scripts/autofill.py:102-103 | Pushes True and {word}. One pop restores the line. |
| Solver.PushLockedFits | scripts/autofill.py:102-103 | Pushing a word of the line's length keeps candidates at the length. |
| Solver.LockIn | scripts/autofill.py:95-103 | Shape and links are kept. A failure reports a letter of the word with its offset, and leaves the line's lockedIn stack alone. Success pushes True and the singleton {word}. |
| Solver.LockInWellFormed | scripts/autofill.py:95-103 | lockIn keeps the crossword well formed. |
| Solver.UndoStep | scripts/autofill.py:186-188 | A push onto one line followed by pushes onto others is one push per line of the union. |
| Solver.LockLinksUndo | scripts/autofill.py:96-100 | Each line constrained by the links is pushed exactly once and recorded, and no other line changes, if no two links lead to the same line. |
| Solver.LinksCarryOver | scripts/autofill.py:96-97 | After one constrain, the remaining links still lead to distinct unrecorded lines. |
| Solver.PopNodesUndoes | scripts/autofill.py:186-188 | Popping the pushed lines undoes the pushes. |
| Solver.LockInUndo | scripts/autofill.py:182-201 | After a failed lockIn, popping toRemove restores the crossword. After a successful one, popping the line's own stacks as well restores it. This assumes lines cross pairwise at most once. |
| Solver.PushPopLocked | scripts/autofill.py:197-198 | Popping the line's own stacks undoes the lock. |
| Solver.ConflictPersists | scripts/autofill.py:163-172 | A link failure for (letter, offset) recurs for any word with that letter at that offset. |
| Solver.AgreeAfterStep | scripts/autofill.py:96-100 | Two crosswords pushed at the same link still agree on the later links' lines. |
| Solver.SkipIsSound | scripts/autofill.py:160-190 | A word matching a conflict recorded for another candidate of the same line would also fail its lockIn. |
| Solver.SelectLine | scripts/autofill.py:147-157 | Picks the open line with the fewest candidates, the first one on ties, and line 0 if all lines are locked. |
| Solver.SkipRule | scripts/autofill.py:163-172 | States the skip rule as a definition: used words and words matching a recorded conflict are skipped. Its consequences are in the next lines: with no conflicts recorded only used words are skipped, and a word that was not skipped is skipped once it is placed. Its soundness is Solver.SkipIsSound. |
| Solver.ApplyLocked | scripts/autofill.py:125-132 | The start-up pass only narrows the line's candidates, and keeps the shape and other lines. |
| Solver.ApplyLockedFits | scripts/autofill.py:125-132 | The start-up pass keeps candidates at their lengths. |
| Solver.ApplyLockedExact | scripts/autofill.py:125-132 | When some candidate agrees with the sent word, no constrain conflicts. The pass then leaves exactly the candidates that agree with every character of the word other than `.`. |
| Solver.PlaceholderActsAsDot | scripts/autofill.py:130-132 | If no candidate contains `_`, the `_` placeholders act exactly like skipped dots. |
| Solver.ShapeKeepsReciprocal | scripts/autofill.py:118-132 | Reciprocity depends only on the links, which the start-up pass keeps. |
| Pipeline.GridLinesConsistent | app/creator/gridfuns.tsx:166-266 | The editor's lines sit at their indices, have one character per cell, and carry in-range, mirrored records with at most one per other line. |
| Pipeline.Fresh | scripts/autofill.py:107-116 | One new cwline per input line, with its bucket, no links, and not locked. |
| Pipeline.LineRecords | scripts/autofill.py:121-123 | A line's records are its crossing records, tagged with its index. |
| Pipeline.Records | scripts/autofill.py:119-123 | All lines' crossing records. |
| Pipeline.Build | scripts/autofill.py:107-123 | One cwline per line with its bucket as the only candidate set. |
| Pipeline.RegisterAllExact | scripts/autofill.py:118-123 | The loop adds exactly the records and their mirror images. |
| Pipeline.OwnRecord | scripts/autofill.py:119-123 | A line's own records are its crossing records. |
| Pipeline.MirrorRecord | scripts/autofill.py:119-123 | With mirrored input, a mirrored record is already a record of its line. |
| Pipeline.BuildNeighbours | scripts/autofill.py:118-123 | Each cwline's links are exactly its own line's crossing records. |
| Pipeline.BuildLinked | scripts/autofill.py:107-123 | Every link leads to an existing line from an offset on its own line. |
| Pipeline.BuildReciprocal | scripts/autofill.py:118-123 | Links are reciprocal, and far offsets lie on the lines they lead to. |
| Pipeline.BuildWellFormed | scripts/autofill.py:105-123 | Over a bank of words of their bucket's length, the built crossword is well formed. |
| Pipeline.BuildOrdersDistinct | scripts/autofill.py:96-97 | Every iteration order of a line's links visits distinct other lines, never the line itself. |
| Pipeline.StartUp | scripts/autofill.py:125-132 | Applying the grid's letters keeps the shape and only narrows candidate sets. |
| Pipeline.StartUpFits | scripts/autofill.py:125-132 | Applying the grid's letters keeps candidates at their lengths. |
| Pipeline.StartUpExact | scripts/autofill.py:125-132 | When lines have distinct indices and each has a candidate agreeing with its word, every line ends with exactly the candidates agreeing with its word, ignoring `.`. Lines with no word are left alone. |
| Pipeline.Generate | scripts/autofill.py:105-134 | The start-up crossword has one linked cwline per discovered line, each with candidates inside its bucket. |
| Pipeline.GenerateWellFormed | scripts/autofill.py:105-134 | Over a bank of words of their bucket's length, the search starts well formed with reciprocal links. |
| Pipeline.GenerateOrdersDistinct | scripts/autofill.py:95-103 | In every crossword of the start's shape, lockIn's link orders meet the undo and skip lemmas' requirement. |

## Left out

- I/O and plumbing are not modelled: React state and effects, event wiring, fetch and alert, persistence, authentication, rendering, and the solver's file and JSON reading.
- Other files are not modelled. `app/creator/oldPage.tsx` is an earlier, smaller version of the editor and is not modelled. Among other differences, it clears the letter when painting black. It has no digraphs and accepts only ASCII letter keys (oldPage.tsx:182). It has no zone mode, no blacklist and no letter clearing. Its autofill request (oldPage.tsx:25-47) sends the bare grid, without the clue check, the zone blanking or the quality and blacklist fields. `app/creator/components/Options.tsx` is a UI modal. `scripts/spaghettiNew.py` is an offline prototype whose `cwline` is the same as the solver's.
- The autofill route's process handling is not modelled. Its accept rule is that a non-zero exit, any output on stderr, or a `message` field means failure (app/api/autofill/route.ts:39-48).
- Several parts of the search are not modelled: the full recursive `tryAll` with its backjump return values, the random first line and `shuffle`, the 7-second time limit, `to_ts_lines`' choice of a set element, and `handleNextFill`. Only line selection, the skip rule and the pop/undo discipline are modelled.
- The order in which the solver iterates over a Python set of links is not fixed. Every lemma about `lockIn` quantifies over any enumeration `order` of the set.
- Letters are one character each. Upper-casing is concrete only on the letters the editors accept (ASCII, and č ć ž š đ with their capitals); other characters map to themselves. General Unicode case mapping is not modelled.
- React state staleness is not modelled. The creator's keydown handler is registered without the grid as a dependency, and reads the cell through shared cell objects. The model reads the current cell. After `clearGridLetters` (which builds fresh cell objects), the real handler can see a stale letter.
- In the source, `getCompleteWordAtSelected` mutates the grid in place. Here it returns the new grid.
- Resize fills new cells with only `isBlack: false` and an empty letter; every other field is left undefined. `Editor.FreshCell` reads those fields as false, null or empty.
- Keys.KeyDown: uses the grid's dimensions where the handlers read the `width` and `height` state. `applyDimensions` sets both from the grid it builds, so they agree.
- Editor.SymmetricCells: uses the grid's dimensions for the source's `width` and `height` state. They agree for the same reason.
- Editor.PaintBlack: uses the grid's dimensions for the source's `width` and `height` state. They agree for the same reason.
- Editor.Resize: takes integer pending sizes. The size fields are read with `parseInt` (app/creator/components/Options.tsx:38,50), so an empty or non-numeric field gives NaN. The clamp then yields NaN and the source builds an empty grid. That case is not modelled.
- Editor.ApplyDimensions: takes integer pending sizes, like Editor.Resize. With a NaN size the source would put the cursor at (0,0) of an empty grid; that case is not modelled.
- Codec.ApplyLinesToGrid: requires every target cell to be in bounds. The source throws a TypeError otherwise. `Codec.RoundTrip` proves this holds for the lines sent for a grid. The source writes into the grid in place; the model returns the new grid.
- Codec.TransformGridForPython: requires a non-empty grid. The source reads `grid[0].length`, which throws on an empty grid.
- Solver.Filtered: drops a candidate shorter than the index. The source would raise an IndexError there. The well-formedness lemmas show that every candidate has its line's length, so the case does not arise.
- Pipeline.StartUp: requires each sent word to be no longer than its line. The editor always sends exactly the line's length (`Codec.LineGeometry`).
- Solver.NewLine: requires a length below 60. The source raises a KeyError for longer lines, because the bank has no such bucket.
- Pipeline.Generate: requires every line to be shorter than 60 cells, and the grid to be non-empty. The source fails on these inputs (KeyError, or reading `grid[0].length` of an empty grid).
- Solver.LockInUndo: assumes that no two links of a line lead to the same line. The source depends on this too. `Pipeline.GenerateOrdersDistinct` proves it holds for every grid the editor sends.
- Solver.PlaceholderActsAsDot: assumes no candidate contains `_`. The word lists are not part of this model.

=== FILE: basics.dfy ===
/** Small failure-compatible wrappers shared by the whole model. */
module Basics {

  /** An optional value: the source's `null` / `undefined`. */
  datatype Option<+T> = None | Some(value: T)

  /** A value or an error message. */
  datatype Result<+T, +E> = Success(value: T) | Failure(error: E)

  function Max(a: int, b: int): int { if a < b then b else a }

  function Min(a: int, b: int): int { if a < b then a else b }

  /** `Math.max(lo, Math.min(hi, x))`: the clamp used for cursor moves and resizing. */
  function Clamp(x: int, lo: int, hi: int): (r: int)
    requires lo <= hi
    ensures lo <= r <= hi
    ensures lo <= x <= hi ==> r == x
    ensures x < lo ==> r == lo
    ensures hi < x ==> r == hi
  {
    Max(lo, Min(hi, x))
  }
}

=== FILE: codec.dfy ===
/** The interchange codec between the grid and the solver: the outbound
    direction (transformGridForPython) turns the grid into lines with
    crossing records; the inbound direction (applyLinesToGrid) writes solved
    words back into the grid. */
module Codec {
  import opened Basics
  import opened Grid
  import opened GridFuns

  /** One crossing record: this line's offset `ownIdx` is the other line's
      offset `otherIdx`. */
  datatype Neighbour = Neighbour(neighbourIndex: nat, ownIdx: nat, otherIdx: nat)

  datatype Line = Line(
    index: nat,
    direction: Direction,
    start: Pos,
    length: nat,
    word: string,
    neighbours: seq<Neighbour>)

  /** A discovered line before it is numbered: offsets `[s, e)` of one lane. */
  datatype Span = Span(dir: Direction, lane: nat, s: nat, e: nat)

  /** The placeholder sent for a blank cell (`letter || '_'`). */
  const Placeholder: char := '_'

  /** The scan may resume at `c`: at the lane's start or end, or next to a black cell. */
  predicate Boundary(b: seq<bool>, c: nat) {
    c == 0 || c == |b| || (c <= |b| && b[c - 1]) || (c < |b| && b[c])
  }

  /** The white run through offset `k` of lane `lane` starts at `k` and
      `k` carries the clue flag of direction `d`. */
  predicate StartsLine(g: Grid, d: Direction, lane: nat, k: nat)
    requires Rectangular(g) && lane < Lanes(g, d)
  {
    IsRunStart(Blacks(g, d, lane), k) && LaneFlag(g, d, lane, k)
  }

  /** Offset `k` of the lane carries the clue flag of direction `d`. */
  predicate LaneFlag(g: Grid, d: Direction, lane: nat, k: nat)
    requires Rectangular(g) && lane < Lanes(g, d)
  {
    k < LaneLen(g, d) && HasFlag(At(g, PosOf(d, lane, k)), d)
  }

  /** A line the codec is entitled to emit: a maximal white run whose first
      cell carries the matching clue flag. */
  predicate ValidSpan(g: Grid, sp: Span)
    requires Rectangular(g)
  {
    && sp.lane < Lanes(g, sp.dir)
    && StartsLine(g, sp.dir, sp.lane, sp.s)
    && sp.e == RunEnd(Blacks(g, sp.dir, sp.lane), sp.s)
  }

  /** The scan of one lane's black pattern from offset `c`: skip black
      cells, walk each white run, and list it as (first, end). */
  function Runs(b: seq<bool>, c: nat): (rs: seq<(nat, nat)>)
    requires c <= |b| && Boundary(b, c)
    ensures forall i :: 0 <= i < |rs| ==> c <= rs[i].0 && IsRunStart(b, rs[i].0) && rs[i].1 == RunEnd(b, rs[i].0)
    ensures forall i, j :: 0 <= i < j < |rs| ==> rs[i].0 < rs[j].0
    decreases |b| - c
  {
    if c == |b| then []
    else if b[c] then Runs(b, c + 1)
    else [(c, RunEnd(b, c))] + Runs(b, RunEnd(b, c))
  }

  /** The scan misses no run starting at or after `c`. */
  lemma {:induction false} RunsComplete(b: seq<bool>, c: nat, k: nat)
    requires c <= |b| && Boundary(b, c) && c <= k && IsRunStart(b, k)
    ensures (k, RunEnd(b, k)) in Runs(b, c)
    decreases |b| - c
  {
    if b[c] {
      RunsComplete(b, c + 1, k);
    } else if k != c {
      var e := RunEnd(b, c);
      assert b[k - 1];
      assert e <= k;
      RunsComplete(b, e, k);
    }
  }

  /** Keep the runs whose first cell carries the clue flag of direction `d`
      (`grid[r][start]?.hasAcrossClue`, resp. hasDownClue). */
  function Flagged(g: Grid, d: Direction, lane: nat, rs: seq<(nat, nat)>): (ss: seq<Span>)
    requires Rectangular(g) && lane < Lanes(g, d)
    ensures forall i :: 0 <= i < |ss| ==>
      ss[i].dir == d && ss[i].lane == lane && (ss[i].s, ss[i].e) in rs && LaneFlag(g, d, lane, ss[i].s)
  {
    if |rs| == 0 then []
    else
      var rest := Flagged(g, d, lane, rs[1..]);
      var ss := if LaneFlag(g, d, lane, rs[0].0) then [Span(d, lane, rs[0].0, rs[0].1)] + rest else rest;
      assert forall i :: 0 <= i < |ss| ==> ss[i] == Span(d, lane, rs[0].0, rs[0].1) || ss[i] in rest;
      ss
  }

  /** The lines of one lane are listed by increasing start offset. */
  predicate StartsIncrease(ss: seq<Span>) {
    forall i, j :: 0 <= i < j < |ss| ==> ss[i].s < ss[j].s
  }

  /** Filtering keeps the scan's order. */
  lemma {:induction false} FlaggedSorted(g: Grid, d: Direction, lane: nat, rs: seq<(nat, nat)>)
    requires Rectangular(g) && lane < Lanes(g, d)
    requires forall i, j :: 0 <= i < j < |rs| ==> rs[i].0 < rs[j].0
    ensures StartsIncrease(Flagged(g, d, lane, rs))
  {
    if |rs| > 0 {
      var rest := Flagged(g, d, lane, rs[1..]);
      FlaggedSorted(g, d, lane, rs[1..]);
      forall j | 0 <= j < |rest|
        ensures rs[0].0 < rest[j].s
      {
        var m :| 0 <= m < |rs[1..]| && rs[1..][m] == (rest[j].s, rest[j].e);
        assert rs[m + 1] == rs[1..][m];
      }
      if LaneFlag(g, d, lane, rs[0].0) {
        var ss := [Span(d, lane, rs[0].0, rs[0].1)] + rest;
        assert Flagged(g, d, lane, rs) == ss;
        forall i, j | 0 <= i < j < |ss|
          ensures ss[i].s < ss[j].s
        {
          assert ss[j] == rest[j - 1];
          if i > 0 {
            assert ss[i] == rest[i - 1];
          }
        }
      } else {
        assert Flagged(g, d, lane, rs) == rest;
      }
    }
  }

  /** Filtering drops only unflagged runs. */
  lemma {:induction false} FlaggedComplete(g: Grid, d: Direction, lane: nat, rs: seq<(nat, nat)>, x: (nat, nat))
    requires Rectangular(g) && lane < Lanes(g, d)
    requires x in rs && LaneFlag(g, d, lane, x.0)
    ensures Span(d, lane, x.0, x.1) in Flagged(g, d, lane, rs)
  {
    if x != rs[0] {
      assert x in rs[1..];
      FlaggedComplete(g, d, lane, rs[1..], x);
    }
  }

  /** The across (or down) scan of one lane: its flagged maximal runs, in
      increasing offset order. */
  function LaneSpans(g: Grid, d: Direction, lane: nat): (ss: seq<Span>)
    requires Rectangular(g) && lane < Lanes(g, d)
    ensures forall i :: 0 <= i < |ss| ==> ss[i].dir == d && ss[i].lane == lane
    ensures StartsIncrease(ss)
  {
    var rs := Runs(Blacks(g, d, lane), 0);
    FlaggedSorted(g, d, lane, rs);
    Flagged(g, d, lane, rs)
  }

  /** A line listed for one lane is a flagged maximal run. */
  lemma {:induction false} LaneSpanValid(g: Grid, d: Direction, lane: nat, sp: Span)
    requires Rectangular(g) && lane < Lanes(g, d) && sp in LaneSpans(g, d, lane)
    ensures ValidSpan(g, sp)
  {
    var rs := Runs(Blacks(g, d, lane), 0);
    var ss := Flagged(g, d, lane, rs);
    var i :| 0 <= i < |ss| && ss[i] == sp;
    var m :| 0 <= m < |rs| && rs[m] == (sp.s, sp.e);
  }

  /** Every listed line is one the codec is entitled to emit. */
  predicate AllValid(g: Grid, ss: seq<Span>)
    requires Rectangular(g)
  {
    forall i :: 0 <= i < |ss| ==> ValidSpan(g, ss[i])
  }

  /** Every flagged run start of the lane is listed. */
  lemma {:induction false} LaneSpansComplete(g: Grid, d: Direction, lane: nat, k: nat)
    requires Rectangular(g) && lane < Lanes(g, d) && StartsLine(g, d, lane, k)
    ensures Span(d, lane, k, RunEnd(Blacks(g, d, lane), k)) in LaneSpans(g, d, lane)
  {
    var b := Blacks(g, d, lane);
    RunsComplete(b, 0, k);
    FlaggedComplete(g, d, lane, Runs(b, 0), (k, RunEnd(b, k)));
  }

  /** (lane, s) of `a` comes strictly before that of `b`. */
  predicate SpanBefore(a: Span, b: Span) {
    a.lane < b.lane || (a.lane == b.lane && a.s < b.s)
  }

  /** All lines of direction `d` in lanes `lane..`, in scan order. */
  function DirSpans(g: Grid, d: Direction, lane: nat): (ss: seq<Span>)
    requires Rectangular(g) && lane <= Lanes(g, d)
    ensures forall i :: 0 <= i < |ss| ==> ss[i].dir == d && lane <= ss[i].lane
    decreases Lanes(g, d) - lane
  {
    if lane == Lanes(g, d) then []
    else LaneSpans(g, d, lane) + DirSpans(g, d, lane + 1)
  }

  /** The lines of lanes `lane..` are listed by lane, then by start. */
  predicate ScanOrdered(ss: seq<Span>) {
    forall i, j :: 0 <= i < j < |ss| ==> SpanBefore(ss[i], ss[j])
  }

  lemma {:induction false} DirSpansSorted(g: Grid, d: Direction, lane: nat)
    requires Rectangular(g) && lane <= Lanes(g, d)
    ensures ScanOrdered(DirSpans(g, d, lane))
    decreases Lanes(g, d) - lane
  {
    if lane < Lanes(g, d) {
      var here := LaneSpans(g, d, lane);
      var rest := DirSpans(g, d, lane + 1);
      DirSpansSorted(g, d, lane + 1);
      assert DirSpans(g, d, lane) == here + rest;
      ConcatSorted(lane, here, rest);
    }
  }

  /** One lane's lines followed by later lanes' lines stay in scan order. */
  lemma {:induction false} ConcatSorted(lane: nat, here: seq<Span>, rest: seq<Span>)
    requires forall i :: 0 <= i < |here| ==> here[i].lane == lane
    requires StartsIncrease(here)
    requires forall i :: 0 <= i < |rest| ==> lane + 1 <= rest[i].lane
    requires ScanOrdered(rest)
    ensures ScanOrdered(here + rest)
  {
    var ss := here + rest;
    forall i, j | 0 <= i < j < |ss|
      ensures SpanBefore(ss[i], ss[j])
    {
      if j < |here| {
        assert ss[i] == here[i] && ss[j] == here[j];
      } else if i >= |here| {
        assert ss[i] == rest[i - |here|] && ss[j] == rest[j - |here|];
      } else {
        assert ss[i] == here[i] && ss[j] == rest[j - |here|];
      }
    }
  }

  /** Every flagged run start in lanes `lane..` is listed. */
  lemma {:induction false} DirSpansComplete(g: Grid, d: Direction, lane: nat, l: nat, sp: Span)
    requires Rectangular(g) && lane <= l < Lanes(g, d) && sp in LaneSpans(g, d, l)
    ensures sp in DirSpans(g, d, lane)
    decreases l - lane
  {
    DirSpansStep(g, d, lane);
    if l != lane {
      DirSpansComplete(g, d, lane + 1, l, sp);
    }
  }

  /** The scan of lanes `lane..` is lane `lane`'s lines, then the rest. */
  lemma {:induction false} DirSpansStep(g: Grid, d: Direction, lane: nat)
    requires Rectangular(g) && lane < Lanes(g, d)
    ensures DirSpans(g, d, lane) == LaneSpans(g, d, lane) + DirSpans(g, d, lane + 1)
    ensures forall sp :: sp in DirSpans(g, d, lane) <==> sp in LaneSpans(g, d, lane) || sp in DirSpans(g, d, lane + 1)
  {
  }

  /** A line listed for lanes `lane..` is a flagged maximal run. */
  lemma {:induction false} DirSpanValid(g: Grid, d: Direction, lane: nat, sp: Span)
    requires Rectangular(g) && lane <= Lanes(g, d) && sp in DirSpans(g, d, lane)
    ensures ValidSpan(g, sp)
    decreases Lanes(g, d) - lane
  {
    var here := LaneSpans(g, d, lane);
    var rest := DirSpans(g, d, lane + 1);
    assert DirSpans(g, d, lane) == here + rest;
    if sp in here {
      LaneSpanValid(g, d, lane, sp);
    } else {
      DirSpanValid(g, d, lane + 1, sp);
    }
  }

  /** Both scans list only flagged maximal runs. */
  lemma {:induction false} ScansValid(g: Grid)
    requires Rectangular(g)
    ensures AllValid(g, DirSpans(g, Across, 0) + DirSpans(g, Down, 0))
  {
    var a := DirSpans(g, Across, 0);
    var dn := DirSpans(g, Down, 0);
    forall i | 0 <= i < |a + dn|
      ensures ValidSpan(g, (a + dn)[i])
    {
      if i < |a| {
        assert (a + dn)[i] == a[i];
        DirSpanValid(g, Across, 0, a[i]);
      } else {
        assert (a + dn)[i] == dn[i - |a|];
        DirSpanValid(g, Down, 0, dn[i - |a|]);
      }
    }
  }

  /** Every line the codec discovers: all across lines (row by row), then
      all down lines (column by column). */
  function AllSpans(g: Grid): (ss: seq<Span>)
    requires Rectangular(g)
    ensures AllValid(g, ss)
  {
    ScansValid(g);
    DirSpans(g, Across, 0) + DirSpans(g, Down, 0)
  }

  predicate Covers(sp: Span, p: Pos) {
    LaneOf(sp.dir, p) == sp.lane && sp.s <= OffsetOf(sp.dir, p) < sp.e
  }

  /** The cellData lookup: the first discovered line of direction `d` through `p`. */
  function FindSpan(ss: seq<Span>, d: Direction, p: Pos): (r: Option<nat>)
    ensures r.Some? ==> r.value < |ss| && ss[r.value].dir == d && Covers(ss[r.value], p)
    ensures r.Some? ==> forall j :: 0 <= j < r.value ==> !(ss[j].dir == d && Covers(ss[j], p))
    ensures r.None? ==> forall j :: 0 <= j < |ss| ==> !(ss[j].dir == d && Covers(ss[j], p))
  {
    if |ss| == 0 then None
    else if ss[0].dir == d && Covers(ss[0], p) then Some(0)
    else match FindSpan(ss[1..], d, p)
      case None => None
      case Some(j) => Some(j + 1)
  }

  /** No two discovered lines share direction, lane and start. */
  predicate KeysDistinct(ss: seq<Span>) {
    forall i, j :: 0 <= i < j < |ss| ==> ss[i].dir != ss[j].dir || ss[i].lane != ss[j].lane || ss[i].s != ss[j].s
  }

  lemma {:induction false} AllSpansFacts(g: Grid)
    requires Rectangular(g)
    ensures forall i :: 0 <= i < |AllSpans(g)| ==> ValidSpan(g, AllSpans(g)[i])
    ensures KeysDistinct(AllSpans(g))
  {
    var a := DirSpans(g, Across, 0);
    var dn := DirSpans(g, Down, 0);

    var ss := a + dn;
    DirSpansSorted(g, Across, 0);
    DirSpansSorted(g, Down, 0);
    forall i, j | 0 <= i < j < |ss|
      ensures ss[i].dir != ss[j].dir || ss[i].lane != ss[j].lane || ss[i].s != ss[j].s
    {
      if j < |a| {
        assert SpanBefore(a[i], a[j]);
      } else if i >= |a| {
        assert SpanBefore(dn[i - |a|], dn[j - |a|]);
      }
    }
  }

  /** Two valid lines of one direction through the same cell are the same line. */
  lemma {:induction false} ValidSpansThroughCell(g: Grid, a: Span, b: Span, p: Pos)
    requires Rectangular(g) && ValidSpan(g, a) && ValidSpan(g, b)
    requires a.dir == b.dir && Covers(a, p) && Covers(b, p)
    ensures a == b
  {
    var bl := Blacks(g, a.dir, a.lane);
    RunFromStartIsMaximal(bl, a.s);
    RunFromStartIsMaximal(bl, b.s);
    MaximalRunUnique(bl, a.s, a.e, b.s, b.e, OffsetOf(a.dir, p));
  }

  /** The lookup finds the one line of direction `d` through `p`. */
  lemma {:induction false} FindSpanUnique(g: Grid, ss: seq<Span>, k: nat, p: Pos)
    requires Rectangular(g)
    requires forall i :: 0 <= i < |ss| ==> ValidSpan(g, ss[i])
    requires KeysDistinct(ss)
    requires k < |ss| && Covers(ss[k], p)
    ensures FindSpan(ss, ss[k].dir, p) == Some(k)
  {
    var r := FindSpan(ss, ss[k].dir, p);
    assert r.Some?;
    if r.value != k {
      assert r.value < k;
      ValidSpansThroughCell(g, ss[r.value], ss[k], p);
      assert false;
    }
  }

  /** The cell at offset `i` of discovered line `sp`. */
  function SpanCell(sp: Span, i: int): Pos {
    PosOf(sp.dir, sp.lane, sp.s + i)
  }

  /** `n` records that the cell at offset `n.ownIdx` of line `k` is offset
      `n.otherIdx` of the perpendicular line `n.neighbourIndex`, which is the
      cellData entry of that cell for the other direction. */
  predicate IsCrossing(ss: seq<Span>, k: nat, n: Neighbour) {
    && k < |ss|
    && n.ownIdx < ss[k].e - ss[k].s
    && FindSpan(ss, Flip(ss[k].dir), SpanCell(ss[k], n.ownIdx)) == Some(n.neighbourIndex)
    && n.neighbourIndex < |ss|
    && n.otherIdx == OffsetOf(Flip(ss[k].dir), SpanCell(ss[k], n.ownIdx)) - ss[n.neighbourIndex].s
  }

  /** Crossing records of line `k` for offsets `i..`, in offset order (the
      order in which the source's row-major sweep reaches them). */
  function NeighboursFrom(ss: seq<Span>, k: nat, i: nat): (ns: seq<Neighbour>)
    requires k < |ss| && ss[k].s <= ss[k].e
    ensures forall n :: n in ns <==> i <= n.ownIdx && IsCrossing(ss, k, n)
    ensures forall a, b :: 0 <= a < b < |ns| ==> ns[a].ownIdx < ns[b].ownIdx
    ensures forall a :: 0 <= a < |ns| ==> i <= ns[a].ownIdx
    decreases ss[k].e - ss[k].s - i
  {
    var sp := ss[k];
    if i >= sp.e - sp.s then []
    else
      var p := SpanCell(sp, i);
      var rest := NeighboursFrom(ss, k, i + 1);
      match FindSpan(ss, Flip(sp.dir), p)
      case None => rest
      case Some(j) =>
        var n := Neighbour(j, i, OffsetOf(Flip(sp.dir), p) - ss[j].s);
        assert OffsetOf(Flip(sp.dir), p) - ss[j].s >= 0;
        [n] + rest
  }

  /** Letter or placeholder, as sent to the solver. */
  function SentChar(l: Letter): char {
    match l
    case Blank => Placeholder
    case Ch(c) => c
  }

  function SpanWord(g: Grid, sp: Span): (w: string)
    requires Rectangular(g) && ValidSpan(g, sp)
    ensures |w| == sp.e - sp.s
    ensures forall i :: 0 <= i < |w| ==> w[i] == SentChar(At(g, PosOf(sp.dir, sp.lane, sp.s + i)).letter)
  {
    seq(sp.e - sp.s, i requires 0 <= i < sp.e - sp.s => SentChar(At(g, PosOf(sp.dir, sp.lane, sp.s + i)).letter))
  }

  /** The line record of run `k`: numbered `k`, in the run's direction from
      its first cell, one letter or placeholder per cell of the run. */
  function MakeLine(g: Grid, ss: seq<Span>, k: nat): (l: Line)
    requires Rectangular(g) && k < |ss| && ValidSpan(g, ss[k])
    ensures l.index == k && l.direction == ss[k].dir
    ensures l.start == PosOf(ss[k].dir, ss[k].lane, ss[k].s)
    ensures |l.word| == l.length == ss[k].e - ss[k].s
    ensures forall i :: 0 <= i < l.length ==>
      l.word[i] == SentChar(At(g, PosOf(l.direction, ss[k].lane, ss[k].s + i)).letter)
  {
    var sp := ss[k];
    Line(k, sp.dir, PosOf(sp.dir, sp.lane, sp.s), sp.e - sp.s, SpanWord(g, sp), NeighboursFrom(ss, k, 0))
  }

  /** Line `k` sits on run `k`: it is numbered `k`, runs in the run's
      direction from the run's first cell, is as long as the run (never
      empty) and carries one letter or placeholder per cell. */
  predicate LinesOnRuns(g: Grid, ss: seq<Span>, lines: seq<Line>)
    requires Rectangular(g)
  {
    && |lines| == |ss|
    && (forall k :: 0 <= k < |ss| ==>
          && ValidSpan(g, ss[k])
          && lines[k].index == k
          && lines[k].direction == ss[k].dir
          && lines[k].start == PosOf(ss[k].dir, ss[k].lane, ss[k].s)
          && lines[k].length == ss[k].e - ss[k].s > 0
          && |lines[k].word| == lines[k].length)
    && (forall k, i :: 0 <= k < |ss| && 0 <= i < |lines[k].word| ==>
          lines[k].word[i] == SentChar(At(g, PosOf(ss[k].dir, ss[k].lane, ss[k].s + i)).letter))
  }

  /** Every flagged run start of the grid, in either direction, begins a
      line of its run's length. */
  ghost predicate LinesCoverRuns(g: Grid, lines: seq<Line>)
    requires Rectangular(g)
  {
    forall d, l: nat, k: nat :: l < Lanes(g, d) && StartsLine(g, d, l, k) ==>
      exists j :: 0 <= j < |lines| && lines[j].direction == d && lines[j].start == PosOf(d, l, k)
        && lines[j].length == RunEnd(Blacks(g, d, l), k) - k
  }

  /** Crossing records join perpendicular lines at offsets on both, and
      each is recorded by the other line with the offsets swapped. */
  predicate CrossingsMirrored(lines: seq<Line>) {
    forall k, n :: 0 <= k < |lines| && n in lines[k].neighbours ==>
      && n.neighbourIndex < |lines|
      && lines[n.neighbourIndex].direction != lines[k].direction
      && n.ownIdx < lines[k].length && n.otherIdx < lines[n.neighbourIndex].length
      && Neighbour(k, n.otherIdx, n.ownIdx) in lines[n.neighbourIndex].neighbours
  }

  /** transformGridForPython: one line per discovered run, in discovery
      order, every run of the grid present, crossings recorded both ways. */
  function TransformGridForPython(g: Grid): (lines: seq<Line>)
    requires Rectangular(g) && |g| > 0
    ensures |lines| == |AllSpans(g)|
    ensures forall k :: 0 <= k < |lines| ==> lines[k] == MakeLine(g, AllSpans(g), k)
    ensures LinesOnRuns(g, AllSpans(g), lines)
    ensures forall d, l: nat, k: nat :: l < Lanes(g, d) && StartsLine(g, d, l, k) ==>
      Span(d, l, k, RunEnd(Blacks(g, d, l), k)) in AllSpans(g)
    ensures CrossingsMirrored(lines)
  {
    var ss := AllSpans(g);
    AllSpansOK(g);
    LinesShape(g, ss);
    LinesReciprocal(g, ss);
    AllRunsFound(g);
    LinesOf(g, ss)
  }

  /** Every flagged run start of the grid begins an emitted line of the
      run's length. */
  lemma {:induction false} EveryRunSent(g: Grid)
    requires Rectangular(g) && |g| > 0
    ensures LinesCoverRuns(g, TransformGridForPython(g))
  {
    var ss := AllSpans(g);
    AllSpansOK(g);
    assert TransformGridForPython(g) == LinesOf(g, ss);
    LinesComplete(g, ss);
  }

  /** The lines built from a list of discovered runs, line `k` from run `k`. */
  function LinesOf(g: Grid, ss: seq<Span>): (lines: seq<Line>)
    requires Rectangular(g) && SpansOK(g, ss)
    ensures |lines| == |ss| && forall k :: 0 <= k < |ss| ==> lines[k] == MakeLine(g, ss, k)
  {
    seq(|ss|, k requires 0 <= k < |ss| => MakeLine(g, ss, k))
  }

  /** Each built line sits on its run. */
  lemma {:induction false} LinesShape(g: Grid, ss: seq<Span>)
    requires Rectangular(g) && SpansOK(g, ss)
    ensures LinesOnRuns(g, ss, LinesOf(g, ss))
  {
    var lines := LinesOf(g, ss);
    forall k | 0 <= k < |ss|
      ensures lines[k].index == k && lines[k].direction == ss[k].dir
      ensures lines[k].start == PosOf(ss[k].dir, ss[k].lane, ss[k].s)
      ensures lines[k].length == ss[k].e - ss[k].s > 0 && |lines[k].word| == lines[k].length
      ensures forall i :: 0 <= i < |lines[k].word| ==>
        lines[k].word[i] == SentChar(At(g, PosOf(ss[k].dir, ss[k].lane, ss[k].s + i)).letter)
    {
      LineOnRun(g, ss, k);
    }
  }

  /** One built line against its run. */
  lemma {:induction false} LineOnRun(g: Grid, ss: seq<Span>, k: nat)
    requires Rectangular(g) && k < |ss| && ValidSpan(g, ss[k])
    ensures var line := MakeLine(g, ss, k); var sp := ss[k];
      && line.index == k && line.direction == sp.dir
      && line.start == PosOf(sp.dir, sp.lane, sp.s)
      && line.length == sp.e - sp.s > 0 && |line.word| == line.length
      && forall i :: 0 <= i < |line.word| ==>
           line.word[i] == SentChar(At(g, PosOf(sp.dir, sp.lane, sp.s + i)).letter)
  {
    RunFromStartIsMaximal(Blacks(g, ss[k].dir, ss[k].lane), ss[k].s);
    var line := MakeLine(g, ss, k);
    assert line.word == SpanWord(g, ss[k]);
  }

  /** Discovery finds every flagged run start in either direction. */
  lemma {:induction false} AllRunsFound(g: Grid)
    requires Rectangular(g)
    ensures forall d, l: nat, k: nat :: l < Lanes(g, d) && StartsLine(g, d, l, k) ==>
      Span(d, l, k, RunEnd(Blacks(g, d, l), k)) in AllSpans(g)
  {
    forall d, l: nat, k: nat | l < Lanes(g, d) && StartsLine(g, d, l, k)
      ensures Span(d, l, k, RunEnd(Blacks(g, d, l), k)) in AllSpans(g)
    {
      DiscoveryComplete(g, d, l, k);
    }
  }

  /** A list holding every run gives a line for every run. */
  lemma {:induction false} LinesComplete(g: Grid, ss: seq<Span>)
    requires Rectangular(g) && SpansOK(g, ss)
    requires forall d, l: nat, k: nat :: l < Lanes(g, d) && StartsLine(g, d, l, k) ==>
      Span(d, l, k, RunEnd(Blacks(g, d, l), k)) in ss
    ensures LinesCoverRuns(g, LinesOf(g, ss))
  {
    var lines := LinesOf(g, ss);
    forall d, l: nat, k: nat | l < Lanes(g, d) && StartsLine(g, d, l, k)
      ensures exists j :: 0 <= j < |lines| && lines[j].direction == d && lines[j].start == PosOf(d, l, k)
                            && lines[j].length == RunEnd(Blacks(g, d, l), k) - k
    {
      var sp := Span(d, l, k, RunEnd(Blacks(g, d, l), k));
      var j :| 0 <= j < |ss| && ss[j] == sp;
      assert lines[j] == MakeLine(g, ss, j);
    }
  }

  /** The crossing records of the built lines are reciprocal. */
  lemma {:induction false} LinesReciprocal(g: Grid, ss: seq<Span>)
    requires Rectangular(g) && SpansOK(g, ss)
    ensures CrossingsMirrored(LinesOf(g, ss))
  {
    var lines := LinesOf(g, ss);
    forall k, n | 0 <= k < |lines| && n in lines[k].neighbours
      ensures n.neighbourIndex < |lines|
      ensures lines[n.neighbourIndex].direction != lines[k].direction
      ensures n.ownIdx < lines[k].length && n.otherIdx < lines[n.neighbourIndex].length
      ensures Neighbour(k, n.otherIdx, n.ownIdx) in lines[n.neighbourIndex].neighbours
    {
      SpanReciprocal(g, ss, k, n);
    }
  }

  // ---------------------------------------------------------------------
  // Properties of the outbound direction

  /** The discovered lines are valid and pairwise distinct. */
  predicate SpansOK(g: Grid, ss: seq<Span>)
    requires Rectangular(g)
  {
    (forall i :: 0 <= i < |ss| ==> ValidSpan(g, ss[i])) && KeysDistinct(ss)
  }

  lemma {:induction false} AllSpansOK(g: Grid)
    requires Rectangular(g)
    ensures SpansOK(g, AllSpans(g))
  {
    AllSpansFacts(g);
  }

  /** Line `k` as emitted: numbered by position, at its run's start, with the
      run's length and one letter or placeholder per cell. */
  lemma {:induction false} LineGeometry(g: Grid, k: nat)
    requires Rectangular(g) && |g| > 0 && k < |AllSpans(g)|
    ensures var line := TransformGridForPython(g)[k]; var sp := AllSpans(g)[k];
      && ValidSpan(g, sp)
      && line.index == k
      && line.direction == sp.dir
      && line.start == PosOf(sp.dir, sp.lane, sp.s)
      && line.length == sp.e - sp.s > 0
      && |line.word| == line.length
      && (forall i :: 0 <= i < line.length ==>
            line.word[i] == SentChar(At(g, PosOf(sp.dir, sp.lane, sp.s + i)).letter))
  {
    LaidLine(g, AllSpans(g), TransformGridForPython(g), k);
  }

  /** Line `k` of lines laid on their runs. */
  lemma {:induction false} LaidLine(g: Grid, ss: seq<Span>, lines: seq<Line>, k: nat)
    requires Rectangular(g) && LinesOnRuns(g, ss, lines) && k < |ss|
    ensures var line := lines[k]; var sp := ss[k];
      && ValidSpan(g, sp)
      && line.index == k
      && line.direction == sp.dir
      && line.start == PosOf(sp.dir, sp.lane, sp.s)
      && line.length == sp.e - sp.s > 0
      && |line.word| == line.length
      && (forall i :: 0 <= i < line.length ==>
            line.word[i] == SentChar(At(g, PosOf(sp.dir, sp.lane, sp.s + i)).letter))
  {
  }

  /** Discovery order: all across lines come before all down lines, and
      within one direction lines are ordered by (lane, start), i.e. row-major
      for across and column-major for down. */
  lemma {:induction false} DiscoveryOrder(g: Grid)
    requires Rectangular(g)
    ensures var ss := AllSpans(g);
      forall i, j :: 0 <= i < j < |ss| && ss[i].dir == Down ==> ss[j].dir == Down
    ensures var ss := AllSpans(g);
      forall i, j :: 0 <= i < j < |ss| && ss[i].dir == ss[j].dir ==> SpanBefore(ss[i], ss[j])
  {
    var a := DirSpans(g, Across, 0);
    var dn := DirSpans(g, Down, 0);
    DirSpansSorted(g, Across, 0);
    DirSpansSorted(g, Down, 0);
    ConcatOrder(a, dn);
  }

  /** Across lines in scan order followed by down lines in scan order. */
  lemma {:induction false} ConcatOrder(a: seq<Span>, dn: seq<Span>)
    requires forall i :: 0 <= i < |a| ==> a[i].dir == Across
    requires forall i :: 0 <= i < |dn| ==> dn[i].dir == Down
    requires ScanOrdered(a) && ScanOrdered(dn)
    ensures forall i, j :: 0 <= i < j < |a + dn| && (a + dn)[i].dir == Down ==> (a + dn)[j].dir == Down
    ensures forall i, j :: 0 <= i < j < |a + dn| && (a + dn)[i].dir == (a + dn)[j].dir ==> SpanBefore((a + dn)[i], (a + dn)[j])
  {
    var ss := a + dn;
    forall i, j | 0 <= i < j < |ss| && ss[i].dir == ss[j].dir
      ensures SpanBefore(ss[i], ss[j])
    {
      if j < |a| {
        assert ss[i] == a[i] && ss[j] == a[j];
      } else if i >= |a| {
        assert ss[i] == dn[i - |a|] && ss[j] == dn[j - |a|];
      }
    }
  }

  /** Every flagged run start in either direction yields a line. */
  lemma {:induction false} DiscoveryComplete(g: Grid, d: Direction, l: nat, k: nat)
    requires Rectangular(g) && l < Lanes(g, d) && StartsLine(g, d, l, k)
    ensures Span(d, l, k, RunEnd(Blacks(g, d, l), k)) in AllSpans(g)
  {
    LaneSpansComplete(g, d, l, k);
    DirSpansComplete(g, d, 0, l, Span(d, l, k, RunEnd(Blacks(g, d, l), k)));
  }

  /** Reciprocity on the discovered lines. */
  lemma {:induction false} SpanReciprocal(g: Grid, ss: seq<Span>, k: nat, n: Neighbour)
    requires Rectangular(g) && SpansOK(g, ss)
    requires k < |ss| && n in NeighboursFrom(ss, k, 0)
    ensures n.neighbourIndex < |ss| && ss[n.neighbourIndex].dir != ss[k].dir
    ensures n.ownIdx < ss[k].e - ss[k].s && n.otherIdx < ss[n.neighbourIndex].e - ss[n.neighbourIndex].s
    ensures Neighbour(k, n.otherIdx, n.ownIdx) in NeighboursFrom(ss, n.neighbourIndex, 0)
  {
    var sp := ss[k];
    var p := SpanCell(sp, n.ownIdx);
    var j := n.neighbourIndex;
    assert IsCrossing(ss, k, n);
    var q := ss[j];
    assert q.dir == Flip(sp.dir) && Covers(q, p);
    assert SpanCell(q, n.otherIdx) == p;
    assert Covers(sp, p);
    FindSpanUnique(g, ss, k, p);
    assert Flip(q.dir) == sp.dir;
    assert IsCrossing(ss, j, Neighbour(k, n.otherIdx, n.ownIdx));
  }

  /** Crossing records are reciprocal: if line k records that its offset
      `ownIdx` is offset `otherIdx` of line j, then line j records the same
      crossing with the offsets swapped. The two lines run in different
      directions. */
  lemma {:induction false} CrossingsReciprocal(g: Grid)
    requires Rectangular(g) && |g| > 0
    ensures var lines := TransformGridForPython(g);
      forall k, n :: 0 <= k < |lines| && n in lines[k].neighbours ==>
        && n.neighbourIndex < |lines|
        && lines[n.neighbourIndex].direction != lines[k].direction
        && n.ownIdx < lines[k].length && n.otherIdx < lines[n.neighbourIndex].length
        && Neighbour(k, n.otherIdx, n.ownIdx) in lines[n.neighbourIndex].neighbours
  {
  }

  /** A perpendicular line through a cell of line `k` yields a record. */
  lemma {:induction false} CrossingFromCover(g: Grid, ss: seq<Span>, k: nat, i: nat, j: nat)
    requires Rectangular(g) && SpansOK(g, ss)
    requires k < |ss| && i < ss[k].e - ss[k].s
    requires j < |ss| && ss[j].dir != ss[k].dir && Covers(ss[j], SpanCell(ss[k], i))
    ensures Neighbour(j, i, OffsetOf(ss[j].dir, SpanCell(ss[k], i)) - ss[j].s) in NeighboursFrom(ss, k, 0)
  {
    var p := SpanCell(ss[k], i);
    FindSpanUnique(g, ss, j, p);
    assert ss[j].dir == Flip(ss[k].dir);
    assert IsCrossing(ss, k, Neighbour(j, i, OffsetOf(ss[j].dir, p) - ss[j].s));
  }

  /** Every record names a perpendicular line through the recorded cell. */
  lemma {:induction false} CoverFromCrossing(g: Grid, ss: seq<Span>, k: nat, n: Neighbour)
    requires Rectangular(g) && SpansOK(g, ss)
    requires k < |ss| && n in NeighboursFrom(ss, k, 0)
    ensures n.ownIdx < ss[k].e - ss[k].s && n.neighbourIndex < |ss|
    ensures ss[n.neighbourIndex].dir != ss[k].dir && Covers(ss[n.neighbourIndex], SpanCell(ss[k], n.ownIdx))
  {
    assert IsCrossing(ss, k, n);
  }

  /** One crossing record per crossed cell: a line's records have strictly
      increasing own offsets, and offset i has a record exactly when a
      perpendicular line passes through that cell. */
  lemma {:induction false} CrossingPerCell(g: Grid, k: nat, i: nat)
    requires Rectangular(g) && |g| > 0
    requires k < |AllSpans(g)| && i < AllSpans(g)[k].e - AllSpans(g)[k].s
    ensures var ns := TransformGridForPython(g)[k].neighbours;
      forall a, b :: 0 <= a < b < |ns| ==> ns[a].ownIdx < ns[b].ownIdx
    ensures var ns := TransformGridForPython(g)[k].neighbours; var ss := AllSpans(g);
      (exists n :: n in ns && n.ownIdx == i) <==>
      (exists j :: 0 <= j < |ss| && ss[j].dir != ss[k].dir && Covers(ss[j], SpanCell(ss[k], i)))
  {
    var ss := AllSpans(g);
    AllSpansOK(g);
    assert TransformGridForPython(g)[k] == MakeLine(g, ss, k);
    var ns := NeighboursFrom(ss, k, 0);
    if j :| 0 <= j < |ss| && ss[j].dir != ss[k].dir && Covers(ss[j], SpanCell(ss[k], i)) {
      CrossingFromCover(g, ss, k, i, j);
    }
    if n :| n in ns && n.ownIdx == i {
      CoverFromCrossing(g, ss, k, n);
    }
  }

  /** Two records of one line that lead to the same line record the same
      cell: the crossing cell of two perpendicular lines is unique. */
  lemma {:induction false} SameLineSameCell(ss: seq<Span>, k: nat, a: Neighbour, b: Neighbour)
    requires IsCrossing(ss, k, a) && IsCrossing(ss, k, b) && a.neighbourIndex == b.neighbourIndex
    ensures a.ownIdx == b.ownIdx
  {
    var d := ss[k].dir;
    assert LaneOf(Flip(d), SpanCell(ss[k], a.ownIdx)) == ss[k].s + a.ownIdx;
    assert LaneOf(Flip(d), SpanCell(ss[k], b.ownIdx)) == ss[k].s + b.ownIdx;
  }

  /** Two lines cross at most once: the records of one line lead to
      pairwise different lines, none of them the line itself. */
  lemma {:induction false} CrossOnce(g: Grid, k: nat)
    requires Rectangular(g) && |g| > 0 && k < |AllSpans(g)|
    ensures var ns := TransformGridForPython(g)[k].neighbours;
      forall a, b :: 0 <= a < b < |ns| ==> ns[a].neighbourIndex != ns[b].neighbourIndex
    ensures var ns := TransformGridForPython(g)[k].neighbours;
      forall a :: 0 <= a < |ns| ==> ns[a].neighbourIndex != k
  {
    var ss := AllSpans(g);
    assert TransformGridForPython(g)[k].neighbours == NeighboursFrom(ss, k, 0);
    CrossOnceSpans(ss, k);
  }

  lemma {:induction false} CrossOnceSpans(ss: seq<Span>, k: nat)
    requires k < |ss| && ss[k].s <= ss[k].e
    ensures var ns := NeighboursFrom(ss, k, 0);
      forall a, b :: 0 <= a < b < |ns| ==> ns[a].neighbourIndex != ns[b].neighbourIndex
    ensures var ns := NeighboursFrom(ss, k, 0);
      forall a :: 0 <= a < |ns| ==> ns[a].neighbourIndex != k
  {
    var ns := NeighboursFrom(ss, k, 0);
    forall a, b | 0 <= a < b < |ns|
      ensures ns[a].neighbourIndex != ns[b].neighbourIndex
    {
      assert ns[a] in ns && ns[b] in ns;
      if ns[a].neighbourIndex == ns[b].neighbourIndex {
        SameLineSameCell(ss, k, ns[a], ns[b]);
      }
    }
    forall a | 0 <= a < |ns|
      ensures ns[a].neighbourIndex != k
    {
      assert ns[a] in ns;
      assert IsCrossing(ss, k, ns[a]);
    }
  }

  /** A cell lies on at most one discovered line per direction: the codec
      never duplicates a cell. */
  lemma {:induction false} CellOnOneLine(g: Grid, d: Direction, p: Pos)
    requires Rectangular(g)
    ensures var ss := AllSpans(g);
      forall j, j' ::
        (0 <= j < |ss| && 0 <= j' < |ss| && ss[j].dir == d && ss[j'].dir == d && Covers(ss[j], p) && Covers(ss[j'], p))
        ==> j == j'
  {
    var ss := AllSpans(g);
    AllSpansOK(g);
    forall j, j' | 0 <= j < |ss| && 0 <= j' < |ss| && ss[j].dir == d && ss[j'].dir == d &&
        Covers(ss[j], p) && Covers(ss[j'], p)
      ensures j == j'
    {
      FindSpanUnique(g, ss, j, p);
      FindSpanUnique(g, ss, j', p);
    }
  }

  /** A white cell lies on a discovered line of direction `d` exactly when
      the first cell of its run carries that direction's flag: the codec
      never drops a cell of a flagged run. */
  lemma {:induction false} CellMembership(g: Grid, d: Direction, p: Pos)
    requires Rectangular(g) && InBounds(g, p) && !At(g, p).isBlack
    ensures var ss := AllSpans(g); var b := Blacks(g, d, LaneOf(d, p));
      (exists j :: 0 <= j < |ss| && ss[j].dir == d && Covers(ss[j], p)) <==>
        LaneFlag(g, d, LaneOf(d, p), RunStart(b, OffsetOf(d, p)))
  {
    var ss := AllSpans(g);
    var lane := LaneOf(d, p);
    var b := Blacks(g, d, lane);
    var k := OffsetOf(d, p);
    assert b[k] == At(g, PosOf(d, lane, k)).isBlack && PosOf(d, lane, k) == p;
    RunAroundIsMaximal(b, k);
    var s := RunStart(b, k);
    if j :| 0 <= j < |ss| && ss[j].dir == d && Covers(ss[j], p) {
      CoverHasFlag(g, ss[j], p, s);
    }
    if LaneFlag(g, d, lane, s) {
      FlagGivesCover(g, d, p, s);
    }
  }

  /** A valid line through a white cell starts where the cell's run starts,
      so that start carries the flag. */
  lemma {:induction false} CoverHasFlag(g: Grid, sp: Span, p: Pos, s: nat)
    requires Rectangular(g) && ValidSpan(g, sp) && Covers(sp, p)
    requires var b := Blacks(g, sp.dir, sp.lane);
      s <= OffsetOf(sp.dir, p) < |b| && IsMaximalRun(b, s, RunEnd(b, s)) && OffsetOf(sp.dir, p) < RunEnd(b, s)
    ensures LaneFlag(g, sp.dir, sp.lane, s)
  {
    var b := Blacks(g, sp.dir, sp.lane);
    RunFromStartIsMaximal(b, sp.s);
    MaximalRunUnique(b, sp.s, sp.e, s, RunEnd(b, s), OffsetOf(sp.dir, p));
  }

  /** A flagged run start yields a discovered line through every cell of the run. */
  lemma {:induction false} FlagGivesCover(g: Grid, d: Direction, p: Pos, s: nat)
    requires Rectangular(g) && InBounds(g, p)
    requires var b := Blacks(g, d, LaneOf(d, p));
      && s <= OffsetOf(d, p) < |b| && IsMaximalRun(b, s, RunEnd(b, s)) && OffsetOf(d, p) < RunEnd(b, s)
      && LaneFlag(g, d, LaneOf(d, p), s)
    ensures var ss := AllSpans(g); exists j :: 0 <= j < |ss| && ss[j].dir == d && Covers(ss[j], p)
  {
    var lane := LaneOf(d, p);
    var b := Blacks(g, d, lane);
    assert StartsLine(g, d, lane, s);
    DiscoveryComplete(g, d, lane, s);
    var sp := Span(d, lane, s, RunEnd(b, s));
    assert Covers(sp, p);
    var ss := AllSpans(g);
    var j :| 0 <= j < |ss| && ss[j] == sp;
  }

  // ---------------------------------------------------------------------
  // applyLinesToGrid

  /** The cell that receives `word[i]` of a line. */
  function Target(line: Line, i: int): Pos {
    if line.direction == Across then Pos(line.start.row, line.start.col + i)
    else Pos(line.start.row + i, line.start.col)
  }

  /** Offset of `p` along the line (meaningful when `OnLine`). */
  function Off(line: Line, p: Pos): int {
    OffsetOf(line.direction, p) - OffsetOf(line.direction, line.start)
  }

  /** `p` receives one of the line's letters. */
  predicate OnLine(line: Line, p: Pos) {
    LaneOf(line.direction, p) == LaneOf(line.direction, line.start) && 0 <= Off(line, p) < |line.word|
  }

  lemma {:induction false} TargetOnLine(line: Line, i: int, p: Pos)
    ensures 0 <= i < |line.word| && Target(line, i) == p ==> OnLine(line, p) && Off(line, p) == i
    ensures OnLine(line, p) ==> Target(line, Off(line, p)) == p
  {
  }

  predicate TargetsInBounds(g: Grid, lines: seq<Line>) {
    forall k, i :: 0 <= k < |lines| && 0 <= i < |lines[k].word| ==> InBounds(g, Target(lines[k], i))
  }

  /** The inner loop of applyLinesToGrid for one line, from offset `i`:
      write `word[i]` unless the target cell is black. */
  function ApplyWord(g: Grid, line: Line, i: nat): (g': Grid)
    requires Rectangular(g) && TargetsInBounds(g, [line])
    ensures Rectangular(g') && Height(g') == Height(g) && Width(g') == Width(g)
    ensures forall p :: InBounds(g, p) ==>
      At(g', p) == if OnLine(line, p) && i <= Off(line, p) && !At(g, p).isBlack
                   then At(g, p).(letter := Ch(line.word[Off(line, p)])) else At(g, p)
    decreases |line.word| - i
  {
    if i >= |line.word| then g
    else
      var p := Target(line, i);
      assert InBounds(g, p) by { assert [line][0] == line; }
      TargetOnLine(line, i, p);
      var g1 := if At(g, p).isBlack then g else Put(g, p, At(g, p).(letter := Ch(line.word[i])));
      assert forall q :: OnLine(line, q) && Off(line, q) == i ==> q == p by {
        forall q | OnLine(line, q) && Off(line, q) == i
          ensures q == p
        {
          TargetOnLine(line, i, q);
        }
      }
      ApplyWord(g1, line, i + 1)
  }

  /** The letter the last of `lines` that passes through `p` writes there. */
  function LastWrite(lines: seq<Line>, p: Pos): (r: Option<char>)
    ensures r.Some? ==> exists m :: 0 <= m < |lines| && OnLine(lines[m], p) && r.value == lines[m].word[Off(lines[m], p)]
    ensures (exists m :: 0 <= m < |lines| && OnLine(lines[m], p)) ==> r.Some?
    ensures r.Some? ==> forall m :: 0 <= m < |lines| && OnLine(lines[m], p) && (forall m' :: m < m' < |lines| ==> !OnLine(lines[m'], p)) ==>
      r.value == lines[m].word[Off(lines[m], p)]
  {
    if |lines| == 0 then None
    else
      var last := lines[|lines| - 1];
      if OnLine(last, p) then Some(last.word[Off(last, p)])
      else LastWrite(lines[..|lines| - 1], p)
  }

  /** The cell `p` of `g` after `lines` are written: the letter of the last
      line through it, unless the cell is black. */
  function Written(g: Grid, lines: seq<Line>, p: Pos): Cell
    requires Rectangular(g) && InBounds(g, p)
  {
    var w := LastWrite(lines, p);
    if !At(g, p).isBlack && w.Some? then At(g, p).(letter := Ch(w.value)) else At(g, p)
  }

  /** applyLinesToGrid: write every line's letters at start+i along its
      direction, skipping black targets; every cell ends as `Written`. */
  function ApplyLinesToGrid(g: Grid, lines: seq<Line>): (g': Grid)
    requires Rectangular(g) && TargetsInBounds(g, lines)
    ensures Rectangular(g') && Height(g') == Height(g) && Width(g') == Width(g)
    ensures forall p :: InBounds(g, p) ==> At(g', p) == Written(g, lines, p)
    decreases |lines|
  {
    if |lines| == 0 then g
    else
      var init := lines[..|lines| - 1];
      var last := lines[|lines| - 1];
      assert TargetsInBounds(g, init) by {
        forall k, i | 0 <= k < |init| && 0 <= i < |init[k].word|
          ensures InBounds(g, Target(init[k], i))
        {
          assert init[k] == lines[k];
        }
      }
      var g1 := ApplyLinesToGrid(g, init);
      assert TargetsInBounds(g1, [last]) by {
        forall k, i | 0 <= k < 1 && 0 <= i < |[last][k].word|
          ensures InBounds(g1, Target([last][k], i))
        {
          assert [last][k] == lines[|lines| - 1];
        }
      }
      var g2 := ApplyWord(g1, last, 0);
      ApplyLinesStep(g, g1, g2, lines);
      g2
  }

  /** Writing the last line on top of the earlier lines' result. */
  lemma {:induction false} ApplyLinesStep(g: Grid, g1: Grid, g2: Grid, lines: seq<Line>)
    requires |lines| > 0 && Rectangular(g) && Rectangular(g1) && Rectangular(g2)
    requires Height(g1) == Height(g) && Width(g1) == Width(g) && Height(g2) == Height(g) && Width(g2) == Width(g)
    requires forall p :: InBounds(g, p) ==> InBounds(g1, p) && At(g1, p) == Written(g, lines[..|lines| - 1], p)
    requires var last := lines[|lines| - 1];
      forall p :: InBounds(g1, p) ==>
        At(g2, p) == if OnLine(last, p) && 0 <= Off(last, p) && !At(g1, p).isBlack
                     then At(g1, p).(letter := Ch(last.word[Off(last, p)])) else At(g1, p)
    ensures forall p :: InBounds(g, p) ==> At(g2, p) == Written(g, lines, p)
  {
    var last := lines[|lines| - 1];
    forall p | InBounds(g, p)
      ensures At(g2, p) == Written(g, lines, p)
    {
      assert InBounds(g1, p);
      assert LastWrite(lines, p) == if OnLine(last, p) then Some(last.word[Off(last, p)]) else LastWrite(lines[..|lines| - 1], p);
    }
  }

  /** Black cells and cells on no line keep everything. */
  lemma {:induction false} ApplyLinesFrame(g: Grid, lines: seq<Line>, p: Pos)
    requires Rectangular(g) && TargetsInBounds(g, lines) && InBounds(g, p)
    requires At(g, p).isBlack || forall k :: 0 <= k < |lines| ==> !OnLine(lines[k], p)
    ensures At(ApplyLinesToGrid(g, lines), p) == At(g, p)
  {
    assert !At(g, p).isBlack ==> LastWrite(lines, p).None?;
  }

  // ---------------------------------------------------------------------
  // Round trip: the lines sent for a grid, written back into it

  /** Line `k` as emitted passes through `p` exactly when its run covers
      `p`, stays inside the grid, and carries the cell's letter or
      placeholder at `p`. */
  lemma {:induction false} EmittedLineAt(g: Grid, k: nat, p: Pos)
    requires Rectangular(g) && |g| > 0 && k < |AllSpans(g)|
    ensures var line := TransformGridForPython(g)[k];
      forall i :: 0 <= i < |line.word| ==> InBounds(g, Target(line, i))
    ensures var line := TransformGridForPython(g)[k];
      OnLine(line, p) <==> Covers(AllSpans(g)[k], p)
    ensures var line := TransformGridForPython(g)[k];
      OnLine(line, p) ==> InBounds(g, p) && line.word[Off(line, p)] == SentChar(At(g, p).letter)
  {
    LineOfRunCells(g, AllSpans(g), TransformGridForPython(g), k, p);
  }

  /** Line `k` of lines laid on their runs, against a cell `p`. */
  lemma {:induction false} LineOfRunCells(g: Grid, ss: seq<Span>, lines: seq<Line>, k: nat, p: Pos)
    requires Rectangular(g) && LinesOnRuns(g, ss, lines) && k < |ss|
    ensures forall i :: 0 <= i < |lines[k].word| ==> InBounds(g, Target(lines[k], i))
    ensures OnLine(lines[k], p) <==> Covers(ss[k], p)
    ensures OnLine(lines[k], p) ==> InBounds(g, p) && lines[k].word[Off(lines[k], p)] == SentChar(At(g, p).letter)
  {
    LineCells(g, lines[k], ss[k], p);
  }

  /** A line laid along a valid run, carrying the run's letters. */
  lemma {:induction false} LineCells(g: Grid, line: Line, sp: Span, p: Pos)
    requires Rectangular(g) && ValidSpan(g, sp)
    requires line.direction == sp.dir && line.start == PosOf(sp.dir, sp.lane, sp.s) && |line.word| == sp.e - sp.s
    requires forall i :: 0 <= i < |line.word| ==> line.word[i] == SentChar(At(g, PosOf(sp.dir, sp.lane, sp.s + i)).letter)
    ensures forall i :: 0 <= i < |line.word| ==> InBounds(g, Target(line, i))
    ensures OnLine(line, p) <==> Covers(sp, p)
    ensures OnLine(line, p) ==> InBounds(g, p) && line.word[Off(line, p)] == SentChar(At(g, p).letter)
  {
    var b := Blacks(g, sp.dir, sp.lane);
    assert sp.lane < Lanes(g, sp.dir) && sp.e <= |b| == LaneLen(g, sp.dir);
    forall i | 0 <= i < |line.word|
      ensures InBounds(g, Target(line, i))
    {
      assert Target(line, i) == PosOf(sp.dir, sp.lane, sp.s + i);
    }
    PosOfLaneOffset(sp.dir, p);
    if OnLine(line, p) {
      assert p == PosOf(sp.dir, sp.lane, sp.s + Off(line, p));
    }
  }

  /** A cell is on some discovered line. */
  predicate OnSomeLine(g: Grid, p: Pos)
    requires Rectangular(g)
  {
    exists j :: 0 <= j < |AllSpans(g)| && Covers(AllSpans(g)[j], p)
  }

  /** Writing back the lines sent for `g` changes only the white cells on
      lines: each gets its own letter again, or the placeholder if it was
      empty. */
  lemma {:induction false} RoundTrip(g: Grid)
    requires Rectangular(g) && |g| > 0
    ensures TargetsInBounds(g, TransformGridForPython(g))
    ensures forall p :: InBounds(g, p) ==>
      At(ApplyLinesToGrid(g, TransformGridForPython(g)), p) ==
        if !At(g, p).isBlack && OnSomeLine(g, p) then At(g, p).(letter := Ch(SentChar(At(g, p).letter))) else At(g, p)
  {
    var lines := TransformGridForPython(g);
    forall k, i | 0 <= k < |lines| && 0 <= i < |lines[k].word|
      ensures InBounds(g, Target(lines[k], i))
    {
      EmittedLineAt(g, k, Pos(0, 0));
    }
    forall p | InBounds(g, p)
      ensures Written(g, lines, p) ==
        if !At(g, p).isBlack && OnSomeLine(g, p) then At(g, p).(letter := Ch(SentChar(At(g, p).letter))) else At(g, p)
    {
      RoundTripCell(g, p);
    }
  }

  lemma {:induction false} RoundTripCell(g: Grid, p: Pos)
    requires Rectangular(g) && |g| > 0 && InBounds(g, p)
    ensures LastWrite(TransformGridForPython(g), p) ==
      if OnSomeLine(g, p) then Some(SentChar(At(g, p).letter)) else None
  {
    var w := LastWrite(TransformGridForPython(g), p);
    if w.Some? {
      LastWriteSent(g, p);
    }
    if OnSomeLine(g, p) {
      var j :| 0 <= j < |AllSpans(g)| && Covers(AllSpans(g)[j], p);
      EmittedLineAt(g, j, p);
    }
  }

  /** Whatever the lines write at `p` is the cell's letter or placeholder,
      sent by a line that covers it. */
  lemma {:induction false} LastWriteSent(g: Grid, p: Pos)
    requires Rectangular(g) && |g| > 0 && LastWrite(TransformGridForPython(g), p).Some?
    ensures LastWrite(TransformGridForPython(g), p).value == SentChar(At(g, p).letter)
    ensures OnSomeLine(g, p)
  {
    var lines := TransformGridForPython(g);
    var m :| 0 <= m < |lines| && OnLine(lines[m], p) && LastWrite(lines, p).value == lines[m].word[Off(lines[m], p)];
    EmittedLineAt(g, m, p);
  }

  /** A grid whose line cells all hold letters comes back unchanged. */
  lemma {:induction false} FilledGridRoundTrip(g: Grid)
    requires Rectangular(g) && |g| > 0
    requires forall p :: InBounds(g, p) && !At(g, p).isBlack ==> At(g, p).letter != Blank
    ensures TargetsInBounds(g, TransformGridForPython(g))
    ensures ApplyLinesToGrid(g, TransformGridForPython(g)) == g
  {
    RoundTrip(g);
    var g' := ApplyLinesToGrid(g, TransformGridForPython(g));
    forall p | InBounds(g, p)
      ensures At(g', p) == At(g, p)
    {
      if !At(g, p).isBlack {
        assert At(g, p).(letter := Ch(SentChar(At(g, p).letter))) == At(g, p);
      }
    }
    SameCellsSameGrid(g', g);
  }
}

=== FILE: editor.dfy ===
/** The creator's grid mutations other than typing: symmetric black
    painting, clue-flag and zone toggles, the mouse handlers, resizing, and
    clearing letters. */
module Editor {
  import opened Basics
  import opened Grid
  import opened GridFuns
  import opened Keys

  // ---------------------------------------------------------------------
  // Symmetry companions

  datatype Transform = Rotate | Mirror | Diagonal

  /** The image of (r, c) in an h-by-w grid. */
  function Image(t: Transform, h: int, w: int, p: Pos): Pos {
    match t
    case Rotate => Pos(h - 1 - p.row, w - 1 - p.col)
    case Mirror => Pos(p.row, w - 1 - p.col)
    case Diagonal => Pos(p.col, p.row)
  }

  /** The toggle of `t` is on; the diagonal counts only on square grids. */
  predicate Enabled(sym: Symmetry, t: Transform, h: int, w: int) {
    match t
    case Rotate => sym.rotational
    case Mirror => sym.mirror
    case Diagonal => sym.diagonal && w == h
  }

  predicate InRect(h: int, w: int, p: Pos) {
    0 <= p.row < h && 0 <= p.col < w
  }

  /** getSymmetricCells: the in-bounds images of (row, col) under every
      enabled transform, each once. */
  function SymmetricCells(h: int, w: int, p: Pos, sym: Symmetry): (cs: set<Pos>)
    ensures forall q :: q in cs <==>
      InRect(h, w, q) && exists t :: Enabled(sym, t, h, w) && q == Image(t, h, w, p)
  {
    var rot := Image(Rotate, h, w, p);
    var mir := Image(Mirror, h, w, p);
    var dia := Image(Diagonal, h, w, p);
    var cs := (if sym.rotational && InRect(h, w, rot) then {rot} else {})
      + (if sym.mirror && InRect(h, w, mir) then {mir} else {})
      + (if sym.diagonal && w == h && InRect(h, w, dia) then {dia} else {});
    assert forall q :: q in cs ==>
      ((Enabled(sym, Rotate, h, w) && q == rot) || (Enabled(sym, Mirror, h, w) && q == mir)
       || (Enabled(sym, Diagonal, h, w) && q == dia));
    cs
  }

  /** Every transform is its own inverse and maps a cell of the grid into
      the grid (the diagonal only when it is enabled, i.e. on a square). */
  lemma {:induction false} ImageInvolution(t: Transform, sym: Symmetry, h: int, w: int, p: Pos)
    ensures Image(t, h, w, Image(t, h, w, p)) == p
    ensures Enabled(sym, t, h, w) && InRect(h, w, p) ==> InRect(h, w, Image(t, h, w, p))
  {
  }

  /** The painted cells: the clicked one and its companions. */
  function Painted(g: Grid, sym: Symmetry, p: Pos): set<Pos> {
    {p} + SymmetricCells(Height(g), Width(g), p, sym)
  }

  /** applyBlackChangeWithSymmetry: the clicked cell and each companion get
      `isBlack := v`; their letters and every other cell are left alone. */
  function PaintBlack(g: Grid, sym: Symmetry, p: Pos, v: bool): (g': Grid)
    requires Rectangular(g)
    ensures Rectangular(g') && Height(g') == Height(g) && Width(g') == Width(g)
    ensures forall q :: InBounds(g, q) ==>
      At(g', q) == if q in Painted(g, sym, p) then At(g, q).(isBlack := v) else At(g, q)
  {
    var ps := Painted(g, sym, p);
    seq(|g|, r requires 0 <= r < |g| =>
      seq(|g[r]|, c requires 0 <= c < |g[r]| =>
        if Pos(r, c) in ps then g[r][c].(isBlack := v) else g[r][c]))
  }

  /** The black pattern is invariant under `t`. */
  ghost predicate SymmetricUnder(g: Grid, t: Transform)
    requires Rectangular(g)
  {
    forall p :: InBounds(g, p) ==> MatchesImage(g, t, p)
  }

  /** The cell at `p` and its image under `t` are both black or both white. */
  predicate MatchesImage(g: Grid, t: Transform, p: Pos)
    requires Rectangular(g) && InBounds(g, p)
  {
    InBounds(g, Image(t, Height(g), Width(g), p))
    && At(g, Image(t, Height(g), Width(g), p)).isBlack == At(g, p).isBlack
  }

  /** Exactly the toggle of `t` is on. */
  predicate OnlyToggle(sym: Symmetry, t: Transform) {
    sym == Symmetry(t == Rotate, t == Mirror, t == Diagonal)
  }

  /** With one toggle on, painting keeps a grid that is symmetric under it
      symmetric: the painted set is closed under the transform. */
  lemma {:induction false} PaintKeepsSymmetry(g: Grid, sym: Symmetry, t: Transform, p: Pos, v: bool)
    requires Rectangular(g) && InBounds(g, p)
    requires OnlyToggle(sym, t) && Enabled(sym, t, Height(g), Width(g))
    requires SymmetricUnder(g, t)
    ensures SymmetricUnder(PaintBlack(g, sym, p, v), t)
  {
    var h, w := Height(g), Width(g);
    var g' := PaintBlack(g, sym, p, v);
    ImageInvolution(t, sym, h, w, p);
    forall q | InBounds(g', q)
      ensures MatchesImage(g', t, q)
    {
      assert MatchesImage(g, t, q);
      ImageInvolution(t, sym, h, w, q);
      var q' := Image(t, h, w, q);
      assert q in Painted(g, sym, p) <==> q' in Painted(g, sym, p);
    }
  }

  /** A 3-by-3 grid without black cells. */
  ghost predicate White3(g: Grid) {
    Rectangular(g) && Height(g) == 3 && Width(g) == 3 && forall p :: InBounds(g, p) ==> !At(g, p).isBlack
  }

  lemma {:induction false} WhiteGridSymmetric(g: Grid, t: Transform)
    requires White3(g)
    ensures SymmetricUnder(g, t)
  {
    forall p | InBounds(g, p)
      ensures MatchesImage(g, t, p)
    {
      ImageInvolution(t, Symmetry(true, true, true), 3, 3, p);
    }
  }

  /** Painting the top-left corner of a white 3-by-3 grid with rotational
      and mirror symmetry: the corner and its two single images turn black,
      the fourth corner stays white. */
  lemma {:induction false} CornerPaint(g: Grid)
    requires White3(g)
    ensures var g' := PaintBlack(g, Symmetry(true, true, false), Pos(0, 0), true);
      && Rectangular(g') && Height(g') == 3 && Width(g') == 3
      && At(g', Pos(0, 2)).isBlack && At(g', Pos(2, 2)).isBlack && !At(g', Pos(2, 0)).isBlack
  {
    var sym := Symmetry(true, true, false);
    var ps := Painted(g, sym, Pos(0, 0));
    assert Image(Rotate, 3, 3, Pos(0, 0)) == Pos(2, 2);
    assert Image(Mirror, 3, 3, Pos(0, 0)) == Pos(0, 2);
    assert Pos(0, 2) in ps && Pos(2, 2) in ps;
    assert Pos(2, 0) !in ps by {
      forall t | Enabled(sym, t, 3, 3) ensures Image(t, 3, 3, Pos(0, 0)) != Pos(2, 0) { }
    }
    assert !At(g, Pos(2, 0)).isBlack;
  }

  /** With two toggles on, the companions are only the single images, not
      their compositions, so painting can break both symmetries of a grid
      that had them: a white 3-by-3 grid is symmetric under rotation and
      mirroring, and painting its corner with both toggles on leaves it
      symmetric under neither. */
  lemma {:induction false} TwoTogglesBreakSymmetry(g: Grid)
    requires White3(g)
    ensures SymmetricUnder(g, Rotate) && SymmetricUnder(g, Mirror)
    ensures !SymmetricUnder(PaintBlack(g, Symmetry(true, true, false), Pos(0, 0), true), Rotate)
    ensures !SymmetricUnder(PaintBlack(g, Symmetry(true, true, false), Pos(0, 0), true), Mirror)
  {
    var g' := PaintBlack(g, Symmetry(true, true, false), Pos(0, 0), true);
    CornerPaint(g);
    assert Image(Rotate, 3, 3, Pos(0, 2)) == Pos(2, 0);
    assert !MatchesImage(g', Rotate, Pos(0, 2));
    assert Image(Mirror, 3, 3, Pos(2, 2)) == Pos(2, 0);
    assert !MatchesImage(g', Mirror, Pos(2, 2));
    assert InBounds(g', Pos(0, 2)) && InBounds(g', Pos(2, 2));
    WhiteGridSymmetric(g, Rotate);
    WhiteGridSymmetric(g, Mirror);
  }

  // ---------------------------------------------------------------------
  // Clue-flag and zone toggles

  /** setAcrossClueAtSelected / setDownClueAtSelected: flip the flag of
      direction `d` at `p` unless the cell is black. */
  function ToggleClue(g: Grid, p: Pos, d: Direction): (g': Grid)
    requires Rectangular(g) && InBounds(g, p)
    ensures Rectangular(g') && Height(g') == Height(g) && Width(g') == Width(g)
    ensures forall q :: InBounds(g, q) && q != p ==> At(g', q) == At(g, q)
    ensures HasFlag(At(g', p), d) == (HasFlag(At(g, p), d) != !At(g, p).isBlack)
    ensures HasFlag(At(g', p), Flip(d)) == HasFlag(At(g, p), Flip(d))
    ensures At(g', p).(hasAcrossClue := false, hasDownClue := false)
         == At(g, p).(hasAcrossClue := false, hasDownClue := false)
  {
    var cell := At(g, p);
    if cell.isBlack then g
    else if d == Across then Put(g, p, cell.(hasAcrossClue := !cell.hasAcrossClue))
    else Put(g, p, cell.(hasDownClue := !cell.hasDownClue))
  }

  /** Toggling twice restores the grid. */
  lemma {:induction false} ToggleClueTwice(g: Grid, p: Pos, d: Direction)
    requires Rectangular(g) && InBounds(g, p)
    ensures ToggleClue(ToggleClue(g, p, d), p, d) == g
  {
    var g2 := ToggleClue(ToggleClue(g, p, d), p, d);
    SameCellsSameGrid(g2, g);
  }

  /** The zone update of a press or drag with button `b`: the primary button
      marks the cell, the secondary one unmarks it, any other leaves it. */
  function ZoneClick(g: Grid, p: Pos, b: Option<int>): (g': Grid)
    requires Rectangular(g) && InBounds(g, p)
    ensures Rectangular(g') && Height(g') == Height(g) && Width(g') == Width(g)
    ensures forall q :: InBounds(g, q) && q != p ==> At(g', q) == At(g, q)
    ensures At(g', p) == At(g, p).(isAutofillZone := At(g', p).isAutofillZone)
    ensures b == Some(0) ==> At(g', p).isAutofillZone
    ensures b == Some(2) ==> !At(g', p).isAutofillZone
    ensures b != Some(0) && b != Some(2) ==> g' == g
  {
    if b == Some(0) then Put(g, p, At(g, p).(isAutofillZone := true))
    else if b == Some(2) then Put(g, p, At(g, p).(isAutofillZone := false))
    else g
  }

  // ---------------------------------------------------------------------
  // Mouse handlers

  /** Clicking the selected cell toggles the direction; clicking another
      cell selects it and keeps the direction. */
  function ClickSelect(s: Session, p: Pos): (s': Session)
    ensures s'.grid == s.grid && s'.mode == s.mode && s'.sym == s.sym && s'.held == s.held
    ensures p == s.cursor ==> s'.cursor == s.cursor && s'.dir == Flip(s.dir)
    ensures p != s.cursor ==> s'.cursor == p && s'.dir == s.dir
  {
    if p == s.cursor then s.(dir := Flip(s.dir)) else s.(cursor := p)
  }

  /** Clicking the same cell twice in a row comes back to the starting
      direction; clicking another cell and then it again flips it. */
  lemma {:induction false} ClickTwice(s: Session, p: Pos)
    ensures ClickSelect(ClickSelect(s, p), p).cursor == p
    ensures ClickSelect(ClickSelect(s, p), p).dir == (if p == s.cursor then s.dir else Flip(s.dir))
  {
  }

  /** onMouseDown on cell `p` with button `b` in the creator: record the
      button, then paint in paint mode (black unless the secondary button),
      set or clear the zone in zone mode, clear the letter on a secondary
      click in edit mode, and otherwise select or toggle direction. */
  function MouseDown(s: Session, p: Pos, b: int): (s': Session)
    requires Valid(s) && InBounds(s.grid, p)
    ensures Valid(s') && Height(s'.grid) == Height(s.grid) && Width(s'.grid) == Width(s.grid)
    ensures s'.held == Some(b) && s'.mode == s.mode && s'.sym == s.sym
    ensures s.mode != Edit || b == 2 ==> s'.cursor == s.cursor && s'.dir == s.dir
    ensures s.mode == Paint ==> s'.grid == PaintBlack(s.grid, s.sym, p, b != 2)
    ensures s.mode == Zone ==> s'.grid == ZoneClick(s.grid, p, Some(b))
    ensures s.mode == Edit && b == 2 ==> s'.grid == SetLetter(s.grid, p, Blank)
    ensures s.mode == Edit && b != 2 ==> s' == ClickSelect(s.(held := Some(b)), p)
  {
    var s1 := s.(held := Some(b));
    match s.mode
    case Paint => s1.(grid := PaintBlack(s.grid, s.sym, p, b != 2))
    case Zone => s1.(grid := ZoneClick(s.grid, p, Some(b)))
    case Edit =>
      if b == 2 then s1.(grid := SetLetter(s.grid, p, Blank))
      else ClickSelect(s1, p)
  }

  /** onMouseEnter on cell `p`: drag-painting with the held button, zone
      marking with the held button, or drag-clearing with the secondary
      button in edit mode. The cursor never moves. */
  function MouseEnter(s: Session, p: Pos): (s': Session)
    requires Valid(s) && InBounds(s.grid, p)
    ensures Valid(s') && s'.cursor == s.cursor && s'.dir == s.dir && s'.held == s.held
    ensures s.held.None? && s.mode != Zone ==> s' == s
    ensures s.mode == Zone ==> s'.grid == ZoneClick(s.grid, p, s.held)
    ensures s.mode == Paint && s.held.Some? ==> s'.grid == PaintBlack(s.grid, s.sym, p, s.held.value != 2)
    ensures s.mode == Edit && s.held == Some(2) ==> s'.grid == SetLetter(s.grid, p, Blank)
    ensures s.mode == Edit && s.held != Some(2) ==> s' == s
    ensures s.mode != Zone ==> s'.mode == s.mode && s'.sym == s.sym
  {
    match s.mode
    case Paint =>
      if s.held.Some? then s.(grid := PaintBlack(s.grid, s.sym, p, s.held.value != 2)) else s
    case Zone => s.(grid := ZoneClick(s.grid, p, s.held))
    case Edit =>
      if s.held == Some(2) then s.(grid := SetLetter(s.grid, p, Blank)) else s
  }

  /** onMouseUp / onMouseLeave: forget the held button. */
  function MouseUp(s: Session): (s': Session)
    ensures s'.held.None? && s' == s.(held := None)
  {
    s.(held := None)
  }

  /** A press and a drag onto another cell in paint mode paint both cells
      and all their companions with the same colour, and leave every letter
      and every other cell alone. */
  lemma {:induction false} DragPaintsLikePress(s: Session, p: Pos, q: Pos, b: int)
    requires Valid(s) && s.mode == Paint && InBounds(s.grid, p) && InBounds(s.grid, q)
    ensures var s2 := MouseEnter(MouseDown(s, p, b), q);
      && At(s2.grid, p).isBlack == (b != 2)
      && At(s2.grid, q).isBlack == (b != 2)
    ensures var s2 := MouseEnter(MouseDown(s, p, b), q);
      forall c :: InBounds(s.grid, c) ==>
        At(s2.grid, c) == if c in Painted(s.grid, s.sym, p) + Painted(s.grid, s.sym, q)
                          then At(s.grid, c).(isBlack := b != 2) else At(s.grid, c)
  {
    var s1 := MouseDown(s, p, b);
    var s2 := MouseEnter(s1, q);
    assert Painted(s1.grid, s.sym, q) == Painted(s.grid, s.sym, q);
    forall c | InBounds(s.grid, c)
      ensures At(s2.grid, c) == if c in Painted(s.grid, s.sym, p) + Painted(s.grid, s.sym, q)
                                then At(s.grid, c).(isBlack := b != 2) else At(s.grid, c)
    {
      assert InBounds(s1.grid, c);
    }
  }

  /** A right press and a drag onto another cell in edit mode empty both
      letters; nothing else in the grid changes, and the cursor stays. */
  lemma {:induction false} RightDragClears(s: Session, p: Pos, q: Pos)
    requires Valid(s) && s.mode == Edit && InBounds(s.grid, p) && InBounds(s.grid, q)
    ensures var s2 := MouseEnter(MouseDown(s, p, 2), q);
      && s2.cursor == s.cursor && s2.dir == s.dir
      && forall c :: InBounds(s.grid, c) ==>
           At(s2.grid, c) == if c == p || c == q then At(s.grid, c).(letter := Blank) else At(s.grid, c)
  {
    var s1 := MouseDown(s, p, 2);
    var s2 := MouseEnter(s1, q);
    forall c | InBounds(s.grid, c)
      ensures At(s2.grid, c) == if c == p || c == q then At(s.grid, c).(letter := Blank) else At(s.grid, c)
    {
      assert InBounds(s1.grid, c);
    }
  }

  // ---------------------------------------------------------------------
  // Resizing

  /** The cell a resize puts where the old grid had none: white and empty,
      every field the source leaves undefined read as false, null or empty. */
  const FreshCell: Cell := Cell(false, Blank, false, false, None, "", "", false)

  const MaxSide: int := 50

  /** applyDimensions' grid: both sides clamped to [1, 50]; the overlap with
      the old grid is kept and the rest filled with fresh cells. */
  function Resize(g: Grid, pendingWidth: int, pendingHeight: int): (g': Grid)
    requires Rectangular(g)
    ensures Rectangular(g')
    ensures Width(g') == Clamp(pendingWidth, 1, MaxSide) && Height(g') == Clamp(pendingHeight, 1, MaxSide)
    ensures forall q :: InBounds(g', q) ==> At(g', q) == if InBounds(g, q) then At(g, q) else FreshCell
  {
    var w := Clamp(pendingWidth, 1, MaxSide);
    var h := Clamp(pendingHeight, 1, MaxSide);
    seq(h, r requires 0 <= r < h =>
      seq(w, c requires 0 <= c < w => if r < |g| && c < |g[r]| then g[r][c] else FreshCell))
  }

  /** applyDimensions on the session: resize and put the cursor at (0, 0). */
  function ApplyDimensions(s: Session, pendingWidth: int, pendingHeight: int): (s': Session)
    requires Rectangular(s.grid)
    ensures Valid(s') && s'.cursor == Pos(0, 0)
    ensures s'.dir == s.dir && s'.mode == s.mode && s'.sym == s.sym && s'.held == s.held
  {
    s.(grid := Resize(s.grid, pendingWidth, pendingHeight), cursor := Pos(0, 0))
  }

  /** Resizing to some size and back: the cells in both rectangles come
      back, the others are fresh. */
  lemma {:induction false} ResizeBack(g: Grid, w: int, h: int)
    requires Rectangular(g) && 1 <= Width(g) <= MaxSide && 1 <= Height(g) <= MaxSide
    ensures var g2 := Resize(Resize(g, w, h), Width(g), Height(g));
      && Height(g2) == Height(g) && Width(g2) == Width(g)
      && forall q :: InBounds(g, q) ==>
           At(g2, q) == if q.row < Clamp(h, 1, MaxSide) && q.col < Clamp(w, 1, MaxSide) then At(g, q) else FreshCell
  {
  }

  /** Growing and then shrinking back to the old size restores the grid. */
  lemma {:induction false} GrowThenShrink(g: Grid, w: int, h: int)
    requires Rectangular(g) && 1 <= Width(g) <= MaxSide && 1 <= Height(g) <= MaxSide
    requires Width(g) <= w && Height(g) <= h
    ensures Resize(Resize(g, w, h), Width(g), Height(g)) == g
  {
    var g2 := Resize(Resize(g, w, h), Width(g), Height(g));
    ResizeBack(g, w, h);
    SameCellsSameGrid(g2, g);
  }

  // ---------------------------------------------------------------------
  // Clearing letters

  /** clearGridLetters: every letter emptied, black cells included; nothing
      else changes. */
  function ClearGridLetters(g: Grid): (g': Grid)
    requires Rectangular(g)
    ensures Rectangular(g') && Height(g') == Height(g) && Width(g') == Width(g)
    ensures forall q :: InBounds(g, q) ==> At(g', q) == At(g, q).(letter := Blank)
  {
    seq(|g|, r requires 0 <= r < |g| => seq(|g[r]|, c requires 0 <= c < |g[r]| => g[r][c].(letter := Blank)))
  }

  /** After clearing, every word read out of the grid is empty. */
  lemma {:induction false} ClearedGridReadsEmpty(g: Grid, row: int, col: int, d: Direction)
    requires Rectangular(g)
    requires 0 <= LaneOf(d, Pos(row, col)) < Lanes(g, d) && 0 <= OffsetOf(d, Pos(row, col))
    ensures WordFromGrid(ClearGridLetters(g), row, col, d) == ""
  {
    var g' := ClearGridLetters(g);
    var lane := LaneOf(d, Pos(row, col));
    var k := OffsetOf(d, Pos(row, col));
    if k < LaneLen(g, d) {
      ReadBlankStretch(g', d, lane, k, RunEnd(Blacks(g', d, lane), k));
    }
  }

  /** Clearing again changes nothing. */
  lemma {:induction false} ClearIdempotent(g: Grid)
    requires Rectangular(g)
    ensures ClearGridLetters(ClearGridLetters(g)) == ClearGridLetters(g)
  {
    var g' := ClearGridLetters(g);
    SameCellsSameGrid(ClearGridLetters(g'), g');
  }
}

=== FILE: grid.dfy ===
/** The puzzle grid: cells, the rectangular matrix, and direction-generic
    access to its rows ("across lanes") and columns ("down lanes"). */
module Grid {
  import opened Basics

  /** A cell's letter: the empty string, or one character (a digraph such
      as LJ is stored as its single composed character). */
  datatype Letter = Blank | Ch(c: char)

  datatype Cell = Cell(
    isBlack: bool,
    letter: Letter,
    hasAcrossClue: bool,
    hasDownClue: bool,
    clueNo: Option<nat>,
    horizontalClue: string,
    verticalClue: string,
    isAutofillZone: bool)

  type Grid = seq<seq<Cell>>

  datatype Direction = Across | Down

  datatype Pos = Pos(row: int, col: int)

  function Flip(d: Direction): Direction {
    if d == Across then Down else Across
  }

  /** `grid.length` */
  function Height(g: Grid): nat { |g| }

  /** `grid[0]?.length || 0` */
  function Width(g: Grid): nat { if |g| == 0 then 0 else |g[0]| }

  /** Every row has the width of the first one. */
  predicate Rectangular(g: Grid) {
    forall r :: 0 <= r < |g| ==> |g[r]| == Width(g)
  }

  predicate InBounds(g: Grid, p: Pos) {
    0 <= p.row < Height(g) && 0 <= p.col < Width(g)
  }

  function At(g: Grid, p: Pos): Cell
    requires Rectangular(g) && InBounds(g, p)
  {
    g[p.row][p.col]
  }

  /** The grid with the cell at `p` replaced. */
  function Put(g: Grid, p: Pos, cell: Cell): (g': Grid)
    requires Rectangular(g) && InBounds(g, p)
    ensures Rectangular(g') && Height(g') == Height(g) && Width(g') == Width(g)
    ensures forall q :: InBounds(g, q) ==> At(g', q) == if q == p then cell else At(g, q)
  {
    g[p.row := g[p.row][p.col := cell]]
  }

  /** Two grids of the same shape agree on every cell. */
  lemma {:induction false} SameCellsSameGrid(g: Grid, h: Grid)
    requires Rectangular(g) && Rectangular(h)
    requires Height(g) == Height(h) && Width(g) == Width(h)
    requires forall p :: InBounds(g, p) ==> At(g, p) == At(h, p)
    ensures g == h
  {
    forall r | 0 <= r < |g|
      ensures g[r] == h[r]
    {
      forall c | 0 <= c < |g[r]|
        ensures g[r][c] == h[r][c]
      {
        assert At(g, Pos(r, c)) == At(h, Pos(r, c));
      }
    }
  }

  // ---------------------------------------------------------------------
  // Lanes: an across lane is a row, a down lane is a column. A position is
  // addressed by (direction, lane, offset along the lane).

  /** Number of lanes in direction `d` (rows for across, columns for down). */
  function Lanes(g: Grid, d: Direction): nat {
    if d == Across then Height(g) else Width(g)
  }

  /** Length of every lane in direction `d`. */
  function LaneLen(g: Grid, d: Direction): nat {
    if d == Across then Width(g) else Height(g)
  }

  function PosOf(d: Direction, lane: int, k: int): Pos {
    if d == Across then Pos(lane, k) else Pos(k, lane)
  }

  function LaneOf(d: Direction, p: Pos): int {
    if d == Across then p.row else p.col
  }

  function OffsetOf(d: Direction, p: Pos): int {
    if d == Across then p.col else p.row
  }

  lemma {:induction false} PosOfLaneOffset(d: Direction, p: Pos)
    ensures PosOf(d, LaneOf(d, p), OffsetOf(d, p)) == p
  {
  }

  /** The black pattern of one lane, read from the grid. */
  function Blacks(g: Grid, d: Direction, lane: nat): (b: seq<bool>)
    requires Rectangular(g) && lane < Lanes(g, d)
    ensures |b| == LaneLen(g, d)
    ensures forall k :: 0 <= k < |b| ==> b[k] == At(g, PosOf(d, lane, k)).isBlack
  {
    seq(LaneLen(g, d), k requires 0 <= k < LaneLen(g, d) => At(g, PosOf(d, lane, k)).isBlack)
  }

  // ---------------------------------------------------------------------
  // Runs of white cells along a 1-D black pattern (true = black).

  /** The forward walk `while (k < n && !black[k]) k++`: the first black
      index at or after `k`, or the lane length. */
  function RunEnd(b: seq<bool>, k: nat): (e: nat)
    requires k <= |b|
    ensures k <= e <= |b|
    ensures forall i :: k <= i < e ==> !b[i]
    ensures e == |b| || b[e]
    decreases |b| - k
  {
    if k == |b| || b[k] then k else RunEnd(b, k + 1)
  }

  /** The backward walk `while (k >= 0 && !black[k]) k--`, plus one: the
      first index of the white run that ends at `k`; `k + 1` when `k` is
      black. */
  function RunStart(b: seq<bool>, k: int): (s: nat)
    requires -1 <= k < |b|
    ensures s <= k + 1
    ensures forall i :: s <= i <= k ==> !b[i]
    ensures s == 0 || b[s - 1]
    decreases k + 1
  {
    if k < 0 || b[k] then k + 1 else RunStart(b, k - 1)
  }

  /** `i` is the first cell of a maximal white run. */
  predicate IsRunStart(b: seq<bool>, i: int) {
    0 <= i < |b| && !b[i] && (i == 0 || b[i - 1])
  }

  /** `[s, e)` is a maximal run of white cells: white inside, bounded by a
      black cell or the edge at both ends. */
  predicate IsMaximalRun(b: seq<bool>, s: int, e: int) {
    && 0 <= s <= e <= |b|
    && (forall i :: s <= i < e ==> !b[i])
    && (s == 0 || b[s - 1])
    && (e == |b| || b[e])
  }

  /** A maximal run is determined by any white cell in it. */
  lemma {:induction false} MaximalRunUnique(b: seq<bool>, s: int, e: int, s': int, e': int, k: int)
    requires IsMaximalRun(b, s, e) && IsMaximalRun(b, s', e')
    requires s <= k < e && s' <= k < e'
    ensures s == s' && e == e'
  {
  }

  /** The walks of the source find exactly the maximal run around a white cell. */
  lemma {:induction false} RunAroundIsMaximal(b: seq<bool>, k: int)
    requires 0 <= k < |b| && !b[k]
    ensures IsMaximalRun(b, RunStart(b, k), RunEnd(b, RunStart(b, k)))
    ensures RunStart(b, k) <= k < RunEnd(b, RunStart(b, k))
  {
  }

  /** A run start together with its forward walk is a maximal run. */
  lemma {:induction false} RunFromStartIsMaximal(b: seq<bool>, i: int)
    requires IsRunStart(b, i)
    ensures IsMaximalRun(b, i, RunEnd(b, i)) && i < RunEnd(b, i)
  {
  }
}

=== FILE: gridfuns.dfy ===
/** Derived views of the grid: the highlighted word around the cursor, clue
    auto-marking, clue numbering and reading a word out of the grid. Every
    one of them is a pure function of the grid. */
module GridFuns {
  import opened Basics
  import opened Grid

  // ---------------------------------------------------------------------
  // getWordCoordinates

  /** The positions with offsets `[s, e)` of one lane. */
  function Cells(d: Direction, lane: int, s: int, e: int): (cs: set<Pos>)
    ensures forall q :: q in cs <==> LaneOf(d, q) == lane && s <= OffsetOf(d, q) < e
  {
    var cs := set k | s <= k < e :: PosOf(d, lane, k);
    assert forall q :: LaneOf(d, q) == lane && s <= OffsetOf(d, q) < e ==> q == PosOf(d, lane, OffsetOf(d, q));
    cs
  }

  /** The word to highlight for the cursor at (row, col) in direction `d`:
      walk backwards to the start of the white run, then collect cells
      forwards until a black cell or the edge. On a black start cell the
      backward walk does not move, so the result is the run beginning just
      after it. */
  function WordCoordinates(g: Grid, row: int, col: int, d: Direction): (r: set<Pos>)
    requires Rectangular(g) && InBounds(g, Pos(row, col))
    ensures forall q :: q in r ==> InBounds(g, q) && !At(g, q).isBlack
    ensures forall q :: q in r ==> LaneOf(d, q) == LaneOf(d, Pos(row, col))
    ensures Pos(row, col) in r <==> !At(g, Pos(row, col)).isBlack
    ensures exists s, e ::
      && IsMaximalRun(Blacks(g, d, LaneOf(d, Pos(row, col))), s, e)
      && r == Cells(d, LaneOf(d, Pos(row, col)), s, e)
      && (if At(g, Pos(row, col)).isBlack then s == OffsetOf(d, Pos(row, col)) + 1
          else s <= OffsetOf(d, Pos(row, col)) < e)
  {
    var lane := LaneOf(d, Pos(row, col));
    var k := OffsetOf(d, Pos(row, col));
    var b := Blacks(g, d, lane);
    var s := RunStart(b, k);
    var e := RunEnd(b, s);
    assert !b[k] ==> s <= k < e by {
      if !b[k] {
        RunAroundIsMaximal(b, k);
      }
    }
    HighlightedRun(g, d, Pos(row, col), s, e);
    Cells(d, lane, s, e)
  }

  /** The cells of a maximal run through (or just after) `p`. */
  lemma {:induction false} HighlightedRun(g: Grid, d: Direction, p: Pos, s: int, e: int)
    requires Rectangular(g) && InBounds(g, p)
    requires var b := Blacks(g, d, LaneOf(d, p)); var k := OffsetOf(d, p);
      && IsMaximalRun(b, s, e)
      && (if b[k] then s == k + 1 else s <= k < e)
    ensures var r := Cells(d, LaneOf(d, p), s, e);
      && (forall q :: q in r ==> InBounds(g, q) && !At(g, q).isBlack)
      && (forall q :: q in r ==> LaneOf(d, q) == LaneOf(d, p))
      && (p in r <==> !At(g, p).isBlack)
  {
    var b := Blacks(g, d, LaneOf(d, p));
    var r := Cells(d, LaneOf(d, p), s, e);
    forall q | q in r
      ensures InBounds(g, q) && !At(g, q).isBlack
    {
      assert q == PosOf(d, LaneOf(d, p), OffsetOf(d, q)) && !b[OffsetOf(d, q)];
    }
    assert b[OffsetOf(d, p)] == At(g, p).isBlack;
  }

  // ---------------------------------------------------------------------
  // autoMarkClues

  /** The cell at `p` starts a maximal white run in direction `d` that is at
      least `minLength` long. */
  predicate StartsEntry(g: Grid, d: Direction, p: Pos, minLength: int)
    requires Rectangular(g) && InBounds(g, p)
  {
    var b := Blacks(g, d, LaneOf(d, p));
    var k := OffsetOf(d, p);
    IsRunStart(b, k) && RunEnd(b, k) - k >= minLength
  }

  /** The inner scan of autoMarkClues over one lane, from index `c`: skip a
      black cell, otherwise walk the whole run and mark its first cell when
      the run is long enough. */
  function MarkedStarts(b: seq<bool>, minLength: int, c: nat): (m: set<nat>)
    requires c <= |b|
    requires c == 0 || c == |b| || b[c - 1] || b[c]
    ensures forall i: nat :: i in m <==> c <= i && IsRunStart(b, i) && RunEnd(b, i) - i >= minLength
    decreases |b| - c
  {
    if c == |b| then {}
    else if b[c] then MarkedStarts(b, minLength, c + 1)
    else
      var e := RunEnd(b, c);
      assert forall i :: c < i < e ==> !IsRunStart(b, i);
      (if e - c >= minLength then {c} else {}) + MarkedStarts(b, minLength, e)
  }

  /** autoMarkClues: clear both flags everywhere, then set them on the first
      cell of every maximal white run of at least `minLength` cells. Nothing
      but the two flags changes. */
  function AutoMarkClues(g: Grid, minLength: int): (g': Grid)
    requires Rectangular(g)
    ensures Rectangular(g') && Height(g') == Height(g) && Width(g') == Width(g)
    ensures forall p :: InBounds(g, p) ==>
      At(g', p) == At(g, p).(hasAcrossClue := StartsEntry(g, Across, p, minLength),
                             hasDownClue := StartsEntry(g, Down, p, minLength))
    ensures forall p :: InBounds(g, p) && At(g, p).isBlack ==>
      !At(g', p).hasAcrossClue && !At(g', p).hasDownClue
  {
    seq(|g|, r requires 0 <= r < |g| =>
      var across := MarkedStarts(Blacks(g, Across, r), minLength, 0);
      seq(|g[r]|, c requires 0 <= c < |g[r]| =>
        g[r][c].(hasAcrossClue := c in across,
                 hasDownClue := r in MarkedStarts(Blacks(g, Down, c), minLength, 0))))
  }

  /** Entries depend on the black layout only. */
  lemma {:induction false} SameBlacksSameEntries(g: Grid, h: Grid, minLength: int)
    requires Rectangular(g) && Rectangular(h) && Height(h) == Height(g) && Width(h) == Width(g)
    requires forall p :: InBounds(g, p) ==> At(h, p).isBlack == At(g, p).isBlack
    ensures forall d, p :: InBounds(g, p) ==> StartsEntry(h, d, p, minLength) == StartsEntry(g, d, p, minLength)
  {
    forall d, p | InBounds(g, p)
      ensures StartsEntry(h, d, p, minLength) == StartsEntry(g, d, p, minLength)
    {
      assert Blacks(h, d, LaneOf(d, p)) == Blacks(g, d, LaneOf(d, p));
    }
  }

  /** Auto-marking depends on the black layout only, which it does not
      change: marking twice is marking once. */
  lemma {:induction false} AutoMarkIdempotent(g: Grid, minLength: int)
    requires Rectangular(g)
    ensures AutoMarkClues(AutoMarkClues(g, minLength), minLength) == AutoMarkClues(g, minLength)
  {
    var g1 := AutoMarkClues(g, minLength);
    var g2 := AutoMarkClues(g1, minLength);
    SameBlacksSameEntries(g, g1, minLength);
    forall p | InBounds(g1, p)
      ensures At(g2, p) == At(g1, p)
    {
    }
    SameCellsSameGrid(g2, g1);
  }

  // ---------------------------------------------------------------------
  // numberGridAndGetClues

  datatype Clue = Clue(number: nat, row: nat, col: nat)

  /** A cell that receives a clue number. */
  predicate Numbered(cell: Cell) {
    !cell.isBlack && (cell.hasAcrossClue || cell.hasDownClue)
  }

  predicate HasFlag(cell: Cell, d: Direction) {
    if d == Across then cell.hasAcrossClue else cell.hasDownClue
  }

  /** Numbered cells among `row[..c]`. */
  function CountRow(row: seq<Cell>, c: nat): nat
    requires c <= |row|
  {
    if c == 0 then 0 else CountRow(row, c - 1) + (if Numbered(row[c - 1]) then 1 else 0)
  }

  /** Numbered cells in the rows before `r`. */
  function CountRows(g: Grid, r: nat): nat
    requires r <= |g|
  {
    if r == 0 then 0 else CountRows(g, r - 1) + CountRow(g[r - 1], |g[r - 1]|)
  }

  /** Numbered cells strictly before (r, c) in reading (row-major) order. */
  function Rank(g: Grid, r: nat, c: nat): nat
    requires r < |g| && c <= |g[r]|
  {
    CountRows(g, r) + CountRow(g[r], c)
  }

  /** (r, c) comes strictly before (r', c') in reading order. */
  predicate Before(r: int, c: int, r': int, c': int) {
    r < r' || (r == r' && c < c')
  }

  /** The cell (r, c) as numbering leaves it. */
  function NumberedCell(g: Grid, r: nat, c: nat): Cell
    requires r < |g| && c < |g[r]|
  {
    g[r][c].(clueNo := if Numbered(g[r][c]) then Some(Rank(g, r, c) + 1) else None)
  }

  predicate Increasing(cs: seq<Clue>) {
    forall i, j :: 0 <= i < j < |cs| ==> cs[i].number < cs[j].number
  }

  /** Entry `e` names a numbered cell carrying flag `d`, with its rank-based number. */
  predicate ValidClue(g: Grid, e: Clue, d: Direction) {
    && e.row < |g| && e.col < |g[e.row]|
    && Numbered(g[e.row][e.col]) && HasFlag(g[e.row][e.col], d)
    && e.number == Rank(g, e.row, e.col) + 1
  }

  lemma {:induction false} CountRowMonotone(row: seq<Cell>, c: nat, c': nat)
    requires c <= c' <= |row|
    ensures CountRow(row, c) <= CountRow(row, c')
    decreases c' - c
  {
    if c < c' {
      CountRowMonotone(row, c, c' - 1);
    }
  }

  lemma {:induction false} CountRowsMonotone(g: Grid, r: nat, r': nat)
    requires r <= r' <= |g|
    ensures CountRows(g, r) <= CountRows(g, r')
    decreases r' - r
  {
    if r < r' {
      CountRowsMonotone(g, r, r' - 1);
    }
  }

  /** Numbers grow strictly along reading order: a numbered cell gets a
      smaller number than any cell after it. */
  lemma {:induction false} RankStrictlyIncreasing(g: Grid, r: nat, c: nat, r': nat, c': nat)
    requires r < |g| && c < |g[r]| && r' < |g| && c' < |g[r']|
    requires Numbered(g[r][c]) && Before(r, c, r', c')
    ensures Rank(g, r, c) < Rank(g, r', c')
  {
    if r == r' {
      CountRowMonotone(g[r], c + 1, c');
    } else {
      CountRowMonotone(g[r], c + 1, |g[r]|);
      assert CountRows(g, r + 1) == CountRows(g, r) + CountRow(g[r], |g[r]|);
      CountRowsMonotone(g, r + 1, r');
    }
  }

  /** `cs` is increasing, holds valid entries only, all numbered below `number`. */
  predicate ListSoFar(g: Grid, cs: seq<Clue>, d: Direction, number: nat) {
    && Increasing(cs)
    && forall i :: 0 <= i < |cs| ==> ValidClue(g, cs[i], d) && cs[i].number < number
  }

  /** Every flagged numbered cell before (r, c) in reading order is listed in `cs`. */
  predicate ListedBefore(g: Grid, cs: seq<Clue>, d: Direction, r: int, c: int) {
    forall i, j :: 0 <= i < |g| && 0 <= j < |g[i]| && Before(i, j, r, c) && Numbered(g[i][j]) && HasFlag(g[i][j], d) ==>
      Clue(Rank(g, i, j) + 1, i, j) in cs
  }

  /** Numbering cell (r, c) gives it the next number when it is numbered. */
  lemma {:induction false} RankNext(g: Grid, r: nat, c: nat)
    requires r < |g| && c < |g[r]|
    ensures Rank(g, r, c + 1) == Rank(g, r, c) + if Numbered(g[r][c]) then 1 else 0
  {
  }

  /** Listing a numbered cell flagged for `d` under the next number keeps
      the list sorted, valid and complete up to the following cell. */
  lemma {:induction false} ClueListed(g: Grid, cs: seq<Clue>, d: Direction, r: nat, c: nat, number: nat)
    requires r < |g| && c < |g[r]| && number == Rank(g, r, c) + 1
    requires Numbered(g[r][c]) && HasFlag(g[r][c], d)
    requires ListSoFar(g, cs, d, number) && ListedBefore(g, cs, d, r, c)
    ensures ListSoFar(g, cs + [Clue(number, r, c)], d, number + 1)
    ensures ListedBefore(g, cs + [Clue(number, r, c)], d, r, c + 1)
    ensures number + 1 == Rank(g, r, c + 1) + 1
  {
    RankNext(g, r, c);
  }

  /** Passing a cell that is not listed for `d` keeps the list complete up
      to the following cell. */
  lemma {:induction false} ClueSkipped(g: Grid, cs: seq<Clue>, d: Direction, r: nat, c: nat, number: nat, number': nat)
    requires r < |g| && c < |g[r]| && number == Rank(g, r, c) + 1
    requires !(Numbered(g[r][c]) && HasFlag(g[r][c], d))
    requires number' == if Numbered(g[r][c]) then number + 1 else number
    requires ListSoFar(g, cs, d, number) && ListedBefore(g, cs, d, r, c)
    ensures ListSoFar(g, cs, d, number') && ListedBefore(g, cs, d, r, c + 1)
    ensures number' == Rank(g, r, c + 1) + 1
  {
    RankNext(g, r, c);
  }

  /** One row of the numbering scan (the inner loop of numberGridAndGetClues). */
  method NumberRow(g: Grid, r: nat, number0: nat, across0: seq<Clue>, down0: seq<Clue>)
    returns (row: seq<Cell>, number: nat, across: seq<Clue>, down: seq<Clue>)
    requires r < |g|
    requires number0 == CountRows(g, r) + 1
    requires ListSoFar(g, across0, Across, number0) && ListSoFar(g, down0, Down, number0)
    requires ListedBefore(g, across0, Across, r, 0) && ListedBefore(g, down0, Down, r, 0)
    ensures |row| == |g[r]| && forall j :: 0 <= j < |g[r]| ==> row[j] == NumberedCell(g, r, j)
    ensures number == CountRows(g, r + 1) + 1
    ensures ListSoFar(g, across, Across, number) && ListSoFar(g, down, Down, number)
    ensures ListedBefore(g, across, Across, r + 1, 0) && ListedBefore(g, down, Down, r + 1, 0)
  {
    row, number, across, down := [], number0, across0, down0;
    var c := 0;
    while c < |g[r]|
      invariant 0 <= c <= |g[r]| && |row| == c
      invariant forall j :: 0 <= j < c ==> row[j] == NumberedCell(g, r, j)
      invariant number == Rank(g, r, c) + 1
      invariant ListSoFar(g, across, Across, number) && ListSoFar(g, down, Down, number)
      invariant ListedBefore(g, across, Across, r, c) && ListedBefore(g, down, Down, r, c)
    {
      var cell := g[r][c];
      if cell.isBlack {
        ClueSkipped(g, across, Across, r, c, number, number);
        ClueSkipped(g, down, Down, r, c, number, number);
        row := row + [cell.(clueNo := None)];
      } else if cell.hasAcrossClue || cell.hasDownClue {
        row := row + [cell.(clueNo := Some(number))];
        if cell.hasAcrossClue {
          ClueListed(g, across, Across, r, c, number);
          across := across + [Clue(number, r, c)];
        } else {
          ClueSkipped(g, across, Across, r, c, number, number + 1);
        }
        if cell.hasDownClue {
          ClueListed(g, down, Down, r, c, number);
          down := down + [Clue(number, r, c)];
        } else {
          ClueSkipped(g, down, Down, r, c, number, number + 1);
        }
        number := number + 1;
      } else {
        ClueSkipped(g, across, Across, r, c, number, number);
        ClueSkipped(g, down, Down, r, c, number, number);
        row := row + [cell.(clueNo := None)];
      }
      c := c + 1;
    }
    assert CountRows(g, r + 1) == CountRows(g, r) + CountRow(g[r], |g[r]|);
  }

  /** numberGridAndGetClues: scan in reading order, give the next number to
      every white cell with either flag (one number per cell even when both
      flags are set), and list the across and down entries. */
  method NumberGridAndGetClues(g: Grid) returns (ng: Grid, across: seq<Clue>, down: seq<Clue>)
    requires Rectangular(g)
    ensures Rectangular(ng) && Height(ng) == Height(g) && Width(ng) == Width(g)
    ensures forall r, c :: 0 <= r < |g| && 0 <= c < |g[r]| ==> ng[r][c] == NumberedCell(g, r, c)
    ensures Increasing(across) && Increasing(down)
    ensures forall i :: 0 <= i < |across| ==> ValidClue(g, across[i], Across)
    ensures forall i :: 0 <= i < |down| ==> ValidClue(g, down[i], Down)
    ensures forall r, c :: 0 <= r < |g| && 0 <= c < |g[r]| && Numbered(g[r][c]) && g[r][c].hasAcrossClue ==>
      Clue(Rank(g, r, c) + 1, r, c) in across
    ensures forall r, c :: 0 <= r < |g| && 0 <= c < |g[r]| && Numbered(g[r][c]) && g[r][c].hasDownClue ==>
      Clue(Rank(g, r, c) + 1, r, c) in down
  {
    var number := 1;
    across, down := [], [];
    ng := [];
    var r := 0;
    while r < |g|
      invariant 0 <= r <= |g| && |ng| == r
      invariant forall i :: 0 <= i < r ==> |ng[i]| == |g[i]|
      invariant forall i, c :: 0 <= i < r && 0 <= c < |g[i]| ==> ng[i][c] == NumberedCell(g, i, c)
      invariant number == CountRows(g, r) + 1
      invariant ListSoFar(g, across, Across, number) && ListSoFar(g, down, Down, number)
      invariant ListedBefore(g, across, Across, r, 0) && ListedBefore(g, down, Down, r, 0)
    {
      var row;
      row, number, across, down := NumberRow(g, r, number, across, down);
      ng := ng + [row];
      r := r + 1;
    }
    assert forall i, j :: 0 <= i < |g| && 0 <= j < |g[i]| ==> Before(i, j, |g|, 0);
  }

  // ---------------------------------------------------------------------
  // getWordFromGrid

  function LetterText(l: Letter): string {
    match l
    case Blank => ""
    case Ch(c) => [c]
  }

  /** The letter at offset `k` of a lane. */
  function LetterAt(g: Grid, d: Direction, lane: nat, k: nat): Letter
    requires Rectangular(g) && lane < Lanes(g, d) && k < LaneLen(g, d)
  {
    At(g, PosOf(d, lane, k)).letter
  }

  /** The letters of a sequence of cells, in order; blanks add nothing. */
  function Spell(ls: seq<Letter>): string {
    if ls == [] then "" else LetterText(ls[0]) + Spell(ls[1..])
  }

  /** The spelling is as long as the cells exactly when none is blank, and
      then it spells them one character per cell. */
  lemma {:induction false} SpellFacts(ls: seq<Letter>)
    ensures |Spell(ls)| <= |ls|
    ensures |Spell(ls)| == |ls| <==> forall i :: 0 <= i < |ls| ==> ls[i] != Blank
    ensures |Spell(ls)| == |ls| ==> forall i :: 0 <= i < |ls| ==> ls[i] == Ch(Spell(ls)[i])
  {
    if ls != [] {
      var rest := Spell(ls[1..]);
      SpellFacts(ls[1..]);
      assert forall i :: 1 <= i < |ls| ==> ls[i] == ls[1..][i - 1];
      if |Spell(ls)| == |ls| {
        assert ls[0] != Blank;
        assert forall i :: 1 <= i < |ls| ==> Spell(ls)[i] == rest[i - 1];
      }
    }
  }

  lemma {:induction false} SpellAppend(a: seq<Letter>, b: seq<Letter>)
    ensures Spell(a + b) == Spell(a) + Spell(b)
  {
    if a == [] {
      assert a + b == b;
      EmptyConcat(Spell(b));
    } else {
      assert (a + b)[1..] == a[1..] + b;
      SpellAppend(a[1..], b);
      ConcatAssoc(LetterText(a[0]), Spell(a[1..]), Spell(b));
    }
  }

  /** Cells that are all blank spell nothing. */
  lemma {:induction false} SpellBlanks(ls: seq<Letter>)
    requires forall i :: 0 <= i < |ls| ==> ls[i] == Blank
    ensures Spell(ls) == ""
  {
    if ls != [] {
      SpellBlanks(ls[1..]);
    }
  }

  /** The cells of offsets `[k, e)` of a lane. */
  function Stretch(g: Grid, d: Direction, lane: nat, k: nat, e: nat): (ls: seq<Letter>)
    requires Rectangular(g) && lane < Lanes(g, d) && k <= e <= LaneLen(g, d)
    ensures |ls| == e - k && forall i :: 0 <= i < e - k ==> ls[i] == LetterAt(g, d, lane, k + i)
  {
    seq(e - k, i requires 0 <= i < e - k => LetterAt(g, d, lane, k + i))
  }

  /** Concatenated letters of offsets `[k, e)` of a lane; blanks add nothing. */
  function ReadLetters(g: Grid, d: Direction, lane: nat, k: nat, e: nat): (w: string)
    requires Rectangular(g) && lane < Lanes(g, d) && k <= e <= LaneLen(g, d)
    ensures |w| <= e - k
    ensures |w| == e - k <==> forall i :: k <= i < e ==> LetterAt(g, d, lane, i) != Blank
    ensures |w| == e - k ==> forall i :: 0 <= i < |w| ==> LetterAt(g, d, lane, k + i) == Ch(w[i])
  {
    var ls := Stretch(g, d, lane, k, e);
    SpellFacts(ls);
    assert (forall i :: k <= i < e ==> LetterAt(g, d, lane, i) != Blank)
       <==> (forall i :: 0 <= i < |ls| ==> ls[i] != Blank) by {
      assert forall i :: k <= i < e ==> LetterAt(g, d, lane, i) == ls[i - k];
    }
    Spell(ls)
  }

  /** Reading a stretch is reading its two halves one after the other. */
  lemma {:induction false} ReadLettersSplit(g: Grid, d: Direction, lane: nat, k: nat, m: nat, e: nat)
    requires Rectangular(g) && lane < Lanes(g, d) && k <= m <= e <= LaneLen(g, d)
    ensures ReadLetters(g, d, lane, k, e) == ReadLetters(g, d, lane, k, m) + ReadLetters(g, d, lane, m, e)
  {
    var a := Stretch(g, d, lane, k, m);
    var b := Stretch(g, d, lane, m, e);
    assert Stretch(g, d, lane, k, e) == a + b;
    SpellAppend(a, b);
  }

  /** Each cell of a stretch contributes its own letter, or nothing when
      blank, in its place between the cells before and after it. */
  lemma {:induction false} ReadLettersCell(g: Grid, d: Direction, lane: nat, k: nat, i: nat, e: nat)
    requires Rectangular(g) && lane < Lanes(g, d) && k <= i < e <= LaneLen(g, d)
    ensures ReadLetters(g, d, lane, k, e) ==
      ReadLetters(g, d, lane, k, i) + LetterText(LetterAt(g, d, lane, i)) + ReadLetters(g, d, lane, i + 1, e)
    ensures LetterAt(g, d, lane, i) == Blank ==>
      ReadLetters(g, d, lane, k, e) == ReadLetters(g, d, lane, k, i) + ReadLetters(g, d, lane, i + 1, e)
  {
    ReadLettersSplit(g, d, lane, k, i, e);
    ReadLettersSplit(g, d, lane, i, i + 1, e);
    ReadLettersOne(g, d, lane, i);
    ConcatAssoc(ReadLetters(g, d, lane, k, i), LetterText(LetterAt(g, d, lane, i)), ReadLetters(g, d, lane, i + 1, e));
    if LetterAt(g, d, lane, i) == Blank {
      ConcatNil(ReadLetters(g, d, lane, k, i), ReadLetters(g, d, lane, i + 1, e));
    }
  }

  /** A stretch of one cell reads as that cell's letter. */
  lemma {:induction false} ReadLettersOne(g: Grid, d: Direction, lane: nat, i: nat)
    requires Rectangular(g) && lane < Lanes(g, d) && i < LaneLen(g, d)
    ensures ReadLetters(g, d, lane, i, i + 1) == LetterText(LetterAt(g, d, lane, i))
  {
  }

  /** Reading a stretch of empty cells gives the empty word. */
  lemma {:induction false} ReadBlankStretch(g: Grid, d: Direction, lane: nat, k: nat, e: nat)
    requires Rectangular(g) && lane < Lanes(g, d) && k <= e <= LaneLen(g, d)
    requires forall i :: k <= i < e ==> LetterAt(g, d, lane, i) == Blank
    ensures ReadLetters(g, d, lane, k, e) == ""
  {
    SpellBlanks(Stretch(g, d, lane, k, e));
  }

  lemma EmptyConcat<T>(b: seq<T>)
    ensures [] + b == b
  {
  }

  lemma ConcatNil<T>(a: seq<T>, b: seq<T>)
    ensures a + [] + b == a + b
  {
  }

  lemma ConcatAssoc<T>(a: seq<T>, b: seq<T>, c: seq<T>)
    ensures a + (b + c) == (a + b) + c
  {
  }

  /** getWordFromGrid: the letters from (row, col) forwards up to the first
      black cell or the edge. Blank cells contribute nothing, so the word is
      never longer than that stretch, and exactly as long when every cell in
      it holds a letter. */
  function WordFromGrid(g: Grid, row: int, col: int, d: Direction): (w: string)
    requires Rectangular(g)
    requires 0 <= LaneOf(d, Pos(row, col)) < Lanes(g, d) && 0 <= OffsetOf(d, Pos(row, col))
    ensures var lane := LaneOf(d, Pos(row, col)); var k := OffsetOf(d, Pos(row, col));
      k >= LaneLen(g, d) ==> w == ""
    ensures var lane := LaneOf(d, Pos(row, col)); var k := OffsetOf(d, Pos(row, col));
      k < LaneLen(g, d) ==>
        var e := RunEnd(Blacks(g, d, lane), k);
        && |w| <= e - k
        && (|w| == e - k <==> forall i :: k <= i < e ==> LetterAt(g, d, lane, i) != Blank)
        && (|w| == e - k ==> forall i :: 0 <= i < |w| ==> LetterAt(g, d, lane, k + i) == Ch(w[i]))
  {
    var lane := LaneOf(d, Pos(row, col));
    var k := OffsetOf(d, Pos(row, col));
    if k >= LaneLen(g, d) then ""
    else ReadLetters(g, d, lane, k, RunEnd(Blacks(g, d, lane), k))
  }
}

=== FILE: keys.dfy ===
/** The keystroke state machine shared by the creator and the player: cursor
    moves, direction toggle, letter entry (with digraph composition in the
    creator) and clearing. */
module Keys {
  import opened Basics
  import opened Grid

  datatype Mode = Edit | Paint | Zone

  /** Which editor handles the key: the creator has a mode gate and digraphs,
      the player has neither. */
  datatype App = Creator | Player

  /** `e.key`: named keys, any single-character key (`Typed(' ')` is the
      space bar), and every other named key. */
  datatype Key =
    | Shift | ArrowUp | ArrowDown | ArrowLeft | ArrowRight
    | Spacebar | Backspace | Delete
    | Typed(c: char)
    | OtherKey

  /** Which symmetry toggles are on. */
  datatype Symmetry = Symmetry(rotational: bool, mirror: bool, diagonal: bool)

  /** The editor state the handlers read and write. `held` is the mouse
      button held down over the grid, if any. */
  datatype Session = Session(
    grid: Grid,
    cursor: Pos,
    dir: Direction,
    mode: Mode,
    sym: Symmetry,
    held: Option<int>)

  /** A rectangular grid with the cursor on one of its cells. */
  predicate Valid(s: Session) {
    Rectangular(s.grid) && InBounds(s.grid, s.cursor)
  }

  // ---------------------------------------------------------------------
  // Letters

  predicate IsAsciiLetter(c: char) {
    ('a' <= c <= 'z') || ('A' <= c <= 'Z')
  }

  /** The Croatian letters the creator also accepts: č ć ž š đ and their capitals. */
  predicate IsCroatianLetter(c: char) {
    c in {'\U{010D}', '\U{0107}', '\U{017E}', '\U{0161}', '\U{0111}',
          '\U{010C}', '\U{0106}', '\U{017D}', '\U{0160}', '\U{0110}'}
  }

  /** The single-letter key pattern of each editor. */
  predicate IsLetterKey(app: App, c: char) {
    IsAsciiLetter(c) || (app == Creator && IsCroatianLetter(c))
  }

  /** `toUpperCase` on the letters the editors accept; every other
      character is left as it is. */
  function Upper(c: char): (u: char)
    ensures IsAsciiLetter(c) ==> 'A' <= u <= 'Z' && (u == c || u as int + 32 == c as int)
    ensures IsCroatianLetter(c) ==> IsCroatianLetter(u) && (u == c || u as int + 1 == c as int)
    ensures 'A' <= c <= 'Z' ==> u == c
    ensures !IsAsciiLetter(c) && !IsCroatianLetter(c) ==> u == c
  {
    if 'a' <= c <= 'z' then (c as int - 32) as char
    else if c == '\U{010D}' then '\U{010C}'
    else if c == '\U{0107}' then '\U{0106}'
    else if c == '\U{017E}' then '\U{017D}'
    else if c == '\U{0161}' then '\U{0160}'
    else if c == '\U{0111}' then '\U{0110}'
    else c
  }

  /** Upper-casing twice is upper-casing once: capitals stay as they are. */
  lemma {:induction false} UpperIdempotent(c: char)
    ensures Upper(Upper(c)) == Upper(c)
    ensures IsCroatianLetter(c) ==> Upper(c) in {'\U{010C}', '\U{0106}', '\U{017D}', '\U{0160}', '\U{0110}'}
  {
  }

  const LJ: char := '\U{01C7}'
  const NJ: char := '\U{01CA}'
  const DZ: char := '\U{01C4}'

  /** digraphMap: LJ, NJ and DŽ (with Ž a single character) compose, each
      into its own letter, and no other pair composes. */
  function Digraph(a: char, b: char): (r: Option<char>)
    ensures r == Some(LJ) <==> a == 'L' && b == 'J'
    ensures r == Some(NJ) <==> a == 'N' && b == 'J'
    ensures r == Some(DZ) <==> a == 'D' && b == '\U{017D}'
    ensures r.None? || r.value in {LJ, NJ, DZ}
  {
    if a == 'L' && b == 'J' then Some(LJ)
    else if a == 'N' && b == 'J' then Some(NJ)
    else if a == 'D' && b == '\U{017D}' then Some(DZ)
    else None
  }

  /** The cell's letter upper-cased followed by the key upper-cased, looked
      up in the digraph table. An empty cell gives a one-character key,
      which never composes. */
  function Compose(cur: Letter, key: char): Option<char> {
    match cur
    case Blank => None
    case Ch(x) => Digraph(Upper(x), Upper(key))
  }

  /** What a letter key writes into the cell under the cursor. */
  function Entered(app: App, cur: Letter, key: char): char {
    if app == Creator && Compose(cur, key).Some? then Compose(cur, key).value
    else Upper(key)
  }

  // ---------------------------------------------------------------------
  // Cursor steps

  /** One cell forwards in direction `d`, unless already at the last column
      (across) or last row (down). */
  function Forward(g: Grid, p: Pos, d: Direction): Pos {
    if d == Across && p.col < Width(g) - 1 then Pos(p.row, p.col + 1)
    else if d == Down && p.row < Height(g) - 1 then Pos(p.row + 1, p.col)
    else p
  }

  /** One cell backwards in direction `d`, unless already at the first. */
  function Backward(p: Pos, d: Direction): Pos {
    if d == Across && p.col > 0 then Pos(p.row, p.col - 1)
    else if d == Down && p.row > 0 then Pos(p.row - 1, p.col)
    else p
  }

  /** The steps stay on the cursor's lane and move its offset by one,
      clamped to the lane. */
  lemma {:induction false} StepsAlongLane(g: Grid, p: Pos, d: Direction)
    requires Rectangular(g) && InBounds(g, p)
    ensures LaneOf(d, Forward(g, p, d)) == LaneOf(d, p)
    ensures OffsetOf(d, Forward(g, p, d)) == Min(OffsetOf(d, p) + 1, LaneLen(g, d) - 1)
    ensures LaneOf(d, Backward(p, d)) == LaneOf(d, p)
    ensures OffsetOf(d, Backward(p, d)) == Max(OffsetOf(d, p) - 1, 0)
  {
  }

  /** The grid with the letter of the cell at `p` replaced. */
  function SetLetter(g: Grid, p: Pos, l: Letter): (g': Grid)
    requires Rectangular(g) && InBounds(g, p)
    ensures Rectangular(g') && Height(g') == Height(g) && Width(g') == Width(g)
    ensures forall q :: InBounds(g, q) ==> At(g', q) == if q == p then At(g, p).(letter := l) else At(g, q)
  {
    Put(g, p, At(g, p).(letter := l))
  }

  // ---------------------------------------------------------------------
  // The keydown handler

  /** handleKeyDown of either editor. The creator ignores every key outside
      edit mode. Shift flips the direction, arrows move one cell clamped to
      the grid, space advances, Backspace clears and steps back, Delete
      clears in place, and a letter is written upper-cased (or composed into
      a digraph in the creator) before the cursor advances. The letter is
      written whether or not the cell is black. */
  function KeyDown(app: App, s: Session, key: Key): (s': Session)
    requires Valid(s)
    ensures Valid(s') && Height(s'.grid) == Height(s.grid) && Width(s'.grid) == Width(s.grid)
    ensures s'.mode == s.mode && s'.sym == s.sym && s'.held == s.held
    ensures key != Shift ==> s'.dir == s.dir
    ensures app == Creator && s.mode != Edit ==> s' == s
  {
    var g := s.grid;
    var p := s.cursor;
    if app == Creator && s.mode != Edit then s
    else
      match key
      case Shift => s.(dir := Flip(s.dir))
      case ArrowUp => s.(cursor := Pos(Max(0, p.row - 1), p.col))
      case ArrowDown => s.(cursor := Pos(Min(Height(g) - 1, p.row + 1), p.col))
      case ArrowLeft => s.(cursor := Pos(p.row, Max(0, p.col - 1)))
      case ArrowRight => s.(cursor := Pos(p.row, Min(Width(g) - 1, p.col + 1)))
      case Spacebar => s.(cursor := Forward(g, p, s.dir))
      case Backspace => s.(grid := SetLetter(g, p, Blank), cursor := Backward(p, s.dir))
      case Delete => s.(grid := SetLetter(g, p, Blank))
      case Typed(c) =>
        if c == ' ' then s.(cursor := Forward(g, p, s.dir))
        else if IsLetterKey(app, c) then
          s.(grid := SetLetter(g, p, Ch(Entered(app, At(g, p).letter, c))), cursor := Forward(g, p, s.dir))
        else s
      case OtherKey => s
  }

  /** A key changes at most the letter under the cursor, and moves the
      cursor by at most one cell along a row or a column. */
  lemma {:induction false} KeyDownLocal(app: App, s: Session, key: Key)
    requires Valid(s)
    ensures var s' := KeyDown(app, s, key);
      forall q :: InBounds(s.grid, q) && q != s.cursor ==> At(s'.grid, q) == At(s.grid, q)
    ensures var s' := KeyDown(app, s, key);
      At(s'.grid, s.cursor) == At(s.grid, s.cursor).(letter := At(s'.grid, s.cursor).letter)
    ensures var s' := KeyDown(app, s, key);
      || (s'.cursor.row == s.cursor.row && -1 <= s'.cursor.col - s.cursor.col <= 1)
      || (s'.cursor.col == s.cursor.col && -1 <= s'.cursor.row - s.cursor.row <= 1)
  {
  }

  /** The key reaches the handler's body (not gated by the creator's mode). */
  predicate Active(app: App, s: Session) {
    app == Player || s.mode == Edit
  }

  /** Arrow keys move one cell, clamped to the grid, and change nothing else. */
  lemma {:induction false} ArrowKeysClamp(app: App, s: Session, key: Key)
    requires Valid(s) && Active(app, s)
    requires key in {ArrowUp, ArrowDown, ArrowLeft, ArrowRight}
    ensures var s' := KeyDown(app, s, key); s'.grid == s.grid && s'.dir == s.dir
    ensures var s' := KeyDown(app, s, key); var p := s.cursor;
      key == ArrowUp ==> s'.cursor == Pos(Clamp(p.row - 1, 0, Height(s.grid) - 1), p.col)
    ensures var s' := KeyDown(app, s, key); var p := s.cursor;
      key == ArrowDown ==> s'.cursor == Pos(Clamp(p.row + 1, 0, Height(s.grid) - 1), p.col)
    ensures var s' := KeyDown(app, s, key); var p := s.cursor;
      key == ArrowLeft ==> s'.cursor == Pos(p.row, Clamp(p.col - 1, 0, Width(s.grid) - 1))
    ensures var s' := KeyDown(app, s, key); var p := s.cursor;
      key == ArrowRight ==> s'.cursor == Pos(p.row, Clamp(p.col + 1, 0, Width(s.grid) - 1))
  {
  }

  /** Shift flips the direction without moving; pressing it twice restores
      the session. */
  lemma {:induction false} ShiftFlips(app: App, s: Session)
    requires Valid(s) && Active(app, s)
    ensures KeyDown(app, s, Shift) == s.(dir := Flip(s.dir))
    ensures KeyDown(app, KeyDown(app, s, Shift), Shift) == s
  {
  }

  /** Space advances along the active direction, never past the lane's end,
      and leaves the grid alone. */
  lemma {:induction false} SpaceAdvances(app: App, s: Session, key: Key)
    requires Valid(s) && Active(app, s)
    requires key == Spacebar || key == Typed(' ')
    ensures var s' := KeyDown(app, s, key);
      && s'.grid == s.grid && s'.dir == s.dir
      && LaneOf(s.dir, s'.cursor) == LaneOf(s.dir, s.cursor)
      && OffsetOf(s.dir, s'.cursor) == Min(OffsetOf(s.dir, s.cursor) + 1, LaneLen(s.grid, s.dir) - 1)
  {
    StepsAlongLane(s.grid, s.cursor, s.dir);
  }

  /** Backspace clears the cell under the cursor, then steps back unless at
      the lane's start; Delete clears without moving. */
  lemma {:induction false} ClearingKeys(app: App, s: Session)
    requires Valid(s) && Active(app, s)
    ensures var s' := KeyDown(app, s, Backspace);
      && At(s'.grid, s.cursor).letter == Blank
      && LaneOf(s.dir, s'.cursor) == LaneOf(s.dir, s.cursor)
      && OffsetOf(s.dir, s'.cursor) == Max(OffsetOf(s.dir, s.cursor) - 1, 0)
    ensures var s' := KeyDown(app, s, Delete);
      && At(s'.grid, s.cursor).letter == Blank && s'.cursor == s.cursor
  {
    StepsAlongLane(s.grid, s.cursor, s.dir);
  }

  /** A letter key writes its upper-case form, or the composed digraph when
      the creator's cell already holds the digraph's first half, and then
      advances exactly once. Any other character key does nothing. */
  lemma {:induction false} LetterEntry(app: App, s: Session, c: char)
    requires Valid(s) && Active(app, s) && c != ' '
    ensures var s' := KeyDown(app, s, Typed(c)); var cur := At(s.grid, s.cursor).letter;
      if IsLetterKey(app, c) then
        && At(s'.grid, s.cursor).letter ==
             (if app == Creator && Compose(cur, c).Some? then Ch(Compose(cur, c).value) else Ch(Upper(c)))
        && LaneOf(s.dir, s'.cursor) == LaneOf(s.dir, s.cursor)
        && OffsetOf(s.dir, s'.cursor) == Min(OffsetOf(s.dir, s.cursor) + 1, LaneLen(s.grid, s.dir) - 1)
      else s' == s
  {
    StepsAlongLane(s.grid, s.cursor, s.dir);
  }

  /** The player writes only ASCII letters, upper-cased, and never composes:
      typing J after L leaves a J. */
  lemma {:induction false} PlayerNeverComposes(s: Session, c: char)
    requires Valid(s) && c != ' '
    ensures var s' := KeyDown(Player, s, Typed(c));
      if IsAsciiLetter(c) then At(s'.grid, s.cursor).letter == Ch(Upper(c)) && 'A' <= Upper(c) <= 'Z'
      else s' == s
  {
  }

  /** The digraph table is consulted only through the cell under the cursor,
      and the cursor advances after every letter inside a lane: typing L
      then J on two empty cells of a row writes L and J side by side. */
  lemma {:induction false} LThenJOnEmptyCells(s: Session)
    requires Valid(s) && s.mode == Edit && s.dir == Across
    requires s.cursor.col < Width(s.grid) - 1
    requires At(s.grid, s.cursor).letter == Blank
    requires At(s.grid, Pos(s.cursor.row, s.cursor.col + 1)).letter == Blank
    ensures var s2 := KeyDown(Creator, KeyDown(Creator, s, Typed('l')), Typed('j'));
      && At(s2.grid, s.cursor).letter == Ch('L')
      && At(s2.grid, Pos(s.cursor.row, s.cursor.col + 1)).letter == Ch('J')
  {
    var s1 := KeyDown(Creator, s, Typed('l'));
    assert s1.cursor == Pos(s.cursor.row, s.cursor.col + 1);
  }

  /** J composes with whatever letter is under the cursor when it is typed.
      At the last cell of a lane the cursor stays on the L just typed, so L
      followed by J composes into the single letter LJ there. */
  lemma {:induction false} LThenJAtLaneEnd(s: Session)
    requires Valid(s) && s.mode == Edit && s.dir == Across
    requires s.cursor.col == Width(s.grid) - 1
    ensures var s2 := KeyDown(Creator, KeyDown(Creator, s, Typed('l')), Typed('j'));
      At(s2.grid, s.cursor).letter == Ch(LJ) && s2.cursor == s.cursor
  {
    var s1 := KeyDown(Creator, s, Typed('l'));
    assert s1.cursor == s.cursor && At(s1.grid, s.cursor).letter == Ch('L');
  }

  /** Inside a lane the cursor moves past the L just typed, so J composes
      with the next cell's own letter: when that cell already holds L, the
      typed L stays and the next cell becomes LJ, and the cursor moves on. */
  lemma {:induction false} LThenJOnNextL(s: Session)
    requires Valid(s) && s.mode == Edit && s.dir == Across
    requires s.cursor.col < Width(s.grid) - 1
    requires At(s.grid, Pos(s.cursor.row, s.cursor.col + 1)).letter == Ch('L')
    ensures var s2 := KeyDown(Creator, KeyDown(Creator, s, Typed('l')), Typed('j'));
      var next := Pos(s.cursor.row, s.cursor.col + 1);
      && At(s2.grid, s.cursor).letter == Ch('L')
      && At(s2.grid, next).letter == Ch(LJ)
      && s2.cursor == Forward(s.grid, next, Across)
  {
    var next := Pos(s.cursor.row, s.cursor.col + 1);
    var s1 := KeyDown(Creator, s, Typed('l'));
    assert s1.cursor == next && At(s1.grid, next).letter == Ch('L');
    assert At(s1.grid, s.cursor).letter == Ch('L');
  }

  /** The composition does not depend on the case of either letter. */
  lemma {:induction false} ComposeIgnoresCase(c: char)
    ensures Compose(Ch('l'), 'j') == Compose(Ch('L'), 'J') == Some(LJ)
    ensures Compose(Ch('n'), 'J') == Compose(Ch('N'), 'j') == Some(NJ)
    ensures Compose(Ch('d'), '\U{017E}') == Compose(Ch('D'), '\U{017D}') == Some(DZ)
    ensures IsAsciiLetter(c) && c != 'j' && c != 'J' ==> Compose(Ch('L'), c) == None
  {
  }
}

=== FILE: pipeline.dfy ===
/** The solver's start-up from the lines the editor sends: one cwline per
    line, the crossing links registered both ways, then the grid's own
    letters applied. Together with the outbound codec this gives the
    crossword the search starts from. */
module Pipeline {
  import opened Grid
  import opened Codec
  import opened Solver

  function ToLink(n: Neighbour): Link {
    Link(n.neighbourIndex, n.ownIdx, n.otherIdx)
  }

  function FromLink(l: Link): Neighbour {
    Neighbour(l.other, l.ownIdx, l.otherIdx)
  }

  // ---------------------------------------------------------------------
  // Well-formed input

  /** What the solver relies on in the lines it receives: each line sits at
      its own index with one character per cell; every crossing record
      leads to another existing line, at offsets on both lines, and is
      mirrored there; and a line records each other line at most once. */
  predicate Consistent(lines: seq<Line>) {
    Indexed(lines) && Mirrored(lines) && OncePerLine(lines)
  }

  predicate Indexed(lines: seq<Line>) {
    forall k :: 0 <= k < |lines| ==> lines[k].index == k && |lines[k].word| == lines[k].length
  }

  predicate Mirrored(lines: seq<Line>) {
    forall k, n :: 0 <= k < |lines| && n in lines[k].neighbours ==>
      && n.neighbourIndex < |lines| && n.neighbourIndex != k
      && n.ownIdx < lines[k].length && n.otherIdx < lines[n.neighbourIndex].length
      && Neighbour(k, n.otherIdx, n.ownIdx) in lines[n.neighbourIndex].neighbours
  }

  predicate OncePerLine(lines: seq<Line>) {
    forall k, a, b :: 0 <= k < |lines| && 0 <= a < b < |lines[k].neighbours| ==>
      lines[k].neighbours[a].neighbourIndex != lines[k].neighbours[b].neighbourIndex
  }

  /** The editor's lines for any grid are consistent. */
  lemma {:induction false} GridLinesConsistent(g: Grid)
    requires Rectangular(g) && |g| > 0
    ensures Consistent(TransformGridForPython(g))
  {
    var lines := TransformGridForPython(g);
    LaidLinesMirrored(g, AllSpans(g), lines);
    forall k | 0 <= k < |lines|
      ensures forall a, b :: 0 <= a < b < |lines[k].neighbours| ==>
        lines[k].neighbours[a].neighbourIndex != lines[k].neighbours[b].neighbourIndex
    {
      CrossOnce(g, k);
    }
  }

  /** Lines laid on their runs with mirrored crossings are indexed and
      mirrored as the solver needs: a perpendicular line is never the line
      itself. */
  lemma {:induction false} LaidLinesMirrored(g: Grid, ss: seq<Span>, lines: seq<Line>)
    requires Rectangular(g) && LinesOnRuns(g, ss, lines) && CrossingsMirrored(lines)
    ensures Indexed(lines) && Mirrored(lines)
  {
  }

  // ---------------------------------------------------------------------
  // Building the cwlines

  /** The cwline loop: one new line per input line. A line of 60 or more
      cells has no bucket in the word bank. */
  function Fresh(bank: seq<set<string>>, lines: seq<Line>): (cw: seq<CwLine>)
    requires |bank| == Buckets && forall k :: 0 <= k < |lines| ==> lines[k].length < Buckets
    ensures |cw| == |lines|
    ensures forall k :: 0 <= k < |lines| ==>
      && StacksOK(cw[k]) && cw[k].length == lines[k].length && cw[k].neighbours == {}
      && |cw[k].wordSet| == 1 && Top(cw[k]) == bank[lines[k].length] && !Last(cw[k].lockedIn)
  {
    seq(|lines|, k requires 0 <= k < |lines| => NewLine(bank, lines[k].length))
  }

  /** The crossing records of one line, (its index, link), in its order. */
  function LineRecords(line: Line): (recs: seq<(nat, Link)>)
    ensures forall r :: r in recs <==> r.0 == line.index && FromLink(r.1) in line.neighbours
  {
    var ns := line.neighbours;
    var recs := seq(|ns|, i requires 0 <= i < |ns| => (line.index, ToLink(ns[i])));
    forall r: (nat, Link) | r.0 == line.index && FromLink(r.1) in ns
      ensures r in recs
    {
      var i :| 0 <= i < |ns| && ns[i] == FromLink(r.1);
      assert recs[i] == r;
    }
    recs
  }

  /** The set-neighbours loop's records: the lines in order, each line's
      records in order. */
  function Records(lines: seq<Line>): (recs: seq<(nat, Link)>)
    ensures forall r :: r in recs <==>
      exists k :: 0 <= k < |lines| && r.0 == lines[k].index && FromLink(r.1) in lines[k].neighbours
  {
    if |lines| == 0 then []
    else
      var pre := lines[..|lines| - 1];
      var recs := Records(pre) + LineRecords(lines[|lines| - 1]);
      assert forall k :: 0 <= k < |pre| ==> pre[k] == lines[k];
      recs
  }

  /** Every line and crossing record names an existing line. */
  predicate InRange(lines: seq<Line>) {
    && (forall k :: 0 <= k < |lines| ==> lines[k].index < |lines|)
    && (forall k, n :: 0 <= k < |lines| && n in lines[k].neighbours ==> n.neighbourIndex < |lines|)
  }

  lemma {:induction false} ConsistentInRange(lines: seq<Line>)
    requires Indexed(lines) && Mirrored(lines)
    ensures InRange(lines)
  {
  }

  /** Every record names two existing lines. */
  lemma {:induction false} RecordsInRange(lines: seq<Line>)
    requires InRange(lines)
    ensures var recs := Records(lines);
      forall i :: 0 <= i < |recs| ==> recs[i].0 < |lines| && recs[i].1.other < |lines|
  {
    var recs := Records(lines);
    forall i | 0 <= i < |recs|
      ensures recs[i].0 < |lines| && recs[i].1.other < |lines|
    {
      assert recs[i] in recs;
    }
  }

  /** The cwline loop followed by the set-neighbours loop. */
  function Build(bank: seq<set<string>>, lines: seq<Line>): (cw: seq<CwLine>)
    requires |bank| == Buckets && forall k :: 0 <= k < |lines| ==> lines[k].length < Buckets
    requires InRange(lines)
    ensures |cw| == |lines|
    ensures forall k :: 0 <= k < |lines| ==>
      && StacksOK(cw[k]) && cw[k].length == lines[k].length
      && |cw[k].wordSet| == 1 && Top(cw[k]) == bank[lines[k].length] && !Last(cw[k].lockedIn)
  {
    RecordsInRange(lines);
    RegisterAll(Fresh(bank, lines), Records(lines))
  }

  /** `rec` read from the other end of its link. */
  function Mirror(rec: (nat, Link)): (nat, Link) {
    (rec.1.other, Link(rec.0, rec.1.otherIdx, rec.1.ownIdx))
  }

  /** Link `l` of line `k` was registered: it is a record, or the mirror
      image of one. */
  predicate Registered(recs: seq<(nat, Link)>, k: nat, l: Link) {
    (k, l) in recs || Mirror((k, l)) in recs
  }

  /** The set-neighbours loop adds exactly the records and their mirror
      images. */
  lemma {:induction false} RegisterAllExact(cw: seq<CwLine>, recs: seq<(nat, Link)>)
    requires forall i :: 0 <= i < |recs| ==> recs[i].0 < |cw| && recs[i].1.other < |cw|
    ensures forall k, l :: 0 <= k < |cw| ==>
      (l in RegisterAll(cw, recs)[k].neighbours <==> l in cw[k].neighbours || Registered(recs, k, l))
    decreases |recs|
  {
    if |recs| > 0 {
      var (a, n) := recs[0];
      var cw1 := SetNeighbour(cw, a, n.other, n.ownIdx, n.otherIdx);
      RegisterAllExact(cw1, recs[1..]);
      forall k, l | 0 <= k < |cw|
        ensures l in RegisterAll(cw, recs)[k].neighbours <==> l in cw[k].neighbours || Registered(recs, k, l)
      {
        RegisteredStep(recs, k, l);
      }
    }
  }

  lemma {:induction false} RegisteredStep(recs: seq<(nat, Link)>, k: nat, l: Link)
    requires |recs| > 0
    ensures Registered(recs, k, l) <==>
      (k, l) == recs[0] || Mirror((k, l)) == recs[0] || Registered(recs[1..], k, l)
  {
    assert recs == [recs[0]] + recs[1..];
  }

  /** A line's own records are exactly its crossing records. */
  lemma {:induction false} OwnRecord(lines: seq<Line>, k: nat, l: Link)
    requires Indexed(lines) && k < |lines|
    ensures (k, l) in Records(lines) <==> FromLink(l) in lines[k].neighbours
  {
  }

  /** A mirror image of a record is a crossing record of the line it leads to. */
  lemma {:induction false} MirrorRecord(lines: seq<Line>, k: nat, l: Link)
    requires Indexed(lines) && Mirrored(lines) && k < |lines| && Mirror((k, l)) in Records(lines)
    ensures FromLink(l) in lines[k].neighbours
  {
    var j :| 0 <= j < |lines| && l.other == lines[j].index && FromLink(Link(k, l.otherIdx, l.ownIdx)) in lines[j].neighbours;
    assert Neighbour(k, l.otherIdx, l.ownIdx) in lines[j].neighbours;
  }

  /** Built from consistent lines, each cwline's links are exactly its own
      crossing records. */
  lemma {:induction false} BuildNeighbours(bank: seq<set<string>>, lines: seq<Line>)
    requires |bank| == Buckets && forall k :: 0 <= k < |lines| ==> lines[k].length < Buckets
    requires Indexed(lines) && Mirrored(lines)
    ensures InRange(lines)
    ensures forall k, l :: 0 <= k < |lines| ==>
      (l in Build(bank, lines)[k].neighbours <==> FromLink(l) in lines[k].neighbours)
  {
    ConsistentInRange(lines);
    RecordsInRange(lines);
    var recs := Records(lines);
    RegisterAllExact(Fresh(bank, lines), recs);
    forall k, l | 0 <= k < |lines|
      ensures l in Build(bank, lines)[k].neighbours <==> FromLink(l) in lines[k].neighbours
    {
      OwnRecord(lines, k, l);
      if Mirror((k, l)) in recs {
        MirrorRecord(lines, k, l);
      }
    }
  }

  /** Built from consistent lines, every link leads to an existing line
      from an offset on its own line. */
  lemma {:induction false} BuildLinked(bank: seq<set<string>>, lines: seq<Line>)
    requires |bank| == Buckets && forall k :: 0 <= k < |lines| ==> lines[k].length < Buckets
    requires Indexed(lines) && Mirrored(lines)
    ensures InRange(lines) && Linked(Build(bank, lines))
  {
    BuildNeighbours(bank, lines);
    var cw := Build(bank, lines);
    forall k | 0 <= k < |cw|
      ensures LineLinked(cw[k], |cw|)
    {
      forall l | l in cw[k].neighbours
        ensures l.other < |cw| && l.ownIdx < cw[k].length
      {
        assert FromLink(l) in lines[k].neighbours;
      }
    }
  }

  /** Built from consistent lines, the links are reciprocal and their far
      offsets lie on the lines they lead to. */
  lemma {:induction false} BuildReciprocal(bank: seq<set<string>>, lines: seq<Line>)
    requires |bank| == Buckets && forall k :: 0 <= k < |lines| ==> lines[k].length < Buckets
    requires Indexed(lines) && Mirrored(lines)
    ensures InRange(lines) && Reciprocal(Build(bank, lines))
    ensures var cw := Build(bank, lines);
      forall k, l :: 0 <= k < |cw| && l in cw[k].neighbours && l.other < |cw| ==> l.otherIdx < cw[l.other].length
  {
    BuildNeighbours(bank, lines);
    var cw := Build(bank, lines);
    forall k, l | 0 <= k < |cw| && l in cw[k].neighbours
      ensures l.other < |cw| && l.otherIdx < cw[l.other].length
      ensures Link(k, l.otherIdx, l.ownIdx) in cw[l.other].neighbours
    {
      assert FromLink(l) in lines[k].neighbours;
      assert FromLink(Link(k, l.otherIdx, l.ownIdx)) in lines[l.other].neighbours;
    }
  }

  /** Over a bank whose buckets hold words of their length, the built
      crossword is well formed. */
  lemma {:induction false} BuildWellFormed(bank: seq<set<string>>, lines: seq<Line>)
    requires |bank| == Buckets && forall k :: 0 <= k < |lines| ==> lines[k].length < Buckets
    requires forall n, w :: 0 <= n < Buckets && w in bank[n] ==> |w| == n
    requires Indexed(lines) && Mirrored(lines)
    ensures InRange(lines) && WellFormed(Build(bank, lines))
  {
    BuildLinked(bank, lines);
    BuildReciprocal(bank, lines);
    var cw := Build(bank, lines);
    forall k | 0 <= k < |cw|
      ensures LineFits(cw[k])
    {
      assert cw[k].wordSet == [Top(cw[k])];
    }
  }

  /** Built from consistent lines, any iteration order of a line's links,
      in any crossword of the same shape, meets the precondition of the
      undo and skip lemmas: no line is visited twice, nor the line itself. */
  lemma {:induction false} BuildOrdersDistinct(bank: seq<set<string>>, lines: seq<Line>, cw: seq<CwLine>, k: nat, order: seq<Link>)
    requires |bank| == Buckets && forall j :: 0 <= j < |lines| ==> lines[j].length < Buckets
    requires Consistent(lines) && k < |lines|
    requires InRange(lines) && SameShape(Build(bank, lines), cw)
    requires Enumerates(order, cw[k].neighbours)
    ensures DistinctOthers(order, k)
  {
    BuildNeighbours(bank, lines);
    var ns := lines[k].neighbours;
    forall i | 0 <= i < |order|
      ensures order[i].other != k
    {
      assert FromLink(order[i]) in ns;
    }
    forall i, j | 0 <= i < j < |order|
      ensures order[i].other != order[j].other
    {
      assert FromLink(order[i]) in ns && FromLink(order[j]) in ns;
      var a :| 0 <= a < |ns| && ns[a] == FromLink(order[i]);
      var b :| 0 <= b < |ns| && ns[b] == FromLink(order[j]);
      assert a != b;
      if a < b {
        assert ns[a].neighbourIndex != ns[b].neighbourIndex;
      } else {
        assert ns[b].neighbourIndex != ns[a].neighbourIndex;
      }
    }
  }

  // ---------------------------------------------------------------------
  // Applying the grid's letters

  /** The locked-in letters loop: each line's sent word, lines in order. */
  function StartUp(cw: seq<CwLine>, lines: seq<Line>, k: nat): (cw': seq<CwLine>)
    requires Linked(cw) && k <= |lines|
    requires forall j :: 0 <= j < |lines| ==> lines[j].index < |cw| && |lines[j].word| <= cw[lines[j].index].length
    ensures Linked(cw') && SameShape(cw, cw')
    ensures forall j :: 0 <= j < |cw| ==> Top(cw'[j]) <= Top(cw[j])
    decreases |lines| - k
  {
    if k == |lines| then cw
    else
      var cw1 := ApplyLocked(cw, lines[k].index, lines[k].word, 0);
      StartUp(cw1, lines, k + 1)
  }

  lemma {:induction false} StartUpFits(cw: seq<CwLine>, lines: seq<Line>, k: nat)
    requires Linked(cw) && Fits(cw) && k <= |lines|
    requires forall j :: 0 <= j < |lines| ==> lines[j].index < |cw| && |lines[j].word| <= cw[lines[j].index].length
    ensures Fits(StartUp(cw, lines, k))
    decreases |lines| - k
  {
    if k < |lines| {
      ApplyLockedFits(cw, lines[k].index, lines[k].word, 0);
      StartUpFits(ApplyLocked(cw, lines[k].index, lines[k].word, 0), lines, k + 1);
    }
  }

  /** Some candidate of `l` agrees with the sent word `word`. */
  ghost predicate HasMatch(l: CwLine, word: string)
    requires |l.wordSet| > 0
  {
    exists w :: w in Top(l) && Matches(w, word, 0)
  }

  /** When the lines have distinct indices and each line has a candidate
      agreeing with its sent word, the loop leaves on each line exactly the
      candidates agreeing with every character of its word other than '.',
      and leaves the lines no word was sent for alone. */
  lemma {:induction false} StartUpExact(cw: seq<CwLine>, lines: seq<Line>, k: nat)
    requires Linked(cw) && k <= |lines|
    requires forall j :: 0 <= j < |lines| ==> lines[j].index < |cw| && |lines[j].word| <= cw[lines[j].index].length
    requires forall a, b :: k <= a < b < |lines| ==> lines[a].index != lines[b].index
    requires forall j :: k <= j < |lines| ==> HasMatch(cw[lines[j].index], lines[j].word)
    ensures forall j, v :: k <= j < |lines| ==>
      (v in Top(StartUp(cw, lines, k)[lines[j].index]) <==> v in Top(cw[lines[j].index]) && Matches(v, lines[j].word, 0))
    ensures forall n :: 0 <= n < |cw| && (forall j :: k <= j < |lines| ==> lines[j].index != n) ==>
      StartUp(cw, lines, k)[n] == cw[n]
    decreases |lines| - k
  {
    if k < |lines| {
      var idx := lines[k].index;
      assert HasMatch(cw[idx], lines[k].word);
      var w :| w in Top(cw[idx]) && Matches(w, lines[k].word, 0);
      ApplyLockedExact(cw, idx, lines[k].word, 0, w);
      var cw1 := ApplyLocked(cw, idx, lines[k].word, 0);
      forall j | k + 1 <= j < |lines|
        ensures cw1[lines[j].index] == cw[lines[j].index]
      {
        assert lines[k].index != lines[j].index;
      }
      StartUpExact(cw1, lines, k + 1);
      var r := StartUp(cw1, lines, k + 1);
      assert StartUp(cw, lines, k) == r;
      assert r[idx] == cw1[idx] by {
        forall j | k + 1 <= j < |lines|
          ensures lines[j].index != idx
        {
          assert lines[k].index != lines[j].index;
        }
      }
      forall j, v | k <= j < |lines|
        ensures v in Top(r[lines[j].index]) <==> v in Top(cw[lines[j].index]) && Matches(v, lines[j].word, 0)
      {
        if j > k {
          assert cw1[lines[j].index] == cw[lines[j].index];
        }
      }
      forall n | 0 <= n < |cw| && (forall j :: k <= j < |lines| ==> lines[j].index != n)
        ensures r[n] == cw[n]
      {
        assert n != idx && cw1[n] == cw[n];
      }
    }
  }

  /** The whole generate-from-grid section for the editor's grid: a line of
      60 or more cells has no bucket in the word bank. */
  function Generate(bank: seq<set<string>>, g: Grid): (cw: seq<CwLine>)
    requires |bank| == Buckets && Rectangular(g) && |g| > 0
    requires forall k :: 0 <= k < |TransformGridForPython(g)| ==> TransformGridForPython(g)[k].length < Buckets
    ensures |cw| == |AllSpans(g)| && Linked(cw)
    ensures forall k :: 0 <= k < |cw| ==> Top(cw[k]) <= bank[TransformGridForPython(g)[k].length]
  {
    var lines := TransformGridForPython(g);
    GridLinesConsistent(g);
    BuildLinked(bank, lines);
    StartUp(Build(bank, lines), lines, 0)
  }

  /** Over a bank of words of their bucket's length, the search starts from
      a well-formed crossword with reciprocal links. */
  lemma {:induction false} GenerateWellFormed(bank: seq<set<string>>, g: Grid)
    requires |bank| == Buckets && Rectangular(g) && |g| > 0
    requires forall k :: 0 <= k < |TransformGridForPython(g)| ==> TransformGridForPython(g)[k].length < Buckets
    requires forall n, w :: 0 <= n < Buckets && w in bank[n] ==> |w| == n
    ensures WellFormed(Generate(bank, g)) && Reciprocal(Generate(bank, g))
  {
    var lines := TransformGridForPython(g);
    GridLinesConsistent(g);
    BuildWellFormed(bank, lines);
    BuildReciprocal(bank, lines);
    var b := Build(bank, lines);
    StartUpFits(b, lines, 0);
    ShapeKeepsReciprocal(b, StartUp(b, lines, 0));
  }

  /** lockIn can always be undone and its conflicts skipped: in every
      crossword of the start's shape, every iteration order of a line's
      links visits distinct other lines. */
  lemma {:induction false} GenerateOrdersDistinct(bank: seq<set<string>>, g: Grid, cw: seq<CwLine>, k: nat, order: seq<Link>)
    requires |bank| == Buckets && Rectangular(g) && |g| > 0
    requires forall k :: 0 <= k < |TransformGridForPython(g)| ==> TransformGridForPython(g)[k].length < Buckets
    requires SameShape(Generate(bank, g), cw) && k < |cw| && Enumerates(order, cw[k].neighbours)
    ensures DistinctOthers(order, k)
  {
    var lines := TransformGridForPython(g);
    GridLinesConsistent(g);
    BuildLinked(bank, lines);
    BuildOrdersDistinct(bank, lines, cw, k, order);
  }
}

=== FILE: requests.dfy ===
/** What the creator hands to the solver and to the blacklist: the autofill
    precondition and the grid it sends, the blacklist word array, and the
    "blacklist the selected word" action. */
module Requests {
  import opened Basics
  import opened Grid
  import opened GridFuns
  import opened Text

  // ---------------------------------------------------------------------
  // The autofill request

  /** Some cell, black or not, carries a clue flag. */
  predicate HasAnyClue(g: Grid) {
    exists r, c :: 0 <= r < |g| && 0 <= c < |g[r]| && (g[r][c].hasAcrossClue || g[r][c].hasDownClue)
  }

  /** Some cell, black or not, is marked as autofill zone. */
  predicate HasZone(g: Grid) {
    exists r, c :: 0 <= r < |g| && 0 <= c < |g[r]| && g[r][c].isAutofillZone
  }

  /** The message shown when no cell carries a clue flag. */
  const NoCluesMessage: string := "Please mark clues!"

  /** The letter of a white cell is emptied when the grid has a zone and
      the cell is in it, or when the grid has no zone at all. */
  function Blanked(cell: Cell, hasZone: bool): (b: Cell)
    ensures b == cell.(letter := b.letter)
    ensures cell.isBlack ==> b == cell
    ensures !cell.isBlack && (cell.isAutofillZone || !hasZone) ==> b.letter == Blank
    ensures !cell.isBlack && !cell.isAutofillZone && hasZone ==> b.letter == cell.letter
  {
    if cell.isBlack then cell
    else cell.(letter := if !hasZone || cell.isAutofillZone then Blank else cell.letter)
  }

  /** The grid with every cell blanked. */
  function BlankedGrid(g: Grid, hasZone: bool): (g': Grid)
    requires Rectangular(g)
    ensures Rectangular(g') && Height(g') == Height(g) && Width(g') == Width(g)
    ensures forall p :: InBounds(g, p) ==> At(g', p) == Blanked(At(g, p), hasZone)
  {
    seq(|g|, r requires 0 <= r < |g| =>
      seq(|g[r]|, c requires 0 <= c < |g[r]| => Blanked(g[r][c], hasZone)))
  }

  /** The handleAutofill precondition and gridToSend: refuse when no cell
      carries a clue flag; otherwise send the grid with the letters to be
      refilled emptied. Black cells are sent unchanged. */
  function AutofillRequest(g: Grid): (r: Result<Grid, string>)
    requires Rectangular(g)
    ensures r.Failure? <==> !HasAnyClue(g)
    ensures r.Failure? ==> r.error == NoCluesMessage
    ensures r.Success? ==> var g' := r.value;
      && Rectangular(g') && Height(g') == Height(g) && Width(g') == Width(g)
      && forall p :: InBounds(g, p) ==> At(g', p) == Blanked(At(g, p), HasZone(g))
  {
    if !HasAnyClue(g) then Failure(NoCluesMessage)
    else Success(BlankedGrid(g, HasZone(g)))
  }

  /** Blanking keeps zones. */
  lemma {:induction false} BlankedKeepsZone(g: Grid, hasZone: bool)
    requires Rectangular(g)
    ensures HasZone(BlankedGrid(g, hasZone)) == HasZone(g)
  {
    var g' := BlankedGrid(g, hasZone);
    if HasZone(g) {
      var r, c :| 0 <= r < |g| && 0 <= c < |g[r]| && g[r][c].isAutofillZone;
      assert At(g', Pos(r, c)) == Blanked(At(g, Pos(r, c)), hasZone);
    }
    if HasZone(g') {
      var r, c :| 0 <= r < |g'| && 0 <= c < |g'[r]| && g'[r][c].isAutofillZone;
      assert At(g', Pos(r, c)) == Blanked(At(g, Pos(r, c)), hasZone);
    }
  }

  /** Blanking keeps clue flags. */
  lemma {:induction false} BlankedKeepsClues(g: Grid, hasZone: bool)
    requires Rectangular(g)
    ensures HasAnyClue(BlankedGrid(g, hasZone)) == HasAnyClue(g)
  {
    var g' := BlankedGrid(g, hasZone);
    if HasAnyClue(g) {
      var r, c :| 0 <= r < |g| && 0 <= c < |g[r]| && (g[r][c].hasAcrossClue || g[r][c].hasDownClue);
      assert At(g', Pos(r, c)) == Blanked(At(g, Pos(r, c)), hasZone);
    }
    if HasAnyClue(g') {
      var r, c :| 0 <= r < |g'| && 0 <= c < |g'[r]| && (g'[r][c].hasAcrossClue || g'[r][c].hasDownClue);
      assert At(g', Pos(r, c)) == Blanked(At(g, Pos(r, c)), hasZone);
    }
  }

  /** Sending changes neither flags nor zones, so a sent grid would be sent
      again unchanged. */
  lemma {:induction false} AutofillRequestIdempotent(g: Grid)
    requires Rectangular(g) && AutofillRequest(g).Success?
    ensures AutofillRequest(AutofillRequest(g).value) == AutofillRequest(g)
  {
    var hz := HasZone(g);
    var g' := BlankedGrid(g, hz);
    BlankedKeepsZone(g, hz);
    BlankedKeepsClues(g, hz);
    var g2 := BlankedGrid(g', hz);
    forall p | InBounds(g', p)
      ensures At(g2, p) == At(g', p)
    {
    }
    SameCellsSameGrid(g2, g');
  }

  // ---------------------------------------------------------------------
  // The blacklist array

  /** The blacklist's pieces between single spaces, each trimmed: the
      `existing` list of handleAddToBlacklist. */
  function Pieces(s: string): (ps: seq<string>)
    ensures |ps| >= 1 && |ps| == |Split(s, ' ')|
    ensures forall i :: 0 <= i < |ps| ==> ps[i] == Trim(Split(s, ' ')[i]) && ' ' !in ps[i]
    ensures forall i :: 0 <= i < |ps| ==> Trim(ps[i]) == ps[i]
  {
    var parts := Split(s, ' ');
    var ps := seq(|parts|, i requires 0 <= i < |parts| => Trim(parts[i]));
    forall i | 0 <= i < |ps|
      ensures Trim(ps[i]) == ps[i]
    {
      TrimIdempotent(parts[i]);
    }
    ps
  }

  /** Pieces that are trimmed and free of spaces survive a join and a
      re-split unchanged. */
  lemma {:induction false} PiecesOfJoin(xs: seq<string>)
    requires |xs| >= 1
    requires forall i :: 0 <= i < |xs| ==> ' ' !in xs[i] && Trim(xs[i]) == xs[i]
    ensures Pieces(Join(xs, ' ')) == xs
  {
    SplitJoin(xs, ' ');
  }

  /** The non-empty pieces, in order: what handleAutofill sends for one
      space-separated list. */
  function Words(xs: seq<string>): (ws: seq<string>)
    ensures forall w :: w in ws <==> w in xs && w != ""
    ensures forall i :: 0 <= i < |ws| ==> ws[i] in xs && ws[i] != ""
    ensures |ws| <= |xs|
  {
    if |xs| == 0 then []
    else if xs[0] == "" then Words(xs[1..])
    else [xs[0]] + Words(xs[1..])
  }

  /** The empty blacklist has one empty piece. */
  lemma {:induction false} PiecesOfEmpty()
    ensures Pieces("") == [""]
  {
    assert Split("", ' ') == [""];
    TrimKeeps("");
  }

  /** The words of two piece lists, the second possibly skipped. */
  lemma {:induction false} WordsOfBoth(pa: seq<string>, pb: seq<string>, a: seq<string>, b: seq<string>, skipB: bool)
    requires forall w :: w in a <==> w in pa && w != ""
    requires forall w :: w in b <==> !skipB && w in pb && w != ""
    requires skipB ==> pb == [""]
    requires forall i :: 0 <= i < |pa| ==> ' ' !in pa[i] && Trim(pa[i]) == pa[i]
    requires forall i :: 0 <= i < |pb| ==> ' ' !in pb[i] && Trim(pb[i]) == pb[i]
    ensures forall w :: w in a + b <==> w != "" && (w in pa || w in pb)
    ensures forall i :: 0 <= i < |a + b| ==> (a + b)[i] != "" && ' ' !in (a + b)[i] && Trim((a + b)[i]) == (a + b)[i]
  {
    forall i | 0 <= i < |a + b|
      ensures (a + b)[i] != "" && ' ' !in (a + b)[i] && Trim((a + b)[i]) == (a + b)[i]
    {
      var w := (a + b)[i];
      assert w in a || w in b;
      if w in pa {
        var j :| 0 <= j < |pa| && pa[j] == w;
      } else {
        var j :| 0 <= j < |pb| && pb[j] == w;
      }
    }
  }

  /** blacklistArray: the visible blacklist's words followed, when the
      hidden one is non-empty, by its words. */
  function BlacklistArray(blacklist: string, secret: string): (ws: seq<string>)
    ensures forall w :: w in ws <==> w != "" && (w in Pieces(blacklist) || w in Pieces(secret))
    ensures forall i :: 0 <= i < |ws| ==> ws[i] != "" && ' ' !in ws[i] && Trim(ws[i]) == ws[i]
  {
    var pa := Pieces(blacklist);
    var pb := Pieces(secret);
    var a := Words(pa);
    var b := if secret != "" then Words(pb) else [];
    PiecesOfEmpty();
    WordsOfBoth(pa, pb, a, b, secret == "");
    a + b
  }

  // ---------------------------------------------------------------------
  // Blacklisting the selected word

  /** The run getWordCoordinates highlights, as offsets `[s, e)` of the
      cursor's lane. */
  function SelectedRun(g: Grid, p: Pos, d: Direction): (se: (nat, nat))
    requires Rectangular(g) && InBounds(g, p)
    ensures LaneOf(d, p) < Lanes(g, d) && se.0 <= se.1 <= LaneLen(g, d)
  {
    var b := Blacks(g, d, LaneOf(d, p));
    var s := RunStart(b, OffsetOf(d, p));
    (s, RunEnd(b, s))
  }

  /** The run is the highlighted word. */
  lemma {:induction false} SelectedRunHighlighted(g: Grid, p: Pos, d: Direction)
    requires Rectangular(g) && InBounds(g, p)
    ensures Cells(d, LaneOf(d, p), SelectedRun(g, p, d).0, SelectedRun(g, p, d).1) == WordCoordinates(g, p.row, p.col, d)
  {
  }

  /** The grid with every letter of offsets `[s, e)` of a lane emptied. */
  function ClearStretch(g: Grid, d: Direction, lane: nat, s: nat, e: nat): (g': Grid)
    requires Rectangular(g)
    ensures Rectangular(g') && Height(g') == Height(g) && Width(g') == Width(g)
    ensures forall q :: InBounds(g, q) ==>
      At(g', q) == if q in Cells(d, lane, s, e) then At(g, q).(letter := Blank) else At(g, q)
  {
    var cs := Cells(d, lane, s, e);
    seq(|g|, r requires 0 <= r < |g| =>
      seq(|g[r]|, c requires 0 <= c < |g[r]| =>
        if Pos(r, c) in cs then g[r][c].(letter := Blank) else g[r][c]))
  }

  /** The highlighted letters in order, or nothing if a highlighted cell
      is empty. */
  function SelectedWord(g: Grid, p: Pos, d: Direction): (w: Option<string>)
    requires Rectangular(g) && InBounds(g, p)
    ensures var (s, e) := SelectedRun(g, p, d); var lane := LaneOf(d, p);
      w.None? <==> exists i :: s <= i < e && LetterAt(g, d, lane, i) == Blank
    ensures var (s, e) := SelectedRun(g, p, d); var lane := LaneOf(d, p);
      w.Some? ==> |w.value| == e - s && forall i :: 0 <= i < e - s ==> LetterAt(g, d, lane, s + i) == Ch(w.value[i])
  {
    var se := SelectedRun(g, p, d);
    var word := ReadLetters(g, d, LaneOf(d, p), se.0, se.1);
    if |word| < se.1 - se.0 then None else Some(word)
  }

  /** getCompleteWordAtSelected: nothing (and no change) if a highlighted
      cell is empty; otherwise the highlighted letters, with those cells
      emptied. */
  function CompleteWordAtSelected(g: Grid, p: Pos, d: Direction): (r: (Option<string>, Grid))
    requires Rectangular(g) && InBounds(g, p)
    ensures r.0 == SelectedWord(g, p, d)
    ensures r.0.None? ==> r.1 == g
    ensures r.0.Some? ==> r.1 == ClearStretch(g, d, LaneOf(d, p), SelectedRun(g, p, d).0, SelectedRun(g, p, d).1)
  {
    var se := SelectedRun(g, p, d);
    var w := SelectedWord(g, p, d);
    if w.None? then (None, g)
    else (w, ClearStretch(g, d, LaneOf(d, p), se.0, se.1))
  }

  datatype AddOutcome = Incomplete | AlreadyListed | Added

  /** handleAddToBlacklist: an incomplete (or empty) selection changes
      nothing; a word already among the trimmed pieces leaves the blacklist
      as it was but its letters are still emptied; a new word is appended to
      the trimmed pieces, joined by single spaces, and its letters emptied. */
  function AddToBlacklist(g: Grid, p: Pos, d: Direction, blacklist: string): (r: (AddOutcome, Grid, string))
    requires Rectangular(g) && InBounds(g, p)
    ensures var s := SelectedRun(g, p, d).0; var e := SelectedRun(g, p, d).1;
      r.0 == Incomplete <==> !(s < e && forall i :: s <= i < e ==> LetterAt(g, d, LaneOf(d, p), i) != Blank)
    ensures r.0 == Incomplete ==> r.1 == g && r.2 == blacklist
    ensures r.0 != Incomplete ==>
      r.1 == ClearStretch(g, d, LaneOf(d, p), SelectedRun(g, p, d).0, SelectedRun(g, p, d).1)
    ensures r.0 != Incomplete ==> var w := CompleteWordAtSelected(g, p, d).0.value;
      && (r.0 == AlreadyListed <==> w in Pieces(blacklist))
      && (r.0 == AlreadyListed ==> r.2 == blacklist)
      && (r.0 == Added ==> r.2 == Join(Pieces(blacklist) + [w], ' '))
  {
    var (word, g1) := CompleteWordAtSelected(g, p, d);
    if word.None? || word.value == "" then (Incomplete, g, blacklist)
    else
      var existing := Pieces(blacklist);
      if word.value in existing then (AlreadyListed, g1, blacklist)
      else (Added, g1, Join(existing + [word.value], ' '))
  }

  /** Appending a word free of white space to the pieces and joining them
      gives a blacklist whose pieces are the old ones and the word. */
  lemma {:induction false} AppendedPieces(blacklist: string, w: string)
    requires forall i :: 0 <= i < |w| ==> !IsJsSpace(w[i])
    ensures Pieces(Join(Pieces(blacklist) + [w], ' ')) == Pieces(blacklist) + [w]
  {
    var xs := Pieces(blacklist) + [w];
    assert ' ' !in w by {
      assert forall i :: 0 <= i < |w| ==> w[i] != ' ';
    }
    TrimKeeps(w);
    assert forall i :: 0 <= i < |xs| ==> ' ' !in xs[i] && Trim(xs[i]) == xs[i] by {
      assert forall i :: 0 <= i < |xs| - 1 ==> xs[i] == Pieces(blacklist)[i];
    }
    PiecesOfJoin(xs);
  }

  /** A word free of white space that was added is listed afterwards, after
      exactly the pieces listed before. */
  lemma {:induction false} AddedIsListed(g: Grid, p: Pos, d: Direction, blacklist: string)
    requires Rectangular(g) && InBounds(g, p)
    requires AddToBlacklist(g, p, d, blacklist).0 == Added
    requires var w := CompleteWordAtSelected(g, p, d).0.value;
      forall i :: 0 <= i < |w| ==> !IsJsSpace(w[i])
    ensures Pieces(AddToBlacklist(g, p, d, blacklist).2)
         == Pieces(blacklist) + [CompleteWordAtSelected(g, p, d).0.value]
  {
    AppendedPieces(blacklist, CompleteWordAtSelected(g, p, d).0.value);
  }

  /** Adding the same word again is refused and leaves the blacklist as it is. */
  lemma {:induction false} AddAgainRefused(g: Grid, p: Pos, d: Direction, blacklist: string)
    requires Rectangular(g) && InBounds(g, p)
    requires AddToBlacklist(g, p, d, blacklist).0 == Added
    requires var w := CompleteWordAtSelected(g, p, d).0.value;
      forall i :: 0 <= i < |w| ==> !IsJsSpace(w[i])
    ensures var once := AddToBlacklist(g, p, d, blacklist).2;
      AddToBlacklist(g, p, d, once).0 == AlreadyListed && AddToBlacklist(g, p, d, once).2 == once
  {
    var w := CompleteWordAtSelected(g, p, d).0.value;
    var once := AddToBlacklist(g, p, d, blacklist).2;
    var again := AddToBlacklist(g, p, d, once);
    AddedIsListed(g, p, d, blacklist);
    assert w in Pieces(once) by {
      assert Pieces(once)[|Pieces(blacklist)|] == w;
    }
    assert again.0 != Incomplete;
  }
}

=== FILE: solver.dfy ===
/** The solver's bookkeeping: the word bank, and per line a stack of
    candidate sets with the constrain / lockIn operations, the undo
    discipline that pops them, the choice of the next line to fill and the
    rule for skipping candidates. Lines are identified by their index in
    the crossword. */
module Solver {
  import opened Basics

  // ---------------------------------------------------------------------
  // The word bank

  /** The bank has one bucket per word length 0..59. */
  const Buckets: nat := 60

  /** One line of the word list: a word and its quality score. */
  datatype Entry = Entry(word: string, quality: int)

  predicate Accepted(e: Entry, minQuality: int, blacklist: seq<string>) {
    e.quality > minQuality && e.word !in blacklist
  }

  /** `w` is accepted by one of the first `k` entries. */
  ghost predicate AcceptedBefore(entries: seq<Entry>, k: int, minQuality: int, blacklist: seq<string>, w: string) {
    exists j :: 0 <= j < k && j < |entries| && entries[j].word == w && Accepted(entries[j], minQuality, blacklist)
  }

  /** The word-bank filter: every word with quality above `minQuality` and
      not on the blacklist goes into the bucket of its length. An accepted
      word of 60 or more characters has no bucket; loading stops with the
      index of the first such entry. */
  method LoadWordBank(entries: seq<Entry>, minQuality: int, blacklist: seq<string>)
    returns (r: Result<seq<set<string>>, nat>)
    ensures r.Success? <==>
      forall j :: 0 <= j < |entries| && Accepted(entries[j], minQuality, blacklist) ==> |entries[j].word| < Buckets
    ensures r.Failure? ==>
      && r.error < |entries| && Accepted(entries[r.error], minQuality, blacklist)
      && |entries[r.error].word| >= Buckets
      && forall j :: 0 <= j < r.error && Accepted(entries[j], minQuality, blacklist) ==> |entries[j].word| < Buckets
    ensures r.Success? ==> |r.value| == Buckets
    ensures r.Success? ==> forall n, w :: 0 <= n < Buckets ==>
      (w in r.value[n] <==> |w| == n && AcceptedBefore(entries, |entries|, minQuality, blacklist, w))
  {
    var bank: seq<set<string>> := seq(Buckets, _ => {});
    var i := 0;
    while i < |entries|
      invariant 0 <= i <= |entries| && |bank| == Buckets
      invariant forall j :: 0 <= j < i && Accepted(entries[j], minQuality, blacklist) ==> |entries[j].word| < Buckets
      invariant forall n, w :: 0 <= n < Buckets ==>
        (w in bank[n] <==> |w| == n && AcceptedBefore(entries, i, minQuality, blacklist, w))
    {
      var e := entries[i];
      if Accepted(e, minQuality, blacklist) {
        if |e.word| >= Buckets {
          return Failure(i);
        }
        bank := bank[|e.word| := bank[|e.word|] + {e.word}];
      }
      i := i + 1;
    }
    return Success(bank);
  }

  // ---------------------------------------------------------------------
  // Lines

  /** `ownIdx` of this line is `otherIdx` of line `other`. */
  datatype Link = Link(other: nat, ownIdx: nat, otherIdx: nat)

  /** cwline: the stack of candidate sets, the crossing links, the stack of
      locked-in flags and the stack of last constrainers (None for a
      constraint that came from the grid's own letters). */
  datatype CwLine = CwLine(
    wordSet: seq<set<string>>,
    neighbours: set<Link>,
    lockedIn: seq<bool>,
    lastConstrainer: seq<Option<nat>>,
    length: nat)

  /** The stacks are non-empty and in step: every push onto the candidate
      stack goes with a push onto exactly one of the other two. */
  predicate StacksOK(l: CwLine) {
    && |l.wordSet| >= 1 && |l.lockedIn| >= 1 && |l.lastConstrainer| >= 1
    && |l.wordSet| + 1 == |l.lastConstrainer| + |l.lockedIn|
  }

  function Top(l: CwLine): set<string>
    requires |l.wordSet| > 0
  {
    l.wordSet[|l.wordSet| - 1]
  }

  function Last<T>(xs: seq<T>): T
    requires |xs| > 0
  {
    xs[|xs| - 1]
  }

  /** Line `l` of a crossword of `m` lines has in-step stacks, and its
      links lead to existing lines from offsets on `l`. */
  predicate LineLinked(l: CwLine, m: nat) {
    && StacksOK(l)
    && forall n :: n in l.neighbours ==> n.other < m && n.ownIdx < l.length
  }

  ghost predicate Linked(cw: seq<CwLine>) {
    forall k :: 0 <= k < |cw| ==> LineLinked(cw[k], |cw|)
  }

  /** Every candidate set of `l` holds only words of its length. */
  ghost predicate LineFits(l: CwLine) {
    forall i, w :: 0 <= i < |l.wordSet| && w in l.wordSet[i] ==> |w| == l.length
  }

  /** Every candidate has its line's length, and every link's offset lies
      on the line it leads to. */
  ghost predicate Fits(cw: seq<CwLine>) {
    && (forall k :: 0 <= k < |cw| ==> LineFits(cw[k]))
    && (forall k, n :: 0 <= k < |cw| && n in cw[k].neighbours && n.other < |cw| ==> n.otherIdx < cw[n.other].length)
  }

  ghost predicate WellFormed(cw: seq<CwLine>) {
    Linked(cw) && Fits(cw)
  }

  /** Same lines with the same lengths and links (the stacks may differ). */
  predicate SameShape(cw: seq<CwLine>, cw': seq<CwLine>) {
    |cw'| == |cw| && forall k :: 0 <= k < |cw| ==> cw'[k].length == cw[k].length && cw'[k].neighbours == cw[k].neighbours
  }

  /** `cwline(length, ...)`: one candidate set (the bank's bucket), no
      links, not locked in, no constrainer. */
  function NewLine(bank: seq<set<string>>, length: nat): (l: CwLine)
    requires |bank| == Buckets && length < Buckets
    ensures StacksOK(l) && Top(l) == bank[length] && l.neighbours == {} && !Last(l.lockedIn)
  {
    CwLine([bank[length]], {}, [false], [None], length)
  }

  // ---------------------------------------------------------------------
  // setNeighbour

  /** Every link has its mirror image on the other line. */
  ghost predicate Reciprocal(cw: seq<CwLine>) {
    forall k, n :: 0 <= k < |cw| && n in cw[k].neighbours ==>
      n.other < |cw| && Link(k, n.otherIdx, n.ownIdx) in cw[n.other].neighbours
  }

  /** Reciprocity depends only on the shape. */
  lemma {:induction false} ShapeKeepsReciprocal(cw: seq<CwLine>, cw': seq<CwLine>)
    requires Reciprocal(cw) && SameShape(cw, cw')
    ensures Reciprocal(cw')
  {
    forall k, n | 0 <= k < |cw'| && n in cw'[k].neighbours
      ensures n.other < |cw'| && Link(k, n.otherIdx, n.ownIdx) in cw'[n.other].neighbours
    {
      assert n in cw[k].neighbours;
    }
  }

  /** setNeighbour(a, b, own, other): add the link on `a` and its mirror
      image on `b`. */
  function SetNeighbour(cw: seq<CwLine>, a: nat, b: nat, own: nat, other: nat): (cw': seq<CwLine>)
    requires a < |cw| && b < |cw|
    ensures |cw'| == |cw|
    ensures forall k :: 0 <= k < |cw| ==> cw'[k] == cw[k].(neighbours := cw'[k].neighbours)
    ensures forall k :: 0 <= k < |cw| ==>
      (cw'[k].neighbours ==
       cw[k].neighbours + (if k == a then {Link(b, own, other)} else {}) + (if k == b then {Link(a, other, own)} else {}))
  {
    var cw1 := cw[a := cw[a].(neighbours := cw[a].neighbours + {Link(b, own, other)})];
    cw1[b := cw1[b].(neighbours := cw1[b].neighbours + {Link(a, other, own)})]
  }

  /** Registering a crossing keeps the links reciprocal. */
  lemma {:induction false} SetNeighbourReciprocal(cw: seq<CwLine>, a: nat, b: nat, own: nat, other: nat)
    requires a < |cw| && b < |cw| && Reciprocal(cw)
    ensures Reciprocal(SetNeighbour(cw, a, b, own, other))
  {
    var cw' := SetNeighbour(cw, a, b, own, other);
    forall k, n | 0 <= k < |cw'| && n in cw'[k].neighbours
      ensures n.other < |cw'| && Link(k, n.otherIdx, n.ownIdx) in cw'[n.other].neighbours
    {
      if n !in cw[k].neighbours {
        assert (k == a && n == Link(b, own, other)) || (k == b && n == Link(a, other, own));
      }
    }
  }

  /** Because links form a set, registering a crossing from the other line
      as well changes nothing. */
  lemma {:induction false} SetNeighbourBothWays(cw: seq<CwLine>, a: nat, b: nat, own: nat, other: nat)
    requires a < |cw| && b < |cw|
    ensures SetNeighbour(SetNeighbour(cw, a, b, own, other), b, a, other, own) == SetNeighbour(cw, a, b, own, other)
  {
    var c1 := SetNeighbour(cw, a, b, own, other);
    var c2 := SetNeighbour(c1, b, a, other, own);
    assert forall k :: 0 <= k < |cw| ==> c2[k] == c1[k];
  }

  /** The set-neighbours loop over every line's crossing records
      (line index, link), in order. */
  function RegisterAll(cw: seq<CwLine>, recs: seq<(nat, Link)>): (cw': seq<CwLine>)
    requires forall i :: 0 <= i < |recs| ==> recs[i].0 < |cw| && recs[i].1.other < |cw|
    ensures |cw'| == |cw|
    ensures forall k :: 0 <= k < |cw| ==> cw'[k] == cw[k].(neighbours := cw'[k].neighbours)
    ensures forall i :: 0 <= i < |recs| ==> recs[i].1 in cw'[recs[i].0].neighbours
    ensures forall k :: 0 <= k < |cw| ==> cw[k].neighbours <= cw'[k].neighbours
    decreases |recs|
  {
    if |recs| == 0 then cw
    else
      var (k, n) := recs[0];
      var cw1 := SetNeighbour(cw, k, n.other, n.ownIdx, n.otherIdx);
      RegisterAll(cw1, recs[1..])
  }

  /** Starting from lines without links, the registered links are
      reciprocal. */
  lemma {:induction false} RegisterAllReciprocal(cw: seq<CwLine>, recs: seq<(nat, Link)>)
    requires forall i :: 0 <= i < |recs| ==> recs[i].0 < |cw| && recs[i].1.other < |cw|
    requires Reciprocal(cw)
    ensures Reciprocal(RegisterAll(cw, recs))
    decreases |recs|
  {
    if |recs| > 0 {
      var (k, n) := recs[0];
      SetNeighbourReciprocal(cw, k, n.other, n.ownIdx, n.otherIdx);
      RegisterAllReciprocal(SetNeighbour(cw, k, n.other, n.ownIdx, n.otherIdx), recs[1..]);
    }
  }

  // ---------------------------------------------------------------------
  // constrain

  /** The candidates with `letter` at `index`. */
  function Filtered(ws: set<string>, index: nat, letter: char): (fs: set<string>)
    ensures fs <= ws
    ensures forall w :: w in fs <==> w in ws && index < |w| && w[index] == letter
  {
    set w | w in ws && index < |w| && w[index] == letter
  }

  /** For a subset, a smaller size means a proper subset. */
  lemma {:induction false} SubsetSize(a: set<string>, b: set<string>)
    requires a <= b
    ensures |a| < |b| <==> a < b
  {
    if a < b {
      var x :| x in b && x !in a;
      assert a <= b - {x};
      assert |b - {x}| == |b| - 1;
      SubsetCard(a, b - {x});
    } else {
      assert a == b;
    }
  }

  lemma {:induction false} SubsetCard(a: set<string>, b: set<string>)
    requires a <= b
    ensures |a| <= |b|
    decreases |b|
  {
    if a != {} {
      var x :| x in a;
      SubsetCard(a - {x}, b - {x});
    }
  }

  /** Pop what a constrain pushed. */
  function PopConstraint(l: CwLine): CwLine
    requires |l.wordSet| > 0 && |l.lastConstrainer| > 0
  {
    l.(wordSet := l.wordSet[..|l.wordSet| - 1], lastConstrainer := l.lastConstrainer[..|l.lastConstrainer| - 1])
  }

  /** Pop what a successful lockIn pushed onto its own line. */
  function PopLocked(l: CwLine): CwLine
    requires |l.wordSet| > 0 && |l.lockedIn| > 0
  {
    l.(wordSet := l.wordSet[..|l.wordSet| - 1], lockedIn := l.lockedIn[..|l.lockedIn| - 1])
  }

  /** `for node in toRemove: node.wordSet.pop(); node.lastConstrainer.pop()`. */
  function PopNodes(cw: seq<CwLine>, toRemove: set<nat>): (cw': seq<CwLine>)
    requires forall j :: 0 <= j < |cw| && j in toRemove ==> |cw[j].wordSet| > 0 && |cw[j].lastConstrainer| > 0
    ensures |cw'| == |cw|
    ensures forall j :: 0 <= j < |cw| ==> cw'[j] == if j in toRemove then PopConstraint(cw[j]) else cw[j]
  {
    seq(|cw|, j requires 0 <= j < |cw| => if j in toRemove then PopConstraint(cw[j]) else cw[j])
  }

  /** `cw'` is `cw` with one constraint pushed onto each line of `pushed`. */
  predicate PushedOnce(cw: seq<CwLine>, cw': seq<CwLine>, pushed: set<nat>) {
    && |cw'| == |cw|
    && forall j :: 0 <= j < |cw| ==>
         if j in pushed then |cw'[j].wordSet| > 1 && |cw'[j].lastConstrainer| > 1 && PopConstraint(cw'[j]) == cw[j]
         else cw'[j] == cw[j]
  }

  /** Pushes onto disjoint sets of lines add up. */
  lemma {:induction false} PushedOnceCompose(a: seq<CwLine>, b: seq<CwLine>, c: seq<CwLine>, p: set<nat>, q: set<nat>)
    requires PushedOnce(a, b, p) && PushedOnce(b, c, q) && p !! q
    ensures PushedOnce(a, c, p + q)
  {
  }

  /** The result of a constrain: the crossword, the lines to pop, and the
      letter that emptied the candidate set, if any. */
  datatype Step = Step(cw: seq<CwLine>, toRemove: set<nat>, conflict: Option<char>)

  /** constrain: keep the candidates of line `k` with `letter` at `index`.
      If none is left, report the letter and change nothing. Otherwise push
      the survivors, push the constrainer when the set shrank (else repeat
      the previous one), and add `k` to the lines to pop. */
  function Constrain(cw: seq<CwLine>, k: nat, index: nat, letter: char, constrainer: Option<nat>,
                     toRemove: set<nat>): (r: Step)
    requires k < |cw| && StacksOK(cw[k])
    ensures r.conflict.Some? <==> Filtered(Top(cw[k]), index, letter) == {}
    ensures r.conflict.Some? ==> r == Step(cw, toRemove, Some(letter))
    ensures r.conflict.None? ==> r.toRemove == toRemove + {k} && PushedOnce(cw, r.cw, {k})
  {
    var l := cw[k];
    var newSet := Filtered(Top(l), index, letter);
    if |newSet| == 0 then Step(cw, toRemove, Some(letter))
    else
      var lc := if |newSet| < |Top(l)| then constrainer else Last(l.lastConstrainer);
      var l' := l.(wordSet := l.wordSet + [newSet], lastConstrainer := l.lastConstrainer + [lc]);
      assert PopConstraint(l') == l by {
        assert l'.wordSet[..|l.wordSet|] == l.wordSet;
        assert l'.lastConstrainer[..|l.lastConstrainer|] == l.lastConstrainer;
      }
      Step(cw[k := l'], toRemove + {k}, None)
  }

  /** What a successful constrain pushes: the surviving candidates, and
      the constrainer exactly when the candidate set shrank. */
  lemma {:induction false} ConstrainTop(cw: seq<CwLine>, k: nat, index: nat, letter: char, constrainer: Option<nat>, toRemove: set<nat>)
    requires k < |cw| && StacksOK(cw[k])
    ensures var r := Constrain(cw, k, index, letter, constrainer, toRemove);
      r.conflict.None? ==>
        && Top(r.cw[k]) == Filtered(Top(cw[k]), index, letter)
        && Last(r.cw[k].lastConstrainer) == if Top(r.cw[k]) < Top(cw[k]) then constrainer else Last(cw[k].lastConstrainer)
  {
    SubsetSize(Filtered(Top(cw[k]), index, letter), Top(cw[k]));
  }

  /** Pushing constraints keeps the crossword linked and its shape. */
  lemma {:induction false} PushedKeeps(cw: seq<CwLine>, cw': seq<CwLine>, pushed: set<nat>)
    requires PushedOnce(cw, cw', pushed) && Linked(cw)
    ensures Linked(cw') && SameShape(cw, cw')
    ensures forall j :: 0 <= j < |cw| ==> cw'[j].lockedIn == cw[j].lockedIn
  {
    forall j | 0 <= j < |cw|
      ensures LineLinked(cw'[j], |cw'|) && cw'[j].length == cw[j].length && cw'[j].neighbours == cw[j].neighbours
      ensures cw'[j].lockedIn == cw[j].lockedIn
    {
      assert LineLinked(cw[j], |cw|);
      if j in pushed {
        assert PopConstraint(cw'[j]) == cw[j];
      }
    }
  }

  /** Replacing a line by one of the same shape whose candidates fit
      keeps the crossword's candidates fitting. */
  lemma {:induction false} ReplaceKeepsFits(cw: seq<CwLine>, k: nat, l': CwLine)
    requires Fits(cw) && k < |cw| && LineFits(l')
    requires l'.length == cw[k].length && l'.neighbours == cw[k].neighbours
    ensures Fits(cw[k := l'])
  {
  }

  /** A constrain keeps the crossword linked and its shape. */
  lemma {:induction false} ConstrainLinked(cw: seq<CwLine>, k: nat, index: nat, letter: char, constrainer: Option<nat>, toRemove: set<nat>)
    requires Linked(cw) && k < |cw|
    ensures var r := Constrain(cw, k, index, letter, constrainer, toRemove);
      Linked(r.cw) && SameShape(cw, r.cw) && forall j :: 0 <= j < |cw| ==> r.cw[j].lockedIn == cw[j].lockedIn
  {
    assert LineLinked(cw[k], |cw|);
    var r := Constrain(cw, k, index, letter, constrainer, toRemove);
    if r.conflict.None? {
      PushedKeeps(cw, r.cw, {k});
    }
  }

  /** A constrain keeps every candidate at its line's length. */
  lemma {:induction false} ConstrainFits(cw: seq<CwLine>, k: nat, index: nat, letter: char, constrainer: Option<nat>, toRemove: set<nat>)
    requires k < |cw| && StacksOK(cw[k]) && Fits(cw)
    ensures Fits(Constrain(cw, k, index, letter, constrainer, toRemove).cw)
  {
    var r := Constrain(cw, k, index, letter, constrainer, toRemove);
    if r.conflict.None? {
      ConstrainTop(cw, k, index, letter, constrainer, toRemove);
      var l := cw[k];
      var l' := r.cw[k];
      assert PopConstraint(l') == l;
      assert LineFits(l) && LineFits(l') by {
        assert forall i :: 0 <= i < |l.wordSet| ==> l'.wordSet[i] == l.wordSet[i];
      }
      assert r.cw == cw[k := l'];
      ReplaceKeepsFits(cw, k, l');
    }
  }

  // ---------------------------------------------------------------------
  // lockIn

  datatype Lock = Lock(cw: seq<CwLine>, toRemove: set<nat>, conflict: Option<(char, nat)>)

  /** The links of `self` from position `i` of `links` on: constrain each
      crossing line by the word's letter; stop at the first line left
      without candidates and report (letter, own offset). */
  function LockLinks(cw: seq<CwLine>, self: nat, word: string, links: seq<Link>, i: nat, toRemove: set<nat>): (r: Lock)
    requires Linked(cw) && self < |cw| && |word| == cw[self].length
    requires i <= |links| && forall j :: 0 <= j < |links| ==> links[j] in cw[self].neighbours
    ensures Linked(r.cw) && SameShape(cw, r.cw)
    ensures forall j :: 0 <= j < |cw| ==> r.cw[j].lockedIn == cw[j].lockedIn
    ensures toRemove <= r.toRemove
    ensures r.conflict.Some? ==> r.conflict.value.1 < |word| && word[r.conflict.value.1] == r.conflict.value.0
    decreases |links| - i
  {
    if i == |links| then Lock(cw, toRemove, None)
    else
      var n := links[i];
      assert LineLinked(cw[self], |cw|);
      ConstrainLinked(cw, n.other, n.otherIdx, word[n.ownIdx], Some(self), toRemove);
      var s := Constrain(cw, n.other, n.otherIdx, word[n.ownIdx], Some(self), toRemove);
      if s.conflict.Some? then Lock(cw, toRemove, Some((s.conflict.value, n.ownIdx)))
      else LockLinks(s.cw, self, word, links, i + 1, s.toRemove)
  }

  /** `order` lists each link of the set exactly once: the iteration order
      of the neighbour set. */
  ghost predicate Enumerates(order: seq<Link>, links: set<Link>) {
    && (forall n :: n in links <==> n in order)
    && (forall i, j :: 0 <= i < j < |order| ==> order[i] != order[j])
  }

  /** Push a locked-in word onto a line's own stacks. */
  function PushLocked(l: CwLine, word: string): (l': CwLine)
    ensures |l'.wordSet| == |l.wordSet| + 1 && |l'.lockedIn| == |l.lockedIn| + 1
    ensures l'.length == l.length && l'.neighbours == l.neighbours && (StacksOK(l) ==> StacksOK(l'))
    ensures PopLocked(l') == l && Top(l') == {word} && Last(l'.lockedIn)
  {
    var l' := l.(lockedIn := l.lockedIn + [true], wordSet := l.wordSet + [{word}]);
    assert l'.wordSet[..|l.wordSet|] == l.wordSet;
    assert l'.lockedIn[..|l.lockedIn|] == l.lockedIn;
    l'
  }

  /** Replacing a line by one of the same shape with in-step stacks keeps
      the crossword linked. */
  lemma {:induction false} ReplaceKeepsLinked(cw: seq<CwLine>, k: nat, l': CwLine)
    requires Linked(cw) && k < |cw| && StacksOK(l')
    requires l'.length == cw[k].length && l'.neighbours == cw[k].neighbours
    ensures Linked(cw[k := l']) && SameShape(cw, cw[k := l'])
  {
    assert LineLinked(cw[k], |cw|);
  }

  /** lockIn(word): constrain every crossing line (in the neighbour set's
      iteration order); on success push True and the single word onto the
      line's own stacks. */
  function LockIn(cw: seq<CwLine>, self: nat, word: string, order: seq<Link>, toRemove: set<nat>): (r: Lock)
    requires Linked(cw) && self < |cw| && |word| == cw[self].length
    requires Enumerates(order, cw[self].neighbours)
    ensures Linked(r.cw) && SameShape(cw, r.cw)
    ensures r.conflict.Some? ==> r.cw[self].lockedIn == cw[self].lockedIn
    ensures r.conflict.Some? ==> r.conflict.value.1 < |word| && word[r.conflict.value.1] == r.conflict.value.0
    ensures r.conflict.None? ==> Last(r.cw[self].lockedIn) && Top(r.cw[self]) == {word}
    ensures r.conflict.None? ==> |r.cw[self].lockedIn| == |cw[self].lockedIn| + 1
  {
    var r := LockLinks(cw, self, word, order, 0, toRemove);
    if r.conflict.Some? then r
    else
      var l' := PushLocked(r.cw[self], word);
      ReplaceKeepsLinked(r.cw, self, l');
      Lock(r.cw[self := l'], r.toRemove, None)
  }

  /** No two links lead to the same line, and none leads back: the lines
      cross pairwise at most once. */
  predicate DistinctOthers(links: seq<Link>, self: nat) {
    && (forall i, j :: 0 <= i < j < |links| ==> links[i].other != links[j].other)
    && (forall i :: 0 <= i < |links| ==> links[i].other != self)
  }

  /** One step of LockLinks: constrain the crossing line of link `i`, then
      stop or go on with the next link. */
  lemma {:induction false} LockLinksStep(cw: seq<CwLine>, self: nat, word: string, links: seq<Link>, i: nat, tr: set<nat>)
    requires Linked(cw) && self < |cw| && |word| == cw[self].length
    requires i < |links| && forall j :: 0 <= j < |links| ==> links[j] in cw[self].neighbours
    ensures links[i].ownIdx < |word| && links[i].other < |cw|
    ensures var n := links[i];
      var s := Constrain(cw, n.other, n.otherIdx, word[n.ownIdx], Some(self), tr);
      && Linked(s.cw) && SameShape(cw, s.cw)
      && LockLinks(cw, self, word, links, i, tr) ==
           if s.conflict.Some? then Lock(cw, tr, Some((word[n.ownIdx], n.ownIdx)))
           else LockLinks(s.cw, self, word, links, i + 1, s.toRemove)
  {
    assert LineLinked(cw[self], |cw|);
    var n := links[i];
    ConstrainLinked(cw, n.other, n.otherIdx, word[n.ownIdx], Some(self), tr);
  }

  /** A lockIn keeps every candidate at its line's length. */
  lemma {:induction false} LockLinksFits(cw: seq<CwLine>, self: nat, word: string, links: seq<Link>, i: nat, tr: set<nat>)
    requires Linked(cw) && Fits(cw) && self < |cw| && |word| == cw[self].length
    requires i <= |links| && forall j :: 0 <= j < |links| ==> links[j] in cw[self].neighbours
    ensures Fits(LockLinks(cw, self, word, links, i, tr).cw)
    decreases |links| - i
  {
    if i < |links| {
      var n := links[i];
      LockLinksStep(cw, self, word, links, i, tr);
      assert LineLinked(cw[n.other], |cw|);
      ConstrainFits(cw, n.other, n.otherIdx, word[n.ownIdx], Some(self), tr);
      var s := Constrain(cw, n.other, n.otherIdx, word[n.ownIdx], Some(self), tr);
      if s.conflict.None? {
        LockLinksFits(s.cw, self, word, links, i + 1, s.toRemove);
      }
    }
  }

  lemma {:induction false} PushLockedFits(l: CwLine, word: string)
    requires LineFits(l) && |word| == l.length
    ensures LineFits(PushLocked(l, word))
  {
    var l' := PushLocked(l, word);
    assert PopLocked(l') == l;
    assert forall i :: 0 <= i < |l.wordSet| ==> l'.wordSet[i] == l.wordSet[i];
  }

  /** A lockIn keeps the crossword well formed. */
  lemma {:induction false} LockInWellFormed(cw: seq<CwLine>, self: nat, word: string, order: seq<Link>, toRemove: set<nat>)
    requires WellFormed(cw) && self < |cw| && |word| == cw[self].length
    requires Enumerates(order, cw[self].neighbours)
    ensures WellFormed(LockIn(cw, self, word, order, toRemove).cw)
  {
    LockLinksFits(cw, self, word, order, 0, toRemove);
    var r := LockLinks(cw, self, word, order, 0, toRemove);
    if r.conflict.None? {
      var l := r.cw[self];
      var l' := PushLocked(l, word);
      assert LineFits(l);
      PushLockedFits(l, word);
      ReplaceKeepsFits(r.cw, self, l');
    }
  }

  /** The lines the links from position `i` on lead to. */
  function OthersFrom(links: seq<Link>, i: nat): set<nat> {
    set j | i <= j < |links| :: links[j].other
  }

  lemma {:induction false} OthersFromStep(links: seq<Link>, i: nat, self: nat)
    requires i < |links| && DistinctOthers(links, self)
    ensures OthersFrom(links, i) == {links[i].other} + OthersFrom(links, i + 1)
    ensures links[i].other !in OthersFrom(links, i + 1) && self !in OthersFrom(links, i)
  {
  }

  /** A push onto line `k` followed by pushes onto other lines is one push
      onto each line of the union. */
  lemma {:induction false} UndoStep(cw: seq<CwLine>, sCw: seq<CwLine>, rCw: seq<CwLine>, k: nat, tr: set<nat>, rTr: set<nat>, rest: set<nat>)
    requires k !in tr && k !in rest && PushedOnce(cw, sCw, {k})
    requires tr + {k} <= rTr && rTr - (tr + {k}) <= rest && PushedOnce(sCw, rCw, rTr - (tr + {k}))
    ensures rTr - tr <= {k} + rest && PushedOnce(cw, rCw, rTr - tr)
  {
    assert rTr - tr == {k} + (rTr - (tr + {k}));
    PushedOnceCompose(cw, sCw, rCw, {k}, rTr - (tr + {k}));
  }

  /** Each line constrained by the links was pushed onto exactly once and is
      recorded for popping; every other line is untouched. */
  lemma {:induction false} LockLinksUndo(cw: seq<CwLine>, self: nat, word: string, links: seq<Link>, i: nat, tr: set<nat>)
    requires Linked(cw) && self < |cw| && |word| == cw[self].length
    requires i <= |links| && forall j :: 0 <= j < |links| ==> links[j] in cw[self].neighbours
    requires DistinctOthers(links, self)
    requires OthersFrom(links, i) !! tr
    ensures var r := LockLinks(cw, self, word, links, i, tr);
      r.toRemove - tr <= OthersFrom(links, i) && PushedOnce(cw, r.cw, r.toRemove - tr)
    decreases |links| - i
  {
    var r := LockLinks(cw, self, word, links, i, tr);
    if i == |links| {
      assert r.toRemove - tr == {};
    } else {
      var n := links[i];
      LockLinksStep(cw, self, word, links, i, tr);
      var s := Constrain(cw, n.other, n.otherIdx, word[n.ownIdx], Some(self), tr);
      if s.conflict.Some? {
        assert r.toRemove - tr == {};
      } else {
        LinksCarryOver(cw, s.cw, self, word, links, i, tr, s.toRemove);
        LockLinksUndo(s.cw, self, word, links, i + 1, s.toRemove);
        UndoStep(cw, s.cw, r.cw, n.other, tr, r.toRemove, OthersFrom(links, i + 1));
      }
    }
  }

  /** After constraining the line of link `i`, the remaining links still
      lead from `self` to distinct lines outside the recorded set. */
  lemma {:induction false} LinksCarryOver(cw: seq<CwLine>, cw': seq<CwLine>, self: nat, word: string, links: seq<Link>, i: nat,
                                          tr: set<nat>, tr': set<nat>)
    requires self < |cw| && |word| == cw[self].length && SameShape(cw, cw')
    requires i < |links| && forall j :: 0 <= j < |links| ==> links[j] in cw[self].neighbours
    requires DistinctOthers(links, self) && OthersFrom(links, i) !! tr && tr' == tr + {links[i].other}
    ensures self < |cw'| && |word| == cw'[self].length
    ensures forall j :: 0 <= j < |links| ==> links[j] in cw'[self].neighbours
    ensures OthersFrom(links, i + 1) !! tr' && links[i].other !in tr && links[i].other !in OthersFrom(links, i + 1)
  {
    OthersFromStep(links, i, self);
  }

  /** Popping the pushed lines undoes the pushes. */
  lemma {:induction false} PopNodesUndoes(cw: seq<CwLine>, cw': seq<CwLine>, pushed: set<nat>)
    requires PushedOnce(cw, cw', pushed)
    ensures PopNodes(cw', pushed) == cw
  {
    var p := PopNodes(cw', pushed);
    assert forall j :: 0 <= j < |cw| ==> p[j] == cw[j];
  }

  /** The undo discipline: after a failed lockIn, popping the recorded
      lines restores the crossword; after a successful one, popping the
      line's own stacks as well restores it. */
  lemma {:induction false} LockInUndo(cw: seq<CwLine>, self: nat, word: string, order: seq<Link>)
    requires Linked(cw) && self < |cw| && |word| == cw[self].length
    requires Enumerates(order, cw[self].neighbours) && DistinctOthers(order, self)
    ensures var r := LockIn(cw, self, word, order, {});
      r.conflict.Some? ==> PopNodes(r.cw, r.toRemove) == cw
    ensures var r := LockIn(cw, self, word, order, {});
      r.conflict.None? ==> self !in r.toRemove && PopNodes(r.cw[self := PopLocked(r.cw[self])], r.toRemove) == cw
  {
    LockLinksUndo(cw, self, word, order, 0, {});
    var r := LockLinks(cw, self, word, order, 0, {});
    if |order| > 0 {
      OthersFromStep(order, 0, self);
    }
    PopNodesUndoes(cw, r.cw, r.toRemove);
    if r.conflict.None? {
      PushPopLocked(r.cw, self, word);
    }
  }

  lemma {:induction false} PushPopLocked(cw: seq<CwLine>, self: nat, word: string)
    requires self < |cw|
    ensures var l' := PushLocked(cw[self], word); cw[self := l'][self := PopLocked(l')] == cw
  {
  }

  /** Why the recorded conflicts may be skipped: if the links from `i` on
      fail for `w` with (letter, offset), they fail for any word with that
      letter at that offset, as long as the lines they lead to hold the
      same candidates (the line at the failing link is reached unchanged,
      since no earlier link leads to it). */
  lemma {:induction false} ConflictPersists(cwA: seq<CwLine>, cwB: seq<CwLine>, self: nat, w: string, w': string,
                                            links: seq<Link>, i: nat, trA: set<nat>, trB: set<nat>)
    requires Linked(cwA) && Linked(cwB) && self < |cwA| && self < |cwB| && cwA[self] == cwB[self]
    requires |w| == cwA[self].length && |w'| == |w|
    requires i <= |links| && forall j :: 0 <= j < |links| ==> links[j] in cwA[self].neighbours
    requires DistinctOthers(links, self)
    requires forall j :: i <= j < |links| ==> links[j].other < |cwA| && links[j].other < |cwB| && cwA[links[j].other] == cwB[links[j].other]
    requires LockLinks(cwA, self, w, links, i, trA).conflict.Some?
    requires w'[LockLinks(cwA, self, w, links, i, trA).conflict.value.1] == LockLinks(cwA, self, w, links, i, trA).conflict.value.0
    ensures LockLinks(cwB, self, w', links, i, trB).conflict.Some?
    decreases |links| - i
  {
    var n := links[i];
    LockLinksStep(cwA, self, w, links, i, trA);
    LockLinksStep(cwB, self, w', links, i, trB);
    var sA := Constrain(cwA, n.other, n.otherIdx, w[n.ownIdx], Some(self), trA);
    var sB := Constrain(cwB, n.other, n.otherIdx, w'[n.ownIdx], Some(self), trB);
    if sA.conflict.None? && sB.conflict.None? {
      AgreeAfterStep(cwA, cwB, sA.cw, sB.cw, self, links, i);
      ConflictPersists(sA.cw, sB.cw, self, w, w', links, i + 1, sA.toRemove, sB.toRemove);
    }
  }

  /** After both crosswords were pushed onto at the line of link `i`, they
      still agree on `self` and on the lines of the later links. */
  lemma {:induction false} AgreeAfterStep(cwA: seq<CwLine>, cwB: seq<CwLine>, sA: seq<CwLine>, sB: seq<CwLine>, self: nat,
                       links: seq<Link>, i: nat)
    requires i < |links| && DistinctOthers(links, self)
    requires PushedOnce(cwA, sA, {links[i].other}) && PushedOnce(cwB, sB, {links[i].other})
    requires self < |cwA| && self < |cwB| && cwA[self] == cwB[self]
    requires forall j :: i <= j < |links| ==> links[j].other < |cwA| && links[j].other < |cwB| && cwA[links[j].other] == cwB[links[j].other]
    ensures sA[self] == sB[self]
    ensures forall j :: i + 1 <= j < |links| ==> links[j].other < |sA| && links[j].other < |sB| && sA[links[j].other] == sB[links[j].other]
  {
    forall j | i + 1 <= j < |links|
      ensures links[j].other < |sA| && links[j].other < |sB| && sA[links[j].other] == sB[links[j].other]
    {
      assert links[j].other != links[i].other;
    }
  }

  /** The skip rule is sound: a word that matches a conflict recorded for
      another candidate of the same line, in the same crossword, would fail
      its lockIn. */
  lemma {:induction false} SkipIsSound(cw: seq<CwLine>, self: nat, w: string, w': string, order: seq<Link>)
    requires Linked(cw) && self < |cw| && |w| == cw[self].length && |w'| == |w|
    requires Enumerates(order, cw[self].neighbours) && DistinctOthers(order, self)
    requires LockIn(cw, self, w, order, {}).conflict.Some?
    requires w'[LockIn(cw, self, w, order, {}).conflict.value.1] == LockIn(cw, self, w, order, {}).conflict.value.0
    ensures LockIn(cw, self, w', order, {}).conflict.Some?
  {
    ConflictPersists(cw, cw, self, w, w', order, 0, {}, {});
  }

  // ---------------------------------------------------------------------
  // tryAll: line selection and the skip rule

  /** Line `k` is a candidate for filling: it exists and is not locked in. */
  predicate Open(cw: seq<CwLine>, k: int) {
    0 <= k < |cw| && StacksOK(cw[k]) && !Last(cw[k].lockedIn)
  }

  /** The line tryAll fills next: among the lines not locked in, one with
      the fewest current candidates, the first on ties; line 0 when every
      line is locked in. */
  ghost predicate MostConstrained(cw: seq<CwLine>, idx: nat) {
    && idx < |cw|
    && if exists k :: Open(cw, k) then
         && Open(cw, idx)
         && (forall k :: Open(cw, k) ==> |Top(cw[idx])| <= |Top(cw[k])|)
         && (forall k :: 0 <= k < idx && Open(cw, k) ==> |Top(cw[k])| > |Top(cw[idx])|)
       else idx == 0
  }

  /** tryAll's selection loop. */
  method SelectLine(cw: seq<CwLine>) returns (idx: nat)
    requires |cw| > 0 && forall k :: 0 <= k < |cw| ==> StacksOK(cw[k])
    ensures MostConstrained(cw, idx)
    ensures forall j :: MostConstrained(cw, j) ==> j == idx
  {
    var smallest: Option<nat> := None;
    idx := 0;
    var k := 0;
    while k < |cw|
      invariant 0 <= k <= |cw| && idx < |cw|
      invariant smallest.None? ==> idx == 0 && forall j :: 0 <= j < k ==> !Open(cw, j)
      invariant smallest.Some? ==>
        && idx < k && Open(cw, idx) && smallest.value == |Top(cw[idx])|
        && (forall j :: 0 <= j < k && Open(cw, j) ==> |Top(cw[idx])| <= |Top(cw[j])|)
        && (forall j :: 0 <= j < idx && Open(cw, j) ==> |Top(cw[j])| > |Top(cw[idx])|)
    {
      var line := cw[k];
      if !Last(line.lockedIn) && (smallest.None? || |Top(line)| < smallest.value) {
        smallest := Some(|Top(line)|);
        idx := k;
      }
      k := k + 1;
    }
  }

  /** A candidate tryAll passes over: one already placed elsewhere, or one
      with a letter recorded as a conflict at that offset. */
  predicate Skipped(w: string, used: set<string>, conflicts: set<(char, nat)>) {
    w in used || exists c :: c in conflicts && c.1 < |w| && w[c.1] == c.0
  }

  /** Only placed words and recorded conflicts cause a skip. */
  lemma {:induction false} SkipRule(w: string, used: set<string>, conflicts: set<(char, nat)>)
    ensures w in used ==> Skipped(w, used, conflicts)
    ensures forall c :: c in conflicts && c.1 < |w| && w[c.1] == c.0 ==> Skipped(w, used, conflicts)
    ensures Skipped(w, used, {}) <==> w in used
    ensures !Skipped(w, used, conflicts) ==> Skipped(w, used + {w}, conflicts)
  {
  }

  // ---------------------------------------------------------------------
  // Letters already in the grid

  /** The start-up pass over one line's sent word: constrain by each
      character except '.', with no constrainer. A character no candidate
      has at its offset changes nothing. */
  function ApplyLocked(cw: seq<CwLine>, k: nat, locked: string, i: nat): (cw': seq<CwLine>)
    requires Linked(cw) && k < |cw| && |locked| <= cw[k].length && i <= |locked|
    ensures Linked(cw') && SameShape(cw, cw')
    ensures forall j :: 0 <= j < |cw| && j != k ==> cw'[j] == cw[j]
    ensures Top(cw'[k]) <= Top(cw[k])
    decreases |locked| - i
  {
    if i == |locked| then cw
    else if locked[i] == '.' then ApplyLocked(cw, k, locked, i + 1)
    else
      ConstrainLinked(cw, k, i, locked[i], None, {});
      var s := Constrain(cw, k, i, locked[i], None, {});
      ApplyLocked(s.cw, k, locked, i + 1)
  }

  /** The start-up pass keeps every candidate at its line's length. */
  lemma {:induction false} ApplyLockedFits(cw: seq<CwLine>, k: nat, locked: string, i: nat)
    requires Linked(cw) && Fits(cw) && k < |cw| && |locked| <= cw[k].length && i <= |locked|
    ensures Fits(ApplyLocked(cw, k, locked, i))
    decreases |locked| - i
  {
    if i < |locked| {
      if locked[i] == '.' {
        ApplyLockedFits(cw, k, locked, i + 1);
      } else {
        ConstrainLinked(cw, k, i, locked[i], None, {});
        assert LineLinked(cw[k], |cw|);
        ConstrainFits(cw, k, i, locked[i], None, {});
        ApplyLockedFits(Constrain(cw, k, i, locked[i], None, {}).cw, k, locked, i + 1);
      }
    }
  }

  /** `w` agrees with every character of `locked` from offset `i` on,
      except the skipped '.'. */
  predicate Matches(w: string, locked: string, i: nat) {
    forall j :: i <= j < |locked| && locked[j] != '.' ==> j < |w| && w[j] == locked[j]
  }

  /** When some candidate agrees with the whole sent word, no constrain of
      the pass conflicts, and the pass leaves exactly the candidates that
      agree with every character other than '.'. */
  lemma {:induction false} ApplyLockedExact(cw: seq<CwLine>, k: nat, locked: string, i: nat, w: string)
    requires Linked(cw) && k < |cw| && |locked| <= cw[k].length && i <= |locked|
    requires w in Top(cw[k]) && Matches(w, locked, i)
    ensures forall v :: v in Top(ApplyLocked(cw, k, locked, i)[k]) <==> v in Top(cw[k]) && Matches(v, locked, i)
    decreases |locked| - i
  {
    if i < |locked| {
      if locked[i] == '.' {
        ApplyLockedExact(cw, k, locked, i + 1, w);
      } else {
        ConstrainLinked(cw, k, i, locked[i], None, {});
        assert w in Filtered(Top(cw[k]), i, locked[i]);
        ConstrainTop(cw, k, i, locked[i], None, {});
        var s := Constrain(cw, k, i, locked[i], None, {});
        ApplyLockedExact(s.cw, k, locked, i + 1, w);
        forall v
          ensures v in Top(ApplyLocked(cw, k, locked, i)[k]) <==> v in Top(cw[k]) && Matches(v, locked, i)
        {
          if v in Top(cw[k]) && Matches(v, locked, i + 1) && i < |v| && v[i] == locked[i] {
            assert Matches(v, locked, i);
          }
        }
      }
    }
  }

  /** `s` with every placeholder '_' replaced by '.'. */
  function Dotted(s: string): (t: string)
    ensures |t| == |s|
    ensures forall i :: 0 <= i < |s| ==> t[i] == if s[i] == '_' then '.' else s[i]
  {
    if |s| == 0 then "" else [if s[0] == '_' then '.' else s[0]] + Dotted(s[1..])
  }

  /** The grid sends '_' for an empty cell while only '.' is skipped, which
      is harmless: as long as no candidate contains '_', constraining by it
      fails and changes nothing, exactly as skipping it would. */
  lemma {:induction false} PlaceholderActsAsDot(cw: seq<CwLine>, k: nat, locked: string, i: nat)
    requires Linked(cw) && k < |cw| && |locked| <= cw[k].length && i <= |locked|
    requires forall w :: w in Top(cw[k]) ==> '_' !in w
    ensures ApplyLocked(cw, k, locked, i) == ApplyLocked(cw, k, Dotted(locked), i)
    decreases |locked| - i
  {
    var dl := Dotted(locked);
    if i < |locked| {
      if locked[i] == '.' {
        PlaceholderActsAsDot(cw, k, locked, i + 1);
      } else if locked[i] == '_' {
        ConstrainLinked(cw, k, i, '_', None, {});
        assert Filtered(Top(cw[k]), i, '_') == {};
        PlaceholderActsAsDot(cw, k, locked, i + 1);
        assert ApplyLocked(cw, k, dl, i) == ApplyLocked(cw, k, dl, i + 1);
      } else {
        ConstrainLinked(cw, k, i, locked[i], None, {});
        var s := Constrain(cw, k, i, locked[i], None, {});
        assert Top(s.cw[k]) <= Top(cw[k]);
        PlaceholderActsAsDot(s.cw, k, locked, i + 1);
      }
    }
  }
}

=== FILE: text.dfy ===
/** The JavaScript string operations the editor uses on the space-separated
    blacklist: `split` on one separator character, `join` with it, and
    `trim`. */
module Text {

  /** `s.split(sep)` for a one-character separator: the maximal pieces
      between separators, so a string with k separators has k + 1 pieces
      (the empty string splits into one empty piece). */
  function Split(s: string, sep: char): (parts: seq<string>)
    ensures |parts| >= 1
    ensures forall i :: 0 <= i < |parts| ==> sep !in parts[i]
  {
    if |s| == 0 then [""]
    else
      var rest := Split(s[1..], sep);
      if s[0] == sep then [""] + rest
      else [[s[0]] + rest[0]] + rest[1..]
  }

  /** `xs.join(sep)`. */
  function Join(xs: seq<string>, sep: char): string {
    if |xs| == 0 then ""
    else if |xs| == 1 then xs[0]
    else xs[0] + [sep] + Join(xs[1..], sep)
  }

  /** Splitting a string without separators gives the string itself. */
  lemma {:induction false} SplitNoSep(s: string, sep: char)
    requires sep !in s
    ensures Split(s, sep) == [s]
    decreases |s|
  {
    if |s| > 0 {
      assert sep !in s[1..] by {
        assert forall i :: 0 <= i < |s[1..]| ==> s[1..][i] == s[i + 1];
      }
      SplitNoSep(s[1..], sep);
      assert [s[0]] + s[1..] == s;
    }
  }

  /** A separator-free prefix followed by a separator is split off as one piece. */
  lemma {:induction false} SplitAfterPiece(a: string, sep: char, b: string)
    requires sep !in a
    ensures Split(a + [sep] + b, sep) == [a] + Split(b, sep)
    decreases |a|
  {
    var s := a + [sep] + b;
    if |a| == 0 {
      assert s[1..] == b;
    } else {
      assert s[1..] == a[1..] + [sep] + b;
      assert sep !in a[1..] by {
        assert forall i :: 0 <= i < |a[1..]| ==> a[1..][i] == a[i + 1];
      }
      SplitAfterPiece(a[1..], sep, b);
      assert s[0] == a[0] && s[0] != sep;
      assert [a[0]] + a[1..] == a;
    }
  }

  /** Joining then splitting gives back separator-free pieces. */
  lemma {:induction false} SplitJoin(xs: seq<string>, sep: char)
    requires |xs| >= 1
    requires forall i :: 0 <= i < |xs| ==> sep !in xs[i]
    ensures Split(Join(xs, sep), sep) == xs
    decreases |xs|
  {
    if |xs| == 1 {
      SplitNoSep(xs[0], sep);
    } else {
      SplitJoin(xs[1..], sep);
      SplitAfterPiece(xs[0], sep, Join(xs[1..], sep));
      assert [xs[0]] + xs[1..] == xs;
    }
  }

  /** Splitting then joining gives back the string. */
  lemma {:induction false} JoinSplit(s: string, sep: char)
    ensures Join(Split(s, sep), sep) == s
    decreases |s|
  {
    if |s| > 0 {
      var rest := Split(s[1..], sep);
      JoinSplit(s[1..], sep);
      if s[0] == sep {
        assert Split(s, sep) == [""] + rest;
        assert ([""] + rest)[1..] == rest;
      } else {
        var parts := [[s[0]] + rest[0]] + rest[1..];
        assert Split(s, sep) == parts;
        if |rest| == 1 {
          assert rest == [rest[0]];
        } else {
          assert parts[1..] == rest[1..];
          assert Join(rest, sep) == rest[0] + [sep] + Join(rest[1..], sep);
        }
        assert [s[0]] + s[1..] == s;
      }
    }
  }

  /** ECMAScript white space and line terminators: what `trim` removes. */
  predicate IsJsSpace(c: char) {
    || c == '\t' || c == '\n' || c == '\U{000B}' || c == '\U{000C}' || c == '\r'
    || c == ' ' || c == '\U{00A0}' || c == '\U{1680}'
    || ('\U{2000}' <= c <= '\U{200A}')
    || c == '\U{2028}' || c == '\U{2029}' || c == '\U{202F}' || c == '\U{205F}'
    || c == '\U{3000}' || c == '\U{FEFF}'
  }

  /** Drop leading white space: the longest suffix starting with a non-space. */
  function TrimStart(s: string): (r: string)
    ensures |r| <= |s| && r == s[|s| - |r|..]
    ensures forall k :: 0 <= k < |s| - |r| ==> IsJsSpace(s[k])
    ensures |r| > 0 ==> !IsJsSpace(r[0])
  {
    if |s| > 0 && IsJsSpace(s[0]) then TrimStart(s[1..]) else s
  }

  /** Drop trailing white space: the longest prefix ending with a non-space. */
  function TrimEnd(s: string): (r: string)
    ensures |r| <= |s| && r == s[..|r|]
    ensures forall k :: |r| <= k < |s| ==> IsJsSpace(s[k])
    ensures |r| > 0 ==> !IsJsSpace(r[|r| - 1])
  {
    if |s| > 0 && IsJsSpace(s[|s| - 1]) then TrimEnd(s[..|s| - 1]) else s
  }

  /** `r` is the piece of `s` at offset `i`, and everything around it is white space. */
  predicate TrimmedAt(s: string, r: string, i: int) {
    && 0 <= i <= |s| - |r| && r == s[i..i + |r|]
    && (forall k :: 0 <= k < i ==> IsJsSpace(s[k]))
    && (forall k :: i + |r| <= k < |s| ==> IsJsSpace(s[k]))
  }

  /** `s.trim()`: a contiguous piece of `s` with no white space at either
      end, everything removed being white space. */
  function Trim(s: string): (r: string)
    ensures |r| <= |s|
    ensures forall c :: c in r ==> c in s
    ensures |r| > 0 ==> !IsJsSpace(r[0]) && !IsJsSpace(r[|r| - 1])
    ensures exists i :: TrimmedAt(s, r, i)
  {
    var t := TrimStart(s);
    var r := TrimEnd(t);
    TrimBothEnds(s, t, r);
    r
  }

  /** Trimming the end after the start: `t` is a suffix of `s` after white
      space, `r` a prefix of `t` before white space. */
  lemma {:induction false} TrimBothEnds(s: string, t: string, r: string)
    requires |t| <= |s| && t == s[|s| - |t|..] && forall k :: 0 <= k < |s| - |t| ==> IsJsSpace(s[k])
    requires |r| <= |t| && r == t[..|r|] && forall k :: |r| <= k < |t| ==> IsJsSpace(t[k])
    ensures TrimmedAt(s, r, |s| - |t|)
    ensures forall c :: c in r ==> c in s
    ensures |r| > 0 ==> r[0] == t[0]
  {
    var i := |s| - |t|;
    assert r == s[i..i + |r|];
    forall k | i + |r| <= k < |s|
      ensures IsJsSpace(s[k])
    {
      assert s[k] == t[k - i];
    }
    forall c | c in r
      ensures c in s
    {
      var j :| 0 <= j < |r| && r[j] == c;
      assert s[i + j] == c;
    }
  }

  /** A string with no white space at its ends is its own trim. */
  lemma {:induction false} TrimKeeps(s: string)
    requires |s| == 0 || (!IsJsSpace(s[0]) && !IsJsSpace(s[|s| - 1]))
    ensures Trim(s) == s
  {
  }

  lemma {:induction false} TrimIdempotent(s: string)
    ensures Trim(Trim(s)) == Trim(s)
  {
    TrimKeeps(Trim(s));
  }
}
